=== FILE: README.md ===
# Polymarket market-making bot: a Dafny model of its trading core

This project models the sequential core of a market-making bot for
Polymarket prediction markets and proves properties about it. The core
covers:

- the inventory and risk manager: positions, average entry price,
  realized and unrealized PnL, exposure, a halt flag and size damping;
- the quote engine: fair value, spread, skew, the price ladder, tick
  rounding and the adverse-selection factor;
- the order manager, which diffs the wanted quotes against the tracked
  live orders;
- the paper-trading simulator, with queue depth, crossing orders that
  walk the book, and a per-fill ledger;
- the local order-book cache fed by the push channel, its subscriptions
  and its reconnect back-off;
- the exchange client's order-book prices and its simple paper ledger;
- the bot's requote flags and the risk filtering of quotes;
- the chat assistant's conversation store and event stream;
- the control server's state: the running flag, configuration, the list
  of target markets, the status snapshot and the push clients.

Each part is written as immutable datatypes and pure state-transforming
functions:

- Decimal amounts are `real`. Share counts are `int`.
- Python's `int()` on a Decimal is truncation toward zero
  (`Common.Trunc`).
- `quantize` is round-half-even (`Common.RoundHalfEven`).
- Python truthiness of an optional Decimal (None and 0 are both falsy)
  is `Common.Truthy`.
- Dicts that keep insertion order are association lists (`Dicts`).

Inputs the code cannot compute itself are parameters:

- clock readings, as seconds;
- fresh ids (`uuid4`);
- coin flips;
- answers from the exchange (`cancelOk`, `place`);
- the quote engine's output as the bot sees it (`Env`);
- the model's text chunks and optional failure in the chat stream.

Files (one module each unless noted):

- `common.dfy`: sides, trades, levels, rounding and truncation.
- `dicts.dfy`: insertion-ordered dicts.
- `book.dfy`: order-book sides, best prices, stable sort, level updates.
- `risk.dfy`: `src/risk_manager.py`.
- `quotes.dfy`: `src/quote_engine.py`.
- `orders.dfy`: `src/order_manager.py`.
- `paper_sim.dfy`: `src/paper_simulator.py`.
- `feed.dfy`: the market channel of `src/websocket.py`.
- `paper_client.dfy`: the paper part of `src/client.py`.
- `bot.dfy`: `src/bot.py`.
- `assistant.dfy` (modules `PromptText`, `Assistant`, `Suggestions`):
  `api/ai_assistant.py`.
- `server.dfy` (modules `Lists`, `Server`): `api/server.py`.

### Behaviour worth knowing

- **Reconnect delay.** `src/websocket.py` waits `min(interval * 2^count, 60)`
  seconds after a failure and gives up once the failure counter passes
  the maximum; a connection that closes cleanly is retried at once.
- **Stopping the bot.** `stop_bot` keeps `target_markets`.
- **A bot run that ends by itself.** When `_run_bot` returns on its own,
  only the running flag drops. The stop endpoint then refuses, and the
  stale bot object stays reported as "stopped" until the next start
  (`Server.EndedRunKeepsBot`).
- **An empty token id.** `remove_market` with an empty token id calls
  `cancel_all_orders("")`. The order manager reads "" as "every token",
  so all markets are cancelled (`Server.RemoveTokensCancels` only claims
  non-empty tokens).
- **The simulator's filters disagree on "".** `cancel_all_orders`
  selects orders whose token equals "", while `get_orders` treats "" as
  "all". The two agreement lemmas therefore require the token to be None
  or non-empty.
- **Success events of the chat stream.** They carry no `error` key; the
  model writes `error := false` for them.

## Model

| member | source | states |
|---|---|---|
| Book.Insert | src/websocket.py:659-667 | the side gains exactly the new level: one more entry, and the old levels plus the new one as a multiset |
| Book.SortSide | src/websocket.py:463-465 | the sort of one side is a permutation of its input, ordered descending for bids and ascending for asks |
| Book.InsertSorted | src/websocket.py:659-667 | inserting a level into a sorted side leaves it sorted |
| Book.SortSideIdempotent | src/websocket.py:463-465 | sorting an already sorted side returns it unchanged |
| Book.AppendThenSort | src/websocket.py:659-667 | appending a level to a sorted side and re-sorting is the same as inserting it in place |
| Book.BestBid | src/client.py:55-60 | the best bid is the first bid's price, or None exactly when there are no bids |
| Book.BestAsk | src/client.py:62-67 | the best ask is the first ask's price, or None exactly when there are no asks |
| Book.MidPrice | src/client.py:69-74 | the mid is (best bid + best ask) / 2, and exists only when both are truthy |
| Book.SpreadOf | src/client.py:76-81 | the spread is best ask − best bid, and exists only when both are truthy |
| Book.Vwap | src/client.py:92-101 | None exactly when the top `depth` levels hold zero total size; otherwise the price whose product with that total size is the levels' total notional, i.e. their volume-weighted price |
| Book.ValuesBetween | src/client.py:88-97 | levels priced in `[lo, hi]` with non-negative sizes have a notional between `lo` and `hi` times their total size |
| Book.VwapWithinPrices | src/client.py:88-104 | the volume-weighted price of such levels lies between their lowest and highest price |
| Book.WeightedMid | src/client.py:83-106 | None when either side is empty; the plain mid when either side's top levels hold no volume; otherwise the mean of the two volume-weighted prices |
| Book.WeightedMidWithinPrices | src/client.py:83-106 | when both sides are priced in `[lo, hi]` with non-negative sizes, the weighted mid lies in `[lo, hi]` too |
| Book.FindPrice | src/websocket.py:647-650 | finds the first level at the given price, and reports None only when no level has that price |
| Book.ApplyLevel | src/websocket.py:644-667 | at an existing price, size 0 removes the level and any other size overwrites it; at a new price a positive size inserts it and a non-positive size changes nothing |
| Book.ApplyLevelKeepsSorted | src/websocket.py:647-667 | every level change keeps a sorted side sorted |
| Book.ApplyChange | src/websocket.py:644-667 | a change touches only the side it names; the other side is left as it was |
| Book.ApplyChangeKeepsOrder | src/websocket.py:644-667 | a well-ordered book (bids descending, asks ascending) stays well ordered after any change |
| Book.BestPricesAreExtreme | src/client.py:55-67 | in a well-ordered book the first bid is the highest bid and the first ask the lowest ask |
| Risk.Flat | src/risk_manager.py:67-75 | an unseen token's position is flat: zero quantity, average and PnL |
| Risk.UpdateUnrealized | src/risk_manager.py:33-42 | unrealized PnL becomes (price − avg) × quantity, which is 0 when flat and (avg − price) × \|qty\| when short; no other field changes |
| Risk.ExtendedAvg | src/risk_manager.py:95-99 | the new average after extending a position conserves the cost basis: avg × new quantity = old cost + price × size |
| Risk.ApplyFillAsWritten | src/risk_manager.py:84-136 | as written: quantity moves by ±int(size); extending re-averages with the cost basis conserved and keeps realized PnL; reducing realizes PnL on the shares closed and keeps the average, while flipping sides restarts the average at the trade price; a trade that ends at 0 changes neither average nor realized PnL |
| Risk.ApplyFill | src/risk_manager.py:84-136 | the corrected update: identical, except that a trade ending at 0 realizes the PnL of the shares it closes |
| Risk.AsWrittenLosesClosingPnl | src/risk_manager.py:91-117 | as written, buying n shares and selling them all leaves realized PnL at 0, whatever the two prices |
| Risk.AsWrittenCounterexample | src/risk_manager.py:91-117 | as written, 10 shares bought at 0.50 and sold at 0.60 realize 0 rather than 1 |
| Risk.CorrectedRealizesRoundTrip | src/risk_manager.py:100-126 | with the corrected update, a round trip of n shares realizes exactly (sell − buy) × n |
| Risk.PositionOf | src/risk_manager.py:67-75 | the position for a token carries that token, and an unseen token gets a flat one |
| Risk.UpdatePosition | src/risk_manager.py:84-136 | corrected: the fill's token absorbs the fill by the corrected `Risk.ApplyFill` (the code realizes nothing on a fill that ends at 0; see Findings), every other token's position is unchanged, and the trade joins the history exactly once |
| Risk.UpdateQuantity | src/risk_manager.py:91-128 | one fill moves only its own token's quantity, by +int(size) for a buy and −int(size) for a sell |
| Risk.ReplayConservesQuantity | src/risk_manager.py:84-136 | replaying any sequence of fills moves each token's quantity by the sum of that token's signed sizes, and the history gains exactly those fills in order |
| Risk.ExposureFacts | src/risk_manager.py:138-160 | long minus short exposure is the signed notional; with non-negative entry prices both sums are non-negative |
| Risk.UpdateAllUnrealized | src/risk_manager.py:170-174 | positions whose token has a price are marked to it; the others are unchanged, and count and order are kept |
| Risk.CheckOrderAllowed | src/risk_manager.py:199-255 | an order is allowed exactly when trading is not halted, the new \|quantity\| is within the per-market limit, gross + notional is within the exposure limit and the new \|net\| is within the imbalance limit; a halt always wins |
| Risk.CheckDailyLoss | src/risk_manager.py:257-276 | trips exactly when total PnL < −limit; the halt flag afterwards is the old flag or the trip, so it is never cleared here; the daily PnL resets on a new day |
| Risk.HaltTrading | src/risk_manager.py:342-346 | sets the halt flag and its reason and leaves the daily PnL alone |
| Risk.ResumeTrading | src/risk_manager.py:348-352 | clears the halt flag and its reason and leaves the daily PnL alone |
| Risk.HaltIsSticky | src/risk_manager.py:257-276 | however many daily-loss checks follow, a halted manager stays halted; only resuming clears it |
| Risk.SizeAdjustment | src/risk_manager.py:310-340 | the size is the base size, or exactly half of it when a buy would grow a long past half the imbalance limit or a sell a short past it |
| Risk.MaxAbsQty | src/risk_manager.py:285-288 | the largest \|quantity\| bounds every position and is attained by one (0 when there are none) |
| Risk.NonZero | src/risk_manager.py:77-82 | exactly the positions with non-zero quantity |
| Risk.GetRiskMetrics | src/risk_manager.py:278-308 | total exposure is the gross exposure; imbalance is net / gross (0 when gross is 0) and lies in [−1, 1] for non-negative entries; the current maximum bounds and is attained by a position |
| Risk.MaxCoversZeros | src/risk_manager.py:285-288 | taking the maximum over non-zero positions only gives the maximum over all of them |
| Risk.RecordFill | src/risk_manager.py:384-386 | the fill is appended with its time, and snapshots are unchanged |
| Risk.KeepAfterMembers | src/risk_manager.py:381-382 | keeps exactly the snapshots newer than the cutoff, never more than it was given, and all of them exactly when every one is newer |
| Risk.KeepAfterAppend | src/risk_manager.py:381-382 | filtering a concatenation filters each part and keeps them in order |
| Risk.RecordSnapshot | src/risk_manager.py:368-382 | the fills are untouched, every kept snapshot is under 24 hours old, and the snapshots become the earlier ones newer than the cutoff, in order, followed by the new one as the latest |
| Risk.GetStatistics | src/risk_manager.py:404-421 | all zero with no snapshot; otherwise realized and unrealized are the latest snapshot's, the count is every fill recorded, and total = realized + unrealized |
| Risk.StatisticsAfterSnapshot | src/risk_manager.py:368-421 | right after a snapshot the statistics report exactly its realized and unrealized PnL, their sum, and every fill recorded so far |
| Risk.StatisticsAfterFill | src/risk_manager.py:384-421 | once a snapshot exists, recording a fill adds one to the count and leaves the reported PnL alone; before any snapshot the statistics stay all zero |
| Quotes.BasePrice | src/quote_engine.py:92-102 | a truthy mid always yields a price: the weighted mid when it is configured and present, else the mid |
| Quotes.FairValue | src/quote_engine.py:76-114 | None exactly when there is no book or no truthy mid; otherwise the lean-adjusted base price clamped into [min price, max price] |
| Quotes.FairValueLeansAgainstInventory | src/quote_engine.py:107-109 | an inventory within the skew threshold gives the flat fair value; a long past it never raises the fair value and a short past it never lowers it |
| Quotes.InventoryFactor | src/quote_engine.py:138-143 | the widening is 1 within the threshold and at least 1 beyond it |
| Quotes.ExpiryFactor | src/quote_engine.py:146-151 | the widening is 1 with no expiry or 48 hours or more left, and lies in (1, 2] closer to expiry |
| Quotes.DepthFactor | src/quote_engine.py:154-160 | the widening is 1.5 exactly for a thin book, else 1 |
| Quotes.Spread | src/quote_engine.py:116-168 | the spread is the product of its factors clamped into [min spread, max spread] |
| Quotes.ThinBookWidens | src/quote_engine.py:154-160 | the book affects the unclamped spread only through thinness, which widens it by exactly half |
| Quotes.InventorySkew | src/quote_engine.py:170-193 | (0, 0) within the threshold; beyond it both parts are −(inv / threshold) × 0.005, lowering quotes when long and raising them when short |
| Quotes.RoundPrice | src/quote_engine.py:349-351 | the rounded price is on the 0.01 grid and within half a tick of the input |
| Quotes.RoundPriceIdempotent | src/quote_engine.py:349-351 | rounding a rounded price changes nothing |
| Quotes.RoundPriceMonotone | src/quote_engine.py:349-351 | rounding preserves the order of prices |
| Quotes.AdjacentTicksCanCollide | src/quote_engine.py:349-351 | half-even rounding sends both 0.485 and 0.475 to 0.48 |
| Quotes.LevelSize | src/quote_engine.py:236-237 | a level's size is 20% smaller per level but never below 5 |
| Quotes.LevelPrice | src/quote_engine.py:240-252 | a level's price is on the tick grid, within half a tick of its unrounded target |
| Quotes.Ladder | src/quote_engine.py:232-259 | at most n quotes, each one a level's quote whose price is inside the band |
| Quotes.LadderContents | src/quote_engine.py:243-259 | every in-band level appears in the ladder, and nothing else does |
| Quotes.LadderOrdered | src/quote_engine.py:232-259 | with non-negative spacing, bids never rise and asks never fall along the ladder |
| Quotes.LadderBefore | src/quote_engine.py:232-259 | with non-negative spacing, every quote of the first n levels may stand before any deeper level's price |
| Quotes.LevelPriceMonotone | src/quote_engine.py:232-252 | with non-negative spacing, a deeper level is never priced better than a shallower one |
| Quotes.DefaultLadderCollides | src/quote_engine.py:232-252 | with the defaults, fair value 0.50 and spread 0.03, two bid levels land on the same tick |
| Quotes.QuoteSize | src/quote_engine.py:224 | a truthy override sets the size, else the default size is used |
| Quotes.CalculateQuotes | src/quote_engine.py:195-272 | None exactly when there is no fair value; otherwise it carries the fair value and spread, at most num_levels quotes per side, bids at or above the minimum price and asks at or below the maximum, ordered away from the fair value |
| Quotes.ExpectedPnl | src/quote_engine.py:353-374 | 0 unless both sides are quoted, and non-negative for a non-negative spread, probability and sizes |
| Quotes.ShouldQuote | src/quote_engine.py:274-305 | quoting goes ahead exactly when there is a truthy mid and either the inventory is at the maximum (the reason then names the side to block) or expiry is at least an hour away and the mid lies in [0.02, 0.98] |
| Quotes.KeepRecent | src/quote_engine.py:317-320 | keeps exactly the trades newer than the cutoff |
| Quotes.UpdateAdverseSelection | src/quote_engine.py:307-347 | an empty batch changes nothing; otherwise the window is refreshed, fewer than 5 trades give factor 1, with 5 or more the factor is 1 + 0.5 x abs(buy volume - sell volume) / total volume, and a zero total keeps the old factor; the factor stays within [1, 1.5] |
| Quotes.OtherSideEmpty | src/quote_engine.py:332-339 | a window whose trades are all on one side has zero volume on the other |
| Quotes.OneSidedFlowWidensMost | src/quote_engine.py:342-345 | entirely one-sided flow with positive volume gives the largest factor, exactly 1.5 |
| Quotes.BalancedFlowNeutral | src/quote_engine.py:342-345 | equal positive buy and sell volume gives factor exactly 1, leaving the spread alone |
| Quotes.UpdatePriceHistory | src/quote_engine.py:390-396 | the new price is last and the history keeps the newest 100 prices |
| Quotes.DetectMomentum | src/quote_engine.py:421-437 | 0 with fewer than 10 prices; otherwise the mean of the last 5 minus the mean of the 5 before them |
| Quotes.FlatHistoryNoMomentum | src/quote_engine.py:421-437 | a constant price history has zero momentum |
| Feed.ApplyPriceChange | src/websocket.py:638-669 | a change for an asset without a cached book does nothing; otherwise only that asset's book changes, by the level rule |
| Feed.HandleBookEvent | src/websocket.py:441-490 | the snapshot replaces the asset's cached book with a well-ordered permutation of the given levels; other books stay |
| Feed.ApplyPriceChangeKeepsOrder | src/websocket.py:638-669 | a well-ordered cache stays well ordered after a price change |
| Feed.StampMarket | src/websocket.py:392-396 | each change of a price_changes array is stamped with the event's market and otherwise kept |
| Feed.ApplyChanges | src/websocket.py:392-396 | applying a list of changes never adds or drops a cached book or a subscription |
| Feed.HandleEvent | src/websocket.py:392-412 | an event carrying a price_changes array, or any non-book event, applies its changes in order (none for an unknown type); a book event without such an array stores the snapshot; subscriptions never change |
| Feed.HandleMarketMessage | src/websocket.py:380-417 | a message that does not decode changes nothing; otherwise its events are handled in order; subscriptions never change |
| Feed.HandleEvents | src/websocket.py:386-412 | handling a list of events never changes the subscriptions |
| Feed.ApplyChangesKeepsOrder | src/websocket.py:392-396 | any list of changes keeps every cached book well ordered |
| Feed.EventsKeepOrder | src/websocket.py:392-417 | any list of events keeps every cached book well ordered |
| Feed.MessageKeepsOrder | src/websocket.py:380-417 | whatever the channel sends, every cached book stays well ordered |
| Feed.CachedBestBid | src/websocket.py:675-680 | the first cached bid's price, present exactly when the asset has a book with bids |
| Feed.CachedBestAsk | src/websocket.py:682-687 | the first cached ask's price, present exactly when the asset has a book with asks |
| Feed.CachedMid | src/websocket.py:689-696 | the cached mid agrees with the cached book's own mid price |
| Feed.Subscribe | src/websocket.py:254-268 | exactly the unseen assets are added and reported; with none, nothing changes |
| Feed.Unsubscribe | src/websocket.py:270-282 | exactly the subscribed assets are removed and reported, their books are dropped, and other books stay |
| Feed.SubscribeThenUnsubscribe | src/websocket.py:254-282 | subscribing to new assets and unsubscribing them restores the subscription set |
| Feed.BackoffDelay | src/websocket.py:300-303 | the delay never exceeds 60 seconds and is non-negative for a non-negative interval |
| Feed.AfterAttempt | src/websocket.py:286-318 | a clean close resets the counter and retries at once while the loop is still running, and ends the loop once it has been stopped; after a stop a failure also ends the loop; otherwise a failed connect adds one to the counter and a dropped session sets it to 1, and the loop retries after the back-off for that count unless the count passes the maximum, when it gives up |
| Feed.StreakSurvives | src/websocket.py:295-303 | while the counter stays within the maximum, each failure is followed by a retry after the back-off for the new count |
| Feed.StreakGivesUp | src/websocket.py:296-298 | the failure that takes the counter past the maximum ends the loop |
| Feed.BackoffMonotone | src/websocket.py:300-303 | delays never shrink as the counter grows |
| Orders.LiveOnly | src/order_manager.py:225-234 | exactly the LIVE orders of a list |
| Orders.DesiredKeys | src/order_manager.py:103-104 | exactly the (price, size) keys of the quotes |
| Orders.OrdersFor | src/order_manager.py:57-61 | returns the token's entry, creating an empty one only when it is missing; other tokens are untouched |
| Orders.CancelOrder | src/order_manager.py:158-175 | an id already pending is skipped; otherwise the order becomes CANCELLED exactly when the exchange accepts; nothing else about it changes |
| Orders.CancelIdempotent | src/order_manager.py:158-175 | asking to cancel twice is the same as asking once |
| Orders.CancelEach | src/order_manager.py:125-126 | each order of the list is passed through the single-order cancel, in place |
| Orders.Partition | src/order_manager.py:110-122 | kept orders come from the list, are LIVE and have a wanted key; the keys still to place are the wanted keys that no kept order covers |
| Orders.PartitionSplitsLive | src/order_manager.py:110-122 | every LIVE order is either kept or cancelled, non-LIVE orders are neither |
| Orders.PartitionKeepsDistinct | src/order_manager.py:114-118 | a (price, size) key is kept at most once, so a duplicate is cancelled |
| Orders.PartitionCancelsUnwanted | src/order_manager.py:119-126 | a cancelled order's key is not waiting to be placed |
| Orders.PlaceNew | src/order_manager.py:129-151 | quotes are placed only for keys not already kept, and only successful placements are tracked |
| Orders.UpdateSide | src/order_manager.py:93-156 | every tracked order afterwards is either a kept LIVE order with a wanted key or a new placement the exchange answered for one of the quotes; the count placed is at most the number of quotes |
| Orders.UpdateSideAccounts | src/order_manager.py:110-156 | kept orders plus cancel requests number exactly the LIVE orders: each live order is kept or sent a cancel |
| Orders.UpdateSideStable | src/order_manager.py:93-156 | requoting with quotes that match the live orders one for one cancels nothing and places nothing |
| Orders.UnwantedOrdersLeave | src/order_manager.py:110-156 | every live order whose key is no longer quoted leaves tracking, and every quote is covered by a kept order or is up for placement |
| Orders.UpdateQuotes | src/order_manager.py:63-91 | both sides of the token are requoted, the count placed is at most the number of quotes, and other tokens are untouched |
| Orders.SelectedTokens | src/order_manager.py:179-183 | a non-empty token selects itself; None or "" selects every token |
| Orders.RequestIds | src/order_manager.py:158-163 | every order whose cancel is not already in flight is sent a request, and every request is for such an order |
| Orders.CancelAll | src/order_manager.py:177-195 | exactly the LIVE orders in the selected tokens' lists whose cancel is not already in flight are sent cancel requests (every such order is, and nothing else is); then every selected token is left with empty BUY and SELL lists, other tokens are untouched, and the pending set is kept |
| Orders.ClearTokensKeepsKeys | src/order_manager.py:184-191 | clearing tokens already in the dict keeps every entry's key in place |
| Orders.ClearEveryKey | src/order_manager.py:179-191 | in a dict without repeated keys, clearing every key empties every entry |
| Orders.CancelAllQuiets | src/order_manager.py:177-195 | after a cancel-all no selected order is live, so a second cancel-all sends no request (for every token, the dict's keys must be distinct, as a Python dict's are) |
| Orders.ClearTokens | src/order_manager.py:184-191 | the listed tokens get empty BUY and SELL lists and other tokens keep theirs |
| Orders.CancelStaleList | src/order_manager.py:197-211 | every stale (live and older than the timeout) order gets a cancel request, every order stays in the list, and the count is the number of stale orders whether or not the exchange accepted |
| Orders.CancelStale | src/order_manager.py:197-211 | sweeps every token and returns the number of stale orders; the tokens tracked are unchanged |
| Orders.CancelStaleEntries | src/order_manager.py:201-211 | sweeps every token entry in order, keeps the token list, and counts every stale order |
| Orders.CancelStaleClears | src/order_manager.py:197-211 | when every cancel is accepted, a second sweep at the same moment finds nothing stale |
| Orders.GetLiveOrders | src/order_manager.py:213-234 | only LIVE orders, from the given token (or every token for None or ""), on the selected sides |
| Orders.LiveOfEntry | src/order_manager.py:227-232 | exactly the LIVE orders of the selected sides of one entry |
| Orders.LiveOfEntries | src/order_manager.py:221-234 | exactly the LIVE orders of the selected sides over every token entry |
| Orders.GetOrderCount | src/order_manager.py:236-242 | counts the LIVE orders of each side, creating the token's entry when it is missing |
| Orders.CountMatchesLiveOrders | src/order_manager.py:213-242 | the two counts add up to the number of live orders the query reports for the token |
| Orders.KeepIds | src/order_manager.py:262-266 | keeps exactly the orders whose ids the exchange reports |
| Orders.Orphans | src/order_manager.py:267-272 | every dropped LIVE order is returned, marked UNKNOWN |
| Orders.SyncEntry | src/order_manager.py:256-272 | each side keeps exactly the orders the exchange still reports |
| Orders.Sync | src/order_manager.py:244-275 | a failed query changes nothing; otherwise the token's entry is reconciled and other tokens are untouched |
| Orders.SyncIdempotent | src/order_manager.py:244-275 | reconciling again against the same answer changes nothing and orphans nothing |
| PaperSim.DepthOf | src/paper_simulator.py:91-98 | the price→size dict has one entry per price and exactly the prices of the levels |
| PaperSim.KeepRecent | src/paper_simulator.py:106-112 | keeps exactly the price-history entries newer than the cutoff |
| PaperSim.UpdateFromOrderbook | src/paper_simulator.py:89-112 | best bid is the maximum bid price and best ask the minimum ask price; an empty side keeps the old best; the mid is recorded only when both are truthy |
| PaperSim.PriceAt | src/paper_simulator.py:132-149 | the price recorded at or before the given time: the last entry of the leading run stamped by then |
| PaperSim.PriceMove | src/paper_simulator.py:132-149 | latest mid minus the mid at that time; 0 with fewer than two entries or nothing recorded by then |
| PaperSim.PriceMoveSinceLatest | src/paper_simulator.py:132-149 | asked about a time no earlier than every entry, the move is 0 |
| PaperSim.QueueDepth | src/paper_simulator.py:151-164 | for a buy, the bid size at prices at or above ours; otherwise the ask size at prices at or below ours |
| PaperSim.QueueDepthMonotone | src/paper_simulator.py:151-164 | with non-negative sizes, a more aggressive price has no more size queued ahead |
| PaperSim.Walk | src/paper_simulator.py:366-398 | every fill is at an acceptable price (at or below a buy's limit, at or above a sell's) and has positive size |
| PaperSim.WalkFillsAvailable | src/paper_simulator.py:366-398 | on a side sorted best first, the walk fills exactly the smaller of what remains and what the book offers at acceptable prices, so never more than the remaining size |
| PaperSim.Available | src/paper_simulator.py:366-398 | what the book offers at acceptable prices is never negative |
| PaperSim.NoneAcceptable | src/paper_simulator.py:371-388 | once the best price is unacceptable, the book offers nothing |
| PaperSim.NewSimLedger | src/paper_simulator.py:201-242 | a fresh simulator satisfies the ledger |
| PaperSim.FillTrade | src/paper_simulator.py:523-540 | the trade record carries the order's token and side, the fill's price and size, the maker or taker fee rate times notional, and the next trade number |
| PaperSim.Settle | src/paper_simulator.py:557-562 | a buy pays notional plus fee and a sell receives notional minus fee; the trade is appended |
| PaperSim.SettleMovesPosition | src/paper_simulator.py:557-562 | only the trade's token moves, by +size for a buy and −size for a sell |
| PaperSim.ExecuteFill | src/paper_simulator.py:512-606 | size_matched grows by the size; status is MATCHED exactly when size_matched reaches size, else PARTIAL; the trade is recorded and the adverse flag consumed |
| PaperSim.ExecuteFillKeepsLedger | src/paper_simulator.py:512-576 | after any fill the balance, positions, volumes and fill counts still agree with the trade list |
| PaperSim.ApplyFills | src/paper_simulator.py:400-408 | the fills add their total size to the order's size_matched; no fills change nothing |
| PaperSim.ApplyFillsTracksOrder | src/paper_simulator.py:400-408 | the fills update the same stored order and add one trade each |
| PaperSim.CrossingTrades | src/paper_simulator.py:400-408 | one taker trade per fill is appended, in walk order, with slippage \|fill price − limit\| |
| PaperSim.ApplyFillsKeepsLedger | src/paper_simulator.py:400-408 | any sequence of fills keeps the ledger |
| PaperSim.ApplyFillsStep | src/paper_simulator.py:400-408 | applying a list of fills is applying all but the last and then the last one as a taker fill |
| PaperSim.TakeFillKeepsLedger | src/paper_simulator.py:400-408 | one taker fill keeps the ledger |
| PaperSim.CrossLevels | src/paper_simulator.py:371-386 | the opposite side best first: asks ascending for a buy, bids descending for a sell |
| PaperSim.ExecuteCrossing | src/paper_simulator.py:358-416 | size_matched grows by exactly the walk's fills; any remainder rests at queue position 0; the order's identity, price and size are kept |
| PaperSim.CrossingNeverOverfills | src/paper_simulator.py:366-398 | a crossing order never ends with more matched than its size |
| PaperSim.CrossingKeepsLedger | src/paper_simulator.py:358-416 | crossing execution keeps the ledger |
| PaperSim.LedgerIgnoresOrders | src/paper_simulator.py:512-576 | the ledger does not depend on the stored orders |
| PaperSim.CheckImmediateFill | src/paper_simulator.py:340-356 | only a known market and a crossing order (a buy at or above a truthy best ask, a sell at or below a truthy best bid) trade at once |
| PaperSim.Enqueue | src/paper_simulator.py:307-328 | a new LIVE order with nothing matched is stored, queued behind the depth at its price, and counted as placed |
| PaperSim.PlaceOrder | src/paper_simulator.py:291-338 | the order is stored under its id and counted; with no market it rests LIVE at queue position 0 |
| PaperSim.PlaceKeepsLedger | src/paper_simulator.py:291-338 | placing an order keeps the ledger |
| PaperSim.UpdateOrderbook | src/paper_simulator.py:277-283 | the token's market state exists afterwards and is refreshed from the snapshot; other tokens are untouched |
| PaperSim.FillProbability | src/paper_simulator.py:461-510 | the probability lies in (0, 1], and the adverse flag is raised exactly when adverse selection is enabled and the price moved against the order |
| PaperSim.CancelOrder | src/paper_simulator.py:607-620 | succeeds exactly for a known live order, which becomes CANCELLED and is counted; otherwise nothing changes |
| PaperSim.CancelTwice | src/paper_simulator.py:607-620 | a second cancel of the same order is refused and changes nothing |
| PaperSim.LiveMatching | src/paper_simulator.py:629-631 | exactly the live orders the token filter selects |
| PaperSim.CancelIfLive | src/paper_simulator.py:630-633 | the order is unchanged or CANCELLED, and it is still live afterwards only when the token filter does not select it |
| PaperSim.CancelMatchingCounts | src/paper_simulator.py:628-637 | the number cancelled is the number of live orders the filter selects |
| PaperSim.CancelMatching | src/paper_simulator.py:628-634 | every stored order passes through the cancel-all rule in place, keys and order kept |
| PaperSim.CancelAll | src/paper_simulator.py:622-637 | every selected live order is CANCELLED and nothing else changes; it returns and counts how many there were |
| PaperSim.Select | src/paper_simulator.py:645-654 | exactly the orders passing both the status filter and the token filter |
| PaperSim.GetOrders | src/paper_simulator.py:639-654 | "LIVE" also admits PARTIAL orders, other statuses must match exactly, and a falsy token selects every token |
| PaperSim.CancelAllCountsLiveOrders | src/paper_simulator.py:622-654 | for None or a non-empty token, the cancel-all count is the number of orders the LIVE query reports |
| PaperSim.CancelAllLeavesNoneLive | src/paper_simulator.py:622-654 | for None or a non-empty token, the LIVE query is empty after a cancel-all |
| PaperSim.GetTrades | src/paper_simulator.py:656-658 | a suffix of the trades: the last `limit` for a positive limit |
| PaperClient.HandlePriceChange | src/client.py:350-397 | an unknown token leaves everything as it was; otherwise the same tokens keep cached books, every other token's book and the named token's other side are untouched, the named side becomes that side with the level change applied, and balance, orders, trades and positions do not move |
| PaperClient.PriceChangeKeepsBooksOrdered | src/client.py:357-377 | cached books stay well ordered: bids descending, asks ascending |
| PaperClient.NewPaperLedger | src/client.py:439-452 | a fresh paper account satisfies the ledger |
| PaperClient.Record | src/client.py:439-452 | the trade is appended, the balance drops by its cost (price × size for a buy, the negative for a sell), and only its token's position moves, by ±int(size) |
| PaperClient.RecordKeepsLedger | src/client.py:439-452 | recording a fill keeps balance and positions in agreement with the trades |
| PaperClient.HandleUserTrade | src/client.py:425-452 | outside paper mode nothing changes; in paper mode exactly one trade is appended, carrying the given id, token, side, price and size with fee 0 and the taker order id, a buy takes price times size from the balance and adds `int(size)` shares to the token, a sell does the reverse, and other tokens' positions, the orders and the books are untouched |
| PaperClient.UserTradeKeepsLedger | src/client.py:425-452 | a user-trade event keeps the ledger |
| PaperClient.HandleUserOrder | src/client.py:463-473 | only a known paper order changes: its matched size is copied, CANCELLATION cancels it, and reaching the original size matches it |
| PaperClient.CrossPrice | src/client.py:1039-1046 | a buy fills at a truthy best ask it reaches, a sell at a truthy best bid it reaches, and otherwise there is no crossing |
| PaperClient.CheckFills | src/client.py:1024-1091 | no book or no crossing without luck changes nothing; otherwise the order is matched in full, the trade `paper_trade_<n>` is recorded and the order stored |
| PaperClient.PlaceOrder | src/client.py:959-990 | the stored order is either MATCHED in full with one new trade, or LIVE with nothing matched and no trade |
| PaperClient.CheckFillsKeepsLedger | src/client.py:1024-1091 | a paper fill keeps the ledger |
| PaperClient.LedgerIgnoresOrders | src/client.py:439-452 | the ledger does not depend on the stored orders |
| PaperClient.PlaceKeepsLedger | src/client.py:959-990 | placing a paper order keeps the ledger |
| PaperClient.CancelOrder | src/client.py:992-998 | any known order, whatever its status, becomes CANCELLED and the call succeeds; an unknown id fails and changes nothing |
| PaperClient.CancelIdempotent | src/client.py:992-998 | cancelling twice succeeds twice and the second call changes nothing |
| PaperClient.Select | src/client.py:1017-1022 | exactly the orders with this status that the token filter selects |
| PaperClient.GetOrders | src/client.py:1011-1022 | exact status, and the token when one is given |
| PaperClient.CancelIfLive | src/client.py:1004-1007 | the order is unchanged or CANCELLED, and it is still LIVE afterwards only when the token filter does not select it |
| PaperClient.CancelMatchingCounts | src/client.py:1002-1009 | the number cancelled is the number of LIVE orders the token selects |
| PaperClient.CancelMatching | src/client.py:1002-1008 | every stored order passes through the cancel-all rule in place, keys and order kept |
| PaperClient.CancelAll | src/client.py:1000-1009 | the count equals what the LIVE query for that token reports; every selected LIVE order is cancelled and nothing else changes |
| PaperClient.CancelAllLeavesNoneLive | src/client.py:1000-1022 | after a cancel-all, the LIVE query for the same token is empty |
| Bot.Flag | src/bot.py:158-188 | the token's pending flag is set and nothing else changes |
| Bot.OnOrderbookUpdate | src/bot.py:158-169 | stores the book, marks the token's position at a truthy mid (otherwise leaves the inventory alone), and flags only that token |
| Bot.OnFill | src/bot.py:171-188 | corrected: the fill updates the inventory through the corrected `Risk.UpdatePosition` (see Findings), is recorded once in the PnL tracker, joins the trade flow, and flags only its token |
| Bot.AdjustAll | src/bot.py:424-445 | each quote's size is the risk manager's adjusted size |
| Bot.FilterQuotes | src/bot.py:424-457 | survivors are exactly the adjusted quotes that pass the order check, carry the adjusted size, and keep their relative order |
| Bot.HaltedFiltersEverything | src/bot.py:430-457 | a halted risk manager lets no quote through |
| Bot.UpdateQuotesForMarket | src/bot.py:388-471 | only the order manager changes; with no book nothing happens; when quoting is off the token's orders are cancelled |
| Bot.RequoteUsesFilteredQuotes | src/bot.py:417-464 | when quoting goes ahead, the order manager gets exactly the filtered quotes, and only when at least one survives |
| Bot.HaltedBotOnlyCancels | src/bot.py:405-464 | a halted bot never sends quotes: it cancels the token's orders or changes nothing |
| Bot.UpdateMarkets | src/bot.py:335-336 | requoting a list of tokens changes only the order manager |
| Bot.Flagged | src/bot.py:319-323 | exactly the tokens whose flag is set, in the dict's order |
| Bot.Lower | src/bot.py:326-327 | every flag is lowered, keys and order kept |
| Bot.NothingFlaggedAfterLower | src/bot.py:326-327 | after lowering, no token is flagged |
| Bot.ProcessPending | src/bot.py:315-336 | collects exactly the flagged tokens and lowers every flag; a tripped daily-loss check leaves the orders alone |
| Bot.FillIsRequoted | src/bot.py:171-188 | a fill's token is among those the next drain collects |
| Bot.BookUpdateIsRequoted | src/bot.py:158-169 | a book update's token is among those the next drain collects |
| Assistant.GetOrCreate | api/ai_assistant.py:186-193 | an existing non-empty id resumes its history unchanged; otherwise the given id (or a fresh one when missing or empty) starts an empty history; other conversations are untouched |
| Assistant.GetOrCreateTwice | api/ai_assistant.py:186-193 | asking again with the id handed out resumes the same conversation and changes nothing |
| Assistant.ChunkEvents | api/ai_assistant.py:238-244 | one non-final event per chunk, carrying that chunk and the conversation id |
| Assistant.FinalEvent | api/ai_assistant.py:249-262 | the closing event is "done": empty on success, "Error: …" with error set on failure |
| Assistant.Answered | api/ai_assistant.py:226-247 | the plain question joins the history, and the reply only when the stream finished |
| Assistant.SentPrompt | api/ai_assistant.py:210-223 | the model receives the last 10 history messages and then the question wrapped in the bot-state context |
| Assistant.ChatStream | api/ai_assistant.py:195-262 | one event per chunk and then the closing event; the conversation's history is updated as Answered says |
| Assistant.ChatStreamEvents | api/ai_assistant.py:238-262 | every event carries the same conversation id, and exactly the last one is done |
| Assistant.ChatStreamKeepsOthers | api/ai_assistant.py:195-262 | only the conversation spoken in changes |
| Assistant.TranscriptOfChunks | api/ai_assistant.py:238-244 | what a reader assembles from the non-final events is the concatenation of the chunks |
| Assistant.StoredReplyIsTranscript | api/ai_assistant.py:239-262 | on success the stored reply equals what the reader assembled; on failure the last entry is the user's question |
| Assistant.Clear | api/ai_assistant.py:264-269 | succeeds exactly when the id existed; afterwards it is absent and every other conversation is kept |
| Assistant.ClearThenRestart | api/ai_assistant.py:264-269 | a cleared conversation restarts empty under the same id |
| Suggestions.Contextual | api/ai_assistant.py:285-300 | each contextual question appears exactly when its condition holds |
| Suggestions.SuggestedQuestions | api/ai_assistant.py:271-302 | the five base questions without state; otherwise up to three contextual questions followed by the first three base ones |
| Suggestions.QuestionsDiffer | api/ai_assistant.py:273-300 | the contextual questions differ from each other and from the base questions |
| Suggestions.CrowdedOut | api/ai_assistant.py:285-302 | imbalance, halt and adverse-rate questions always make it; only the positions question can be crowded out |
| Server.Initial | api/server.py:38-56 | nothing runs, no bot, client, markets or push clients; the configuration has exactly the known keys, with paper mode taken from the environment |
| Server.StartBot | api/server.py:58-89 | refused exactly when running; otherwise the markets are recorded and a client and a running bot exist |
| Server.StartEndpoint | api/server.py:391-401 | succeeds exactly when not running and given at least one token |
| Server.StopBot | api/server.py:100-127 | nothing happens unless running; afterwards nothing runs and bot and client are gone, while markets, configuration and push clients stay |
| Server.StopEndpoint | api/server.py:404-411 | refused exactly when not running |
| Server.RunEnded | api/server.py:91-98 | only the running flag drops |
| Server.StartStopRoundTrip | api/server.py:58-127 | start then stop returns to a stopped server with the same configuration and clients |
| Server.StopIdempotent | api/server.py:100-127 | stopping twice is the same as stopping once |
| Server.EndedRunKeepsBot | api/server.py:91-98 | after the bot's own run ends, stop is refused, the snapshot says "stopped" with the full key set, and a new start is accepted |
| Server.RecentTrades | api/server.py:232-247 | the last `limit` fills, most recent first; none without a bot or a client |
| Server.GetSnapshot | api/server.py:154-231 | the first key is always "status"; without a bot only status and timestamp, else the full key set with the market list, fill count, halt flag and the last 50 trades; "running" exactly when a bot exists and runs |
| Server.UpdateConfig | api/server.py:337-347 | refused while running; otherwise only known keys given a value change |
| Server.UpdateConfigIdempotent | api/server.py:337-347 | applying the same update twice is the same as once |
| Server.AddTokensAppends | api/server.py:423-427 | appending once per new token grows the list by exactly the reported tokens, the requested ones not already listed |
| Server.AddTokensReportsOnce | api/server.py:423-427 | each new token is reported once, in request order |
| Server.AddMarket | api/server.py:414-433 | corrected (the code appends each new token twice on a running bot; see Findings): refused when not running or given no tokens; otherwise the list gains exactly the new tokens, once each, in request order |
| Server.AddMarketKeepsDistinct | api/server.py:423-431 | a list without repeats keeps none after adding |
| Server.AddMarketAsWritten | api/server.py:414-433 | as written; without a bot and a client it agrees with AddMarket |
| Server.AddMarketListsTwice | api/server.py:425-431 | as written, with a bot running, adding "b" to ["a"] gives ["a", "b", "b"]; the corrected version gives ["a", "b"] |
| Server.AddTokensAtMostTwice | api/server.py:424-431 | adding, as written or corrected, never lists a token a third time: tokens already listed are skipped |
| Server.AddTokensExtends | api/server.py:424-431 | adding keeps the old list as a prefix and appends only requested tokens |
| Server.AddAsWrittenThenRemove | api/server.py:414-458 | with a bot present, `add_market` as written followed by `remove_market` of the same tokens removes every copy, leaving the old list without the requested tokens |
| Server.MarketEditsKeepAtMostTwice | api/server.py:414-458 | adding as written, and removing with the bot present, keep every token listed at most twice |
| Lists.RemoveBothCopies | api/server.py:447-453 | with at most two copies, `remove` and then, if a copy is left, `remove` again drops every copy and keeps the rest in order |
| Server.Retire | api/server.py:451-456 | the bot forgets the token's book and keeps the others; a non-empty token is left with no orders |
| Server.RemoveStep | api/server.py:447-456 | the bot retires the token; on a list without repeats, or one with at most two copies of each token while the bot shares it, every copy of the token leaves, the rest keep their order, and the list stays of that kind |
| Server.RemoveTokensDrops | api/server.py:445-449 | on a list without repeats, or one with at most two copies of each token while the bot shares it, exactly the requested tokens are removed and the rest keep their order |
| Server.RemoveTokens | api/server.py:445-456 | the bot, when there is one, is still there after the loop |
| Server.RemoveTokensReports | api/server.py:445-449 | on the same lists, exactly the requested tokens that were listed are reported |
| Server.RemoveTokensReportsOnce | api/server.py:445-449 | on the same lists, each removed token is reported once, in request order |
| Server.RemoveTokensForgetsBooks | api/server.py:455-456 | the bot forgets the book of every removed token and keeps the others |
| Server.RemoveTokensCancels | api/server.py:452 | no orders are left on a removed non-empty token |
| Server.StaysCleared | api/server.py:451-456 | a token whose orders were cleared stays cleared through later removals |
| Server.RemoveMarket | api/server.py:436-458 | refused when not running or given no tokens; the bot stays present or absent and nothing else but the list and the bot changes; on a list without repeats, or one with at most two copies of each token while a bot shares it, every copy of each requested token leaves, the rest keep their order, and the requested tokens that were listed are reported once each in request order |
| Server.RemoveMarketKeepsDistinct | api/server.py:445-458 | removal keeps a list without repeats free of them |
| Server.RemoveFailedLeavesReached | api/server.py:138-147 | removing each failed client in turn leaves exactly the clients that were reached |
| Server.Broadcast | api/server.py:129-152 | after a push round, exactly the clients whose send failed are gone |
| Server.Connect | api/server.py:558-562 | a connecting client joins the list |
| Server.Disconnect | api/server.py:581-583 | a leaving client loses one entry if listed; otherwise nothing changes |
| Server.ConnectDisconnect | api/server.py:558-583 | a client that connects and leaves restores the list it found |
| Server.Session | api/server.py:565-578 | of what `websocket_endpoint` itself sends, the snapshot comes first and everything after it is a pong or a keepalive frame (broadcast snapshots also arrive on the connection; see Left out) |
| Server.Replies | api/server.py:570-578 | only pong and keepalive frames, at most one per incoming item |
| Server.RepliesCount | api/server.py:570-578 | every ping gets one pong and every silent wait one keepalive |

## Left out

- Network I/O is not modelled. This covers the REST calls of the
  exchange client (markets, orderbook, live orders and trades), the
  websocket connect and listen loops, the user channel and its
  handlers, the REST `get_markets` and `get_orderbook` endpoints, and
  the HTTP routing itself. Their answers become parameters where the
  core depends on them.
- The `cashout` endpoint is not modelled. It chains cancels, position
  reads and `stop_bot`, each of which is modelled on its own.
- HMAC request signing is not modelled (a foreign cryptographic call).
- asyncio tasks, locks, sleeps, simulated latency and cancellation are
  not modelled. Each handler is one atomic step.
- Random draws are not sampled. The coin flip of `_paper_check_fills`
  is a boolean parameter (`lucky`). The resting-order fill of the
  simulator (`_check_resting_fill`) is not modelled; only the bounds of
  its probability are (`PaperSim.FillProbability`).
- `calculate_realized_volatility` (a square root) is not modelled. The
  volatility factor is a parameter of `Quotes.Spread`.
- `SmartQuoteEngine`'s quote adjustment is not modelled; its price
  history and momentum are.
- Float conversions, JSON formatting, `build_context` text, logging,
  `print_summary`, `get_hourly_pnl` and `get_stats` are not modelled.
- Clock windows are not computed. Time is a parameter in seconds, and
  the midnight reset is the `newDay` flag of `Risk.CheckDailyLoss`.
- `_handle_ws_book` of the exchange client is not modelled. It is the
  same snapshot store as `Feed.HandleBookEvent`.
- Risk.SizeAdjustment: requires a non-zero imbalance limit because the
  source divides by it, and states the halving only for a positive
  limit.
- Quotes.Spread: requires a non-zero skew threshold whenever the
  inventory exceeds it, because the source divides by it; the same holds
  for `Quotes.InventoryFactor`, `Quotes.InventorySkew` and
  `Quotes.CalculateQuotes`.
- Bot.UpdateQuotesForMarket: hands `should_quote` no expiry, as the bot
  does, so the expiry test never fires.
- PaperSim.CancelAllCountsLiveOrders: stated only for None or a
  non-empty token, because the cancel filter and the query filter read
  "" differently.
- PaperSim.CancelAllLeavesNoneLive: stated only for None or a non-empty
  token, for the same reason.
- Server.RemoveMarket: its list facts are stated for a market list
  without repeats, or with at most two copies of each token while a bot
  shares it. That covers every list `add_market` (as written or
  corrected) and `remove_market` build from such a start
  (`Server.MarketEditsKeepAtMostTwice`), but not a started list that
  already names a token three times.
- Feed.HandleMarketMessage: events are typed here, so no event fails
  part-way and every change is applied. In the code a field that fails
  to convert is caught inside its handler: a bad book snapshot leaves
  the cache alone, and a bad entry of a `changes` array skips it and the
  entries after it in that array (`Feed.EventChanges` applies them all).
  A malformed structure (an event that is not an object, a null
  `price_changes`, a change that is not an object) raises into the one
  `try` around the loop, which keeps the earlier events' effects and
  skips the later events.
- Risk.UpdatePosition: uses the corrected fill rule, so a fill that
  takes a position to exactly 0 realizes its PnL here while the code
  realizes none; `Risk.ApplyFillAsWritten` models the code and the two
  agree whenever the resulting quantity is not 0.
- Bot.OnFill: goes through the corrected `Risk.UpdatePosition`, with
  the same difference from the code on fills that close a position.
- Server.Session: it covers only the frames `websocket_endpoint` sends
  itself. While the bot runs, `_broadcast_loop` also sends the snapshot
  every second to every registered client, this connection included.
  Those frames are interleaved on the wire with the endpoint's own, and
  no interleaving of the two is modelled (`Server.Broadcast` covers a
  push round's effect on the client list).
- Server.RemoveTokensCancels: an empty token id cancels every market's
  orders, so only non-empty tokens are claimed.

## Findings

| source | as written | input that shows it | evidently intended | confidence | as-written member | corrected member |
|---|---|---|---|---|---|---|
| src/risk_manager.py:94,112 | when a fill takes a position to exactly 0, `update_position` skips the PnL branch, so the closed shares' profit is never realized | buy 10 at 0.50, then sell 10 at 0.60: realized PnL stays 0 instead of 1.00 | realize (price − avg) × closed shares whatever the resulting quantity | not executed | Risk.ApplyFillAsWritten (Risk.AsWrittenCounterexample, Risk.AsWrittenLosesClosingPnl) | Risk.ApplyFill (Risk.CorrectedRealizesRoundTrip) |
| api/server.py:425-431 | `add_market` appends a new token to `state.target_markets` and then to `state.bot.target_markets`, which is the same list object (`start_bot` passes the same list to both), so the token is listed twice | running bot on ["a"], add ["b"]: the list becomes ["a", "b", "b"] | each new token appended once | not executed | Server.AddMarketAsWritten (Server.AddMarketListsTwice) | Server.AddMarket (Server.AddMarketKeepsDistinct) |

=== FILE: assistant.dfy ===
/**
 The trading assistant's conversation store and chat stream
 (api/ai_assistant.py). The language model is outside the model: its
 answer is given as the sequence of text chunks it streamed, plus the
 error it raised, if any. Fresh conversation ids (a uuid prefix) are a
 parameter.
 */
/** The wrapping of the user's question in the bot state context. */
module PromptText {
  /** The user message as sent to the model, with the bot state wrapped
      around it. */
  function Wrapped(context: string, message: string): string
  {
    OpenTag + context + CloseTag + message
  }

  const OpenTag := "<bot_state>\n"
  const CloseTag := "\n</bot_state>\n\nUser question: "
}

/** The conversation store and chat stream proper. */
module Assistant {
  import opened Common
  import opened PromptText

  datatype Msg = Msg(role: string, content: string)

  /** Conversation id to message history. */
  type Store = map<string, seq<Msg>>

  /** One item the chat stream yields. The success events carry no
      "error" key; that reads here as `error == false`. */
  datatype Event = Event(content: string, done: bool, error: bool, conversationId: string)

  /** An id that is present and non-empty names an existing conversation. */
  predicate Resumes(store: Store, id: Option<string>)
  {
    id.Some? && id.value != "" && id.value in store
  }

  /** `get_or_create_conversation`: the id used, its history, and the
      store afterwards. */
  function GetOrCreate(store: Store, id: Option<string>, freshId: string): (r: (string, seq<Msg>, Store))
    ensures r.0 in r.2 && r.2[r.0] == r.1
    ensures r.2.Keys == store.Keys + {r.0}
    ensures forall k :: k in store && k != r.0 ==> r.2[k] == store[k]
    ensures Resumes(store, id) ==> r.0 == id.value && r.2 == store
    ensures !Resumes(store, id) ==> r.1 == []
    ensures !Resumes(store, id) && id.Some? && id.value != "" ==> r.0 == id.value
    ensures (id.None? || id.value == "") ==> r.0 == freshId
  {
    if Resumes(store, id) then (id.value, store[id.value], store)
    else
      var newId := if id.Some? && id.value != "" then id.value else freshId;
      (newId, [], store[newId := []])
  }

  /** Asking again with the id handed out resumes the same conversation
      and changes nothing. */
  lemma GetOrCreateTwice(store: Store, id: Option<string>, freshId: string, freshId2: string)
    requires freshId != ""
    ensures var (cid, h, s) := GetOrCreate(store, id, freshId);
            GetOrCreate(s, Some(cid), freshId2) == (cid, h, s)
  {
  }

  /** The non-final events, one per streamed chunk. */
  function ChunkEvents(chunks: seq<string>, cid: string): (r: seq<Event>)
    ensures |r| == |chunks|
    ensures forall i :: 0 <= i < |chunks| ==> r[i] == Event(chunks[i], false, false, cid)
  {
    if |chunks| == 0 then [] else [Event(chunks[0], false, false, cid)] + ChunkEvents(chunks[1..], cid)
  }

  function Concat(chunks: seq<string>): string
  {
    if |chunks| == 0 then "" else chunks[0] + Concat(chunks[1..])
  }

  /** The text a reader of the stream assembles: the contents of the
      events that are not the final one, in order. */
  function Transcript(events: seq<Event>): string
  {
    if |events| == 0 then ""
    else (if events[0].done then "" else events[0].content) + Transcript(events[1..])
  }

  datatype Chat = Chat(store: Store, events: seq<Event>, conversationId: string)

  /** The event that closes the stream: an empty "done" event, or the
      error event. */
  function FinalEvent(cid: string, failure: Option<string>): (r: Event)
    ensures r.done && r.conversationId == cid
    ensures failure.None? ==> r.content == "" && !r.error
    ensures failure.Some? ==> r.error && r.content == "Error: " + failure.value
  {
    match failure
    case None => Event("", true, false, cid)
    case Some(e) => Event("Error: " + e, true, true, cid)
  }

  /** The history after the exchange: the plain question, then the reply
      when the stream finished. */
  function Answered(history: seq<Msg>, message: string, chunks: seq<string>, failure: Option<string>): (r: seq<Msg>)
    ensures failure.None? ==> r == history + [Msg("user", message), Msg("assistant", Concat(chunks))]
    ensures failure.Some? ==> r == history + [Msg("user", message)]
  {
    var asked := history + [Msg("user", message)];
    if failure.None? then asked + [Msg("assistant", Concat(chunks))] else asked
  }

  /** The messages `chat_stream` sends to the model: the tail of the
      conversation as it stood before the question, then the wrapped
      question. The plain question is what the history keeps. */
  function SentPrompt(store: Store, message: string, context: string, id: Option<string>,
                      freshId: string): (r: seq<Msg>)
    ensures var h := GetOrCreate(store, id, freshId).1;
      && |r| - 1 == (if |h| < 10 then |h| else 10)
      && r[..|r| - 1] == h[|h| - (|r| - 1)..]
      && r[|r| - 1] == Msg("user", Wrapped(context, message))
  {
    var h := GetOrCreate(store, id, freshId).1;
    var tail := if |h| < 10 then h else h[|h| - 10..];
    var question := Msg("user", Wrapped(context, message));
    assert (tail + [question])[..|tail|] == tail;
    tail + [question]
  }

  /** `chat_stream`. The plain question joins the history before the
      model is asked; the reply joins it only when the stream finished. */
  function ChatStream(store: Store, message: string, context: string, id: Option<string>,
                      freshId: string, chunks: seq<string>, failure: Option<string>): (r: Chat)
    ensures r.conversationId == GetOrCreate(store, id, freshId).0
    ensures r.store == store[r.conversationId := Answered(GetOrCreate(store, id, freshId).1, message, chunks, failure)]
    ensures |r.events| == |chunks| + 1
    ensures forall i :: 0 <= i < |chunks| ==> r.events[i] == Event(chunks[i], false, false, r.conversationId)
    ensures r.events[|chunks|] == FinalEvent(r.conversationId, failure)
  {
    var g := GetOrCreate(store, id, freshId);
    Chat(g.2[g.0 := Answered(g.1, message, chunks, failure)],
         ChunkEvents(chunks, g.0) + [FinalEvent(g.0, failure)], g.0)
  }

  /** Every event carries the conversation id and exactly the last one
      is final. */
  lemma ChatStreamEvents(store: Store, message: string, context: string, id: Option<string>,
                         freshId: string, chunks: seq<string>, failure: Option<string>)
    ensures var r := ChatStream(store, message, context, id, freshId, chunks, failure);
      && (forall i :: 0 <= i < |r.events| ==> r.events[i].conversationId == r.conversationId)
      && (forall i :: 0 <= i < |r.events| ==> (r.events[i].done <==> i == |chunks|))
  {
    var r := ChatStream(store, message, context, id, freshId, chunks, failure);
    forall i | 0 <= i < |r.events|
      ensures r.events[i].conversationId == r.conversationId
      ensures r.events[i].done <==> i == |chunks|
    {
      if i < |chunks| {
        assert r.events[i] == Event(chunks[i], false, false, r.conversationId);
      } else {
        assert r.events[i] == FinalEvent(r.conversationId, failure);
      }
    }
  }

  /** Only the conversation spoken in changes. */
  lemma ChatStreamKeepsOthers(store: Store, message: string, context: string, id: Option<string>,
                              freshId: string, chunks: seq<string>, failure: Option<string>)
    ensures var r := ChatStream(store, message, context, id, freshId, chunks, failure);
      && r.store.Keys == store.Keys + {r.conversationId}
      && (forall k :: k in store && k != r.conversationId ==> r.store[k] == store[k])
  {
    var r := ChatStream(store, message, context, id, freshId, chunks, failure);
    var g := GetOrCreate(store, id, freshId);
    assert r.conversationId == g.0;
  }

  lemma {:induction false} TranscriptOfChunks(chunks: seq<string>, cid: string, last: Event)
    requires last.done
    ensures Transcript(ChunkEvents(chunks, cid) + [last]) == Concat(chunks)
  {
    if |chunks| == 0 {
      assert ChunkEvents(chunks, cid) + [last] == [last];
      assert Transcript([last]) == "" + Transcript([]);
    } else {
      var evs := ChunkEvents(chunks, cid) + [last];
      assert evs[1..] == ChunkEvents(chunks[1..], cid) + [last];
      TranscriptOfChunks(chunks[1..], cid, last);
    }
  }

  /** On success, what the reader of the stream assembled is exactly the
      reply stored in the history; a failed stream stores no reply. */
  lemma StoredReplyIsTranscript(store: Store, message: string, context: string, id: Option<string>,
                                freshId: string, chunks: seq<string>, failure: Option<string>)
    ensures var r := ChatStream(store, message, context, id, freshId, chunks, failure);
            var h := r.store[r.conversationId];
            && |h| >= 1
            && (failure.None? ==> h[|h| - 1] == Msg("assistant", Transcript(r.events)))
            && (failure.Some? ==> h[|h| - 1] == Msg("user", message))
  {
    var r := ChatStream(store, message, context, id, freshId, chunks, failure);
    var h := Answered(GetOrCreate(store, id, freshId).1, message, chunks, failure);
    assert r.store[r.conversationId] == h;
    var last := FinalEvent(r.conversationId, failure);
    TranscriptOfChunks(chunks, r.conversationId, last);
    assert r.events == ChunkEvents(chunks, r.conversationId) + [last];
  }

  /** `clear_conversation`. */
  function Clear(store: Store, id: string): (r: (Store, bool))
    ensures r.1 <==> id in store
    ensures id !in r.0
    ensures forall k :: k != id ==> (k in r.0 <==> k in store)
    ensures forall k :: k in r.0 ==> r.0[k] == store[k]
  {
    if id in store then (store - {id}, true) else (store, false)
  }

  /** A cleared conversation restarts empty under the same id. */
  lemma ClearThenRestart(store: Store, id: string, freshId: string)
    requires id != ""
    ensures var s := Clear(store, id).0;
            GetOrCreate(s, Some(id), freshId) == (id, [], s[id := []])
  {
  }
}

/** The canned questions the assistant offers (api/ai_assistant.py). */
module Suggestions {
  import opened Common

  /** What `get_suggested_questions` reads from the bot state: the
      inventory imbalance (0 when absent), the halt flag, the simulated
      adverse fill rate (absent without simulation stats) and whether any
      position is open. */
  datatype View = View(imbalance: real, halted: bool, adverseRate: Option<real>, hasPositions: bool)

  const BaseQuestions: seq<string> := [
    "What markets should I trade based on current spreads?",
    "Explain my current risk exposure",
    "What does the adverse fill rate mean?",
    "Suggest a strategy for current market conditions",
    "Summarize my trading performance"
  ]

  const ImbalancedQ := "My inventory is imbalanced - what should I do?"
  const HaltedQ := "Why is trading halted and how do I resume?"
  const AdverseQ := "My adverse fill rate is high - how can I improve?"
  const PositionsQ := "Should I close any of my current positions?"

  predicate Imbalanced(v: View) { v.imbalance > 0.3 }
  predicate AdverseHigh(v: View) { v.adverseRate.Some? && v.adverseRate.value > 0.2 }

  /** The state-dependent questions, in the order the source adds them. */
  function Contextual(v: View): (r: seq<string>)
    ensures |r| <= 4
    ensures ImbalancedQ in r <==> Imbalanced(v)
    ensures HaltedQ in r <==> v.halted
    ensures AdverseQ in r <==> AdverseHigh(v)
    ensures PositionsQ in r <==> v.hasPositions
  {
    (if Imbalanced(v) then [ImbalancedQ] else [])
    + (if v.halted then [HaltedQ] else [])
    + (if AdverseHigh(v) then [AdverseQ] else [])
    + (if v.hasPositions then [PositionsQ] else [])
  }

  /** `get_suggested_questions`; `None` stands for a missing or empty
      bot state. */
  function SuggestedQuestions(state: Option<View>): (r: seq<string>)
    ensures state.None? ==> r == BaseQuestions
    ensures state.Some? ==> 3 <= |r| <= 6
    ensures state.Some? ==> r[|r| - 3..] == BaseQuestions[..3]
    ensures state.Some? ==> r[..|r| - 3] == Prefix(Contextual(state.value), 3)
  {
    match state
    case None => BaseQuestions
    case Some(v) =>
      var c := Prefix(Contextual(v), 3);
      assert (c + BaseQuestions[..3])[..|c|] == c;
      c + BaseQuestions[..3]
  }

  /** The four contextual questions differ from each other and from the
      three base questions that are always shown (their lengths differ). */
  lemma QuestionsDiffer()
    ensures |{ImbalancedQ, HaltedQ, AdverseQ, PositionsQ}| == 4
    ensures forall q :: q in {ImbalancedQ, HaltedQ, AdverseQ, PositionsQ} ==> q !in BaseQuestions[..3]
  {
    assert |ImbalancedQ| == 46 && |HaltedQ| == 42 && |AdverseQ| == 49 && |PositionsQ| == 43;
    assert |BaseQuestions[0]| == 53 && |BaseQuestions[1]| == 32 && |BaseQuestions[2]| == 37;
  }

  /** Only the fourth contextual question can be crowded out: an
      imbalance, a halt or a high adverse rate is always asked about, and
      the open-positions question is dropped exactly when all three of
      those apply. */
  lemma CrowdedOut(v: View)
    ensures Imbalanced(v) ==> ImbalancedQ in SuggestedQuestions(Some(v))
    ensures v.halted ==> HaltedQ in SuggestedQuestions(Some(v))
    ensures AdverseHigh(v) ==> AdverseQ in SuggestedQuestions(Some(v))
    ensures PositionsQ in SuggestedQuestions(Some(v))
            <==> v.hasPositions && !(Imbalanced(v) && v.halted && AdverseHigh(v))
  {
    var c := Contextual(v);
    var r := SuggestedQuestions(Some(v));
    QuestionsDiffer();
    assert r == Prefix(c, 3) + BaseQuestions[..3];
    if Imbalanced(v) { assert c[0] == ImbalancedQ; }
    if v.halted {
      var i := if Imbalanced(v) then 1 else 0;
      assert c[i] == HaltedQ;
    }
    if AdverseHigh(v) {
      var i := (if Imbalanced(v) then 1 else 0) + (if v.halted then 1 else 0);
      assert c[i] == AdverseQ;
    }
    if v.hasPositions && !(Imbalanced(v) && v.halted && AdverseHigh(v)) {
      assert c[|c| - 1] == PositionsQ && |c| <= 3;
    }
    if Imbalanced(v) && v.halted && AdverseHigh(v) {
      assert Prefix(c, 3) == [ImbalancedQ, HaltedQ, AdverseQ];
    }
  }
}

=== FILE: book.dfy ===
/**
 The local order book: the `OrderBook` record of the client (bids best
 first, i.e. descending by price; asks ascending), its derived prices, the
 stable sort used on snapshots, and the incremental price-level update that
 both the websocket cache and the client's book cache apply.
 */
module Book {
  import opened Common

  datatype OrderBook = OrderBook(tokenId: string, bids: seq<Level>, asks: seq<Level>)

  // ---------------------------------------------------------------------
  // Ordering of a side
  // ---------------------------------------------------------------------

  /** `a` may stand before `b` on this side: bids descend, asks ascend. */
  predicate Before(side: Side, a: real, b: real)
  {
    if side == Buy then a >= b else a <= b
  }

  predicate SortedSide(side: Side, ls: seq<Level>)
  {
    forall i, j :: 0 <= i < j < |ls| ==> Before(side, ls[i].price, ls[j].price)
  }

  /** Inserts `x` after every level that may stand before it: the place a
      stable sort puts an element appended at the end. */
  function Insert(side: Side, x: Level, ls: seq<Level>): (r: seq<Level>)
    ensures multiset(r) == multiset(ls) + multiset{x}
    ensures |r| == |ls| + 1
  {
    if |ls| == 0 then [x]
    else if Before(side, ls[0].price, x.price) then
      var rest := Insert(side, x, ls[1..]);
      assert ls == [ls[0]] + ls[1..];
      [ls[0]] + rest
    else
      [x] + ls
  }

  /** Python's stable `list.sort(key=price[, reverse])` for one side. */
  function SortSide(side: Side, ls: seq<Level>): (r: seq<Level>)
    ensures SortedSide(side, r)
    ensures multiset(r) == multiset(ls)
    ensures |r| == |ls|
  {
    if |ls| == 0 then []
    else
      var init := ls[..|ls| - 1];
      assert ls == init + [ls[|ls| - 1]];
      InsertSorted(side, ls[|ls| - 1], SortSide(side, init));
      Insert(side, ls[|ls| - 1], SortSide(side, init))
  }

  /** Inserting into a sorted side keeps it sorted. */
  lemma {:induction false} InsertSorted(side: Side, x: Level, ls: seq<Level>)
    requires SortedSide(side, ls)
    ensures SortedSide(side, Insert(side, x, ls))
  {
    if |ls| > 0 && Before(side, ls[0].price, x.price) {
      var tail := ls[1..];
      InsertSorted(side, x, tail);
      var rest := Insert(side, x, tail);
      assert Insert(side, x, ls) == [ls[0]] + rest;
      forall j | 0 <= j < |rest|
        ensures Before(side, ls[0].price, rest[j].price)
      {
        assert rest[j] in multiset(rest);
        if rest[j] != x {
          assert rest[j] in multiset(tail);
          var k :| 0 <= k < |tail| && tail[k] == rest[j];
          assert ls[k + 1] == rest[j];
        }
      }
      SortedCons(side, ls[0], rest);
    } else if |ls| > 0 {
      assert Insert(side, x, ls) == [x] + ls;
      forall j | 0 <= j < |ls| ensures Before(side, x.price, ls[j].price) {
        assert Before(side, x.price, ls[0].price);
      }
      SortedCons(side, x, ls);
    }
  }

  /** A level that may stand before every level of a sorted side may head
      it. */
  lemma SortedCons(side: Side, y: Level, ls: seq<Level>)
    requires SortedSide(side, ls)
    requires forall j :: 0 <= j < |ls| ==> Before(side, y.price, ls[j].price)
    ensures SortedSide(side, [y] + ls)
  {
    var r := [y] + ls;
    forall a, b | 0 <= a < b < |r|
      ensures Before(side, r[a].price, r[b].price)
    {
      assert r[b] == ls[b - 1];
      if a > 0 {
        assert r[a] == ls[a - 1];
      }
    }
  }

  lemma {:induction false} InsertAtEnd(side: Side, x: Level, ls: seq<Level>)
    requires SortedSide(side, ls)
    requires forall i :: 0 <= i < |ls| ==> Before(side, ls[i].price, x.price)
    ensures Insert(side, x, ls) == ls + [x]
  {
    if |ls| > 0 {
      InsertAtEnd(side, x, ls[1..]);
      assert ls == [ls[0]] + ls[1..];
    }
  }

  /** Sorting an already sorted side changes nothing. */
  lemma {:induction false} SortSideIdempotent(side: Side, ls: seq<Level>)
    requires SortedSide(side, ls)
    ensures SortSide(side, ls) == ls
  {
    if |ls| > 0 {
      var init := ls[..|ls| - 1];
      SortSideIdempotent(side, init);
      InsertAtEnd(side, ls[|ls| - 1], init);
      assert init + [ls[|ls| - 1]] == ls;
    }
  }

  /** Re-sorting a sorted side with one level appended inserts that level
      in place. */
  lemma AppendThenSort(side: Side, ls: seq<Level>, x: Level)
    requires SortedSide(side, ls)
    ensures SortSide(side, ls + [x]) == Insert(side, x, ls)
  {
    assert (ls + [x])[..|ls + [x]| - 1] == ls;
    SortSideIdempotent(side, ls);
  }

  // ---------------------------------------------------------------------
  // Derived prices (OrderBook properties)
  // ---------------------------------------------------------------------

  function BestBid(b: OrderBook): (r: Option<real>)
    ensures r.None? <==> |b.bids| == 0
    ensures r.Some? ==> r.value == b.bids[0].price
  {
    if |b.bids| > 0 then Some(b.bids[0].price) else None
  }

  function BestAsk(b: OrderBook): (r: Option<real>)
    ensures r.None? <==> |b.asks| == 0
    ensures r.Some? ==> r.value == b.asks[0].price
  {
    if |b.asks| > 0 then Some(b.asks[0].price) else None
  }

  /** Mid price; defined only when both best prices are truthy (present
      and non-zero). */
  function MidPrice(b: OrderBook): (r: Option<real>)
    ensures r.Some? <==> Truthy(BestBid(b)) && Truthy(BestAsk(b))
    ensures r.Some? ==> r.value == (b.bids[0].price + b.asks[0].price) / 2.0
  {
    var bb := BestBid(b);
    var ba := BestAsk(b);
    if Truthy(bb) && Truthy(ba) then Some((bb.value + ba.value) / 2.0) else None
  }

  function SpreadOf(b: OrderBook): (r: Option<real>)
    ensures r.Some? <==> Truthy(BestBid(b)) && Truthy(BestAsk(b))
    ensures r.Some? ==> r.value == b.asks[0].price - b.bids[0].price
  {
    var bb := BestBid(b);
    var ba := BestAsk(b);
    if Truthy(bb) && Truthy(ba) then Some(ba.value - bb.value) else None
  }

  /** Volume-weighted average price of the first `depth` levels of a side,
      or None when their total size is zero. */
  function Vwap(ls: seq<Level>, depth: nat): (r: Option<real>)
    ensures r.None? <==> SumSizes(Prefix(ls, depth)) == 0.0
    ensures r.Some? ==> r.value * SumSizes(Prefix(ls, depth)) == SumValues(Prefix(ls, depth))
  {
    var top := Prefix(ls, depth);
    var size := SumSizes(top);
    if size == 0.0 then None else Some(SumValues(top) / size)
  }

  /** Volume-weighted mid over the top `depth` levels of each side. */
  function WeightedMid(b: OrderBook, depth: nat): (r: Option<real>)
    ensures |b.bids| == 0 || |b.asks| == 0 ==> r.None?
    ensures |b.bids| > 0 && |b.asks| > 0 && (Vwap(b.bids, depth).None? || Vwap(b.asks, depth).None?)
            ==> r == MidPrice(b)
    ensures |b.bids| > 0 && |b.asks| > 0 && Vwap(b.bids, depth).Some? && Vwap(b.asks, depth).Some?
            ==> r == Some((Vwap(b.bids, depth).value + Vwap(b.asks, depth).value) / 2.0)
  {
    if |b.bids| == 0 || |b.asks| == 0 then None
    else
      var wb := Vwap(b.bids, depth);
      var wa := Vwap(b.asks, depth);
      if wb.None? || wa.None? then MidPrice(b)
      else Some((wb.value + wa.value) / 2.0)
  }

  /** Levels whose prices lie in `[lo, hi]` and whose sizes are not
      negative. */
  ghost predicate PricedWithin(ls: seq<Level>, lo: real, hi: real)
  {
    forall i :: 0 <= i < |ls| ==> ls[i].size >= 0.0 && lo <= ls[i].price <= hi
  }

  /** The notional of such levels lies between `lo` and `hi` times their
      total size. */
  lemma {:induction false} ValuesBetween(ls: seq<Level>, lo: real, hi: real)
    requires PricedWithin(ls, lo, hi)
    ensures lo * SumSizes(ls) <= SumValues(ls) <= hi * SumSizes(ls)
  {
    if |ls| > 0 {
      ValuesBetween(ls[1..], lo, hi);
      var l := ls[0];
      assert (l.price - lo) * l.size >= 0.0;
      assert (hi - l.price) * l.size >= 0.0;
    }
  }

  /** The volume-weighted price of levels with non-negative sizes lies
      between the lowest and highest price among them. */
  lemma VwapWithinPrices(ls: seq<Level>, depth: nat, lo: real, hi: real)
    requires PricedWithin(ls, lo, hi)
    ensures Vwap(ls, depth).Some? ==> lo <= Vwap(ls, depth).value <= hi
  {
    var top := Prefix(ls, depth);
    assert PricedWithin(top, lo, hi) by {
      forall i | 0 <= i < |top| ensures top[i] == ls[i] {
        assert top <= ls;
      }
    }
    SumSizesNonNeg(top);
    ValuesBetween(top, lo, hi);
    if Vwap(ls, depth).Some? {
      QuotientBetween(Vwap(ls, depth).value, SumSizes(top), SumValues(top), lo, hi);
    }
  }

  lemma QuotientBetween(v: real, t: real, value: real, lo: real, hi: real)
    requires t > 0.0 && v * t == value && lo * t <= value <= hi * t
    ensures lo <= v <= hi
  {
    assert (v - lo) * t >= 0.0;
    assert (hi - v) * t >= 0.0;
  }

  /** When every level of both sides is priced in `[lo, hi]` with a
      non-negative size, so is the weighted mid. */
  lemma WeightedMidWithinPrices(b: OrderBook, depth: nat, lo: real, hi: real)
    requires PricedWithin(b.bids, lo, hi) && PricedWithin(b.asks, lo, hi)
    ensures WeightedMid(b, depth).Some? ==> lo <= WeightedMid(b, depth).value <= hi
  {
    VwapWithinPrices(b.bids, depth, lo, hi);
    VwapWithinPrices(b.asks, depth, lo, hi);
  }

  // ---------------------------------------------------------------------
  // Incremental update of one side
  // ---------------------------------------------------------------------

  /** Index of the first level at `price`, if any. */
  function FindPrice(ls: seq<Level>, price: real): (r: Option<nat>)
    ensures r.Some? ==> r.value < |ls| && ls[r.value].price == price
    ensures r.Some? ==> forall i :: 0 <= i < r.value ==> ls[i].price != price
    ensures r.None? ==> forall i :: 0 <= i < |ls| ==> ls[i].price != price
  {
    if |ls| == 0 then None
    else if ls[0].price == price then Some(0)
    else
      match FindPrice(ls[1..], price)
      case None => None
      case Some(k) => Some(k + 1)
  }

  /** One price-level change applied to one side: at an existing price a
      zero size removes the level and any other size overwrites it; an
      absent price is inserted (and the side re-sorted) only for a positive
      size. */
  function ApplyLevel(side: Side, ls: seq<Level>, price: real, size: real): (r: seq<Level>)
    ensures FindPrice(ls, price).Some? && size == 0.0 ==>
      var i := FindPrice(ls, price).value;
      r == ls[..i] + ls[i + 1..]
    ensures FindPrice(ls, price).Some? && size != 0.0 ==>
      var i := FindPrice(ls, price).value;
      |r| == |ls| && r[i] == Level(price, size) &&
      forall j :: 0 <= j < |ls| && j != i ==> r[j] == ls[j]
    ensures FindPrice(ls, price).None? && size > 0.0 ==>
      SortedSide(side, r) && multiset(r) == multiset(ls) + multiset{Level(price, size)}
    ensures FindPrice(ls, price).None? && size <= 0.0 ==> r == ls
  {
    match FindPrice(ls, price)
    case Some(i) =>
      if size == 0.0 then ls[..i] + ls[i + 1..] else ls[i := Level(price, size)]
    case None =>
      if size > 0.0 then SortSide(side, ls + [Level(price, size)]) else ls
  }

  /** Removing a level keeps a side sorted. */
  lemma RemoveKeepsSorted(side: Side, ls: seq<Level>, i: nat)
    requires i < |ls|
    requires SortedSide(side, ls)
    ensures SortedSide(side, ls[..i] + ls[i + 1..])
  {
    var r := ls[..i] + ls[i + 1..];
    forall a, b | 0 <= a < b < |r|
      ensures Before(side, r[a].price, r[b].price)
    {
      var a' := if a < i then a else a + 1;
      var b' := if b < i then b else b + 1;
      assert r[a] == ls[a'] && r[b] == ls[b'];
    }
  }

  /** Every level change keeps a sorted side sorted, and a new level is
      placed where a stable sort would put it. */
  lemma {:induction false} ApplyLevelKeepsSorted(side: Side, ls: seq<Level>, price: real, size: real)
    requires SortedSide(side, ls)
    ensures SortedSide(side, ApplyLevel(side, ls, price, size))
    ensures FindPrice(ls, price).None? && size > 0.0 ==>
      ApplyLevel(side, ls, price, size) == Insert(side, Level(price, size), ls)
  {
    match FindPrice(ls, price)
    case Some(i) =>
      if size == 0.0 {
        RemoveKeepsSorted(side, ls, i);
      }
    case None =>
      if size > 0.0 {
        AppendThenSort(side, ls, Level(price, size));
      }
  }

  /** Applies a change to the side of `b` named by `side`; the other side
      is untouched. */
  function ApplyChange(b: OrderBook, side: Side, price: real, size: real): (r: OrderBook)
    ensures r.tokenId == b.tokenId
    ensures side == Buy ==> r.asks == b.asks && r.bids == ApplyLevel(Buy, b.bids, price, size)
    ensures side == Sell ==> r.bids == b.bids && r.asks == ApplyLevel(Sell, b.asks, price, size)
  {
    if side == Buy then b.(bids := ApplyLevel(Buy, b.bids, price, size))
    else b.(asks := ApplyLevel(Sell, b.asks, price, size))
  }

  /** A book whose bids descend and asks ascend. */
  predicate WellOrdered(b: OrderBook)
  {
    SortedSide(Buy, b.bids) && SortedSide(Sell, b.asks)
  }

  lemma ApplyChangeKeepsOrder(b: OrderBook, side: Side, price: real, size: real)
    requires WellOrdered(b)
    ensures WellOrdered(ApplyChange(b, side, price, size))
  {
    ApplyLevelKeepsSorted(Buy, b.bids, price, size);
    ApplyLevelKeepsSorted(Sell, b.asks, price, size);
  }

  /** In a well-ordered book the first bid is the highest bid price and the
      first ask the lowest ask price. */
  lemma BestPricesAreExtreme(b: OrderBook)
    requires WellOrdered(b)
    ensures BestBid(b).Some? ==> forall i :: 0 <= i < |b.bids| ==> b.bids[i].price <= BestBid(b).value
    ensures BestAsk(b).Some? ==> forall i :: 0 <= i < |b.asks| ==> b.asks[i].price >= BestAsk(b).value
  {
    if |b.bids| > 0 {
      forall i | 0 < i < |b.bids| ensures b.bids[i].price <= b.bids[0].price {
        assert Before(Buy, b.bids[0].price, b.bids[i].price);
      }
    }
    if |b.asks| > 0 {
      forall i | 0 < i < |b.asks| ensures b.asks[i].price >= b.asks[0].price {
        assert Before(Sell, b.asks[0].price, b.asks[i].price);
      }
    }
  }
}

=== FILE: bot.dfy ===
/**
 The bot's event handling: order-book and fill callbacks that flag a token
 for requoting, the pass that drains those flags, and the per-market quote
 update that filters the engine's quotes through the risk manager before
 handing them to the order manager. The quote engine's own
 `calculate_quotes` (with its volatility and momentum adjustments) is
 given as a function parameter; the exchange answers are the order
 manager's oracles.
 */
module Bot {
  import opened Common
  import opened Dicts
  import opened Book
  import opened Quotes
  import opened Risk
  import opened Orders

  /** The parts of `MarketMakingBot` the event handlers touch:
      `_orderbooks`, `_pending_quote_updates` (insertion ordered), the
      inventory, the PnL tracker, the quote engine's trade-flow state, the
      risk manager's state and the order manager. */
  datatype BotState = BotState(books: map<string, OrderBook>, pending: Dict<bool>,
                               inv: Inventory, pnl: PnlTracker, flow: FlowState,
                               risk: RiskState, manager: Manager)

  /** What the bot cannot compute itself: the engine's quotes for a token
      given its book and inventory, and the exchange's answers. */
  datatype Env = Env(quotesFor: (string, OrderBook, int) -> Option<QuoteSet>,
                     cancelOk: string -> bool, place: (Side, Quote) -> Option<Order>, now: real)

  /** The flag `_pending_quote_updates[token] = True`. */
  function Flag(st: BotState, token: string): (r: BotState)
    ensures Get(r.pending, token) == Some(true)
    ensures forall k :: k != token ==> Get(r.pending, k) == Get(st.pending, k)
    ensures r.(pending := st.pending) == st
  {
    forall k ensures Get(Put(st.pending, token, true), k) == if k == token then Some(true) else Get(st.pending, k) {
      GetPut(st.pending, token, true, k);
    }
    st.(pending := Put(st.pending, token, true))
  }

  // ---------------------------------------------------------------------
  // Callbacks
  // ---------------------------------------------------------------------

  /** `_on_orderbook_update`: stores the book, marks the token's position
      at a truthy mid, and flags the token. */
  function OnOrderbookUpdate(st: BotState, b: OrderBook): (r: BotState)
    ensures b.tokenId in r.books && r.books[b.tokenId] == b
    ensures forall k :: k in st.books && k != b.tokenId ==> k in r.books && r.books[k] == st.books[k]
    ensures Get(r.pending, b.tokenId) == Some(true)
    ensures forall k :: k != b.tokenId ==> Get(r.pending, k) == Get(st.pending, k)
    ensures r.inv.history == st.inv.history
    ensures Truthy(MidPrice(b)) ==>
      r.inv.positions == UpdateAllUnrealized(st.inv.positions, map[b.tokenId := MidPrice(b).value])
    ensures !Truthy(MidPrice(b)) ==> r.inv == st.inv
    ensures r.manager == st.manager && r.risk == st.risk
  {
    var inv := if Truthy(MidPrice(b))
      then st.inv.(positions := UpdateAllUnrealized(st.inv.positions, map[b.tokenId := MidPrice(b).value]))
      else st.inv;
    Flag(st.(books := st.books[b.tokenId := b], inv := inv), b.tokenId)
  }

  /** `_on_fill`: the fill updates the inventory, is recorded once in the
      PnL tracker, joins the trade flow, and flags its token. */
  function OnFill(st: BotState, t: Trade, tradeTime: real, now: real): (r: BotState)
    ensures r.inv == UpdatePosition(st.inv, t)
    ensures r.pnl.fills == st.pnl.fills + [(now, t)]
    ensures r.flow == UpdateAdverseSelection(st.flow, now, [FlowTrade(tradeTime, t.side, t.size)])
    ensures Get(r.pending, t.tokenId) == Some(true)
    ensures forall k :: k != t.tokenId ==> Get(r.pending, k) == Get(st.pending, k)
    ensures r.books == st.books && r.manager == st.manager && r.risk == st.risk
  {
    Flag(st.(inv := UpdatePosition(st.inv, t), pnl := RecordFill(st.pnl, now, t),
             flow := UpdateAdverseSelection(st.flow, now, [FlowTrade(tradeTime, t.side, t.size)])),
         t.tokenId)
  }

  // ---------------------------------------------------------------------
  // Risk filtering of quotes
  // ---------------------------------------------------------------------

  /** The size the risk manager lets a quote carry. */
  function Adjusted(cfg: RiskConfig, inv: Inventory, token: string, side: Side, q: Quote): Quote
    requires cfg.maxInventoryImbalance != 0
  {
    q.(size := SizeAdjustment(cfg, inv, token, side, q.size))
  }

  /** The risk manager allows the quote at its adjusted size. */
  predicate Passes(cfg: RiskConfig, rs: RiskState, inv: Inventory, token: string, side: Side, q: Quote)
    requires cfg.maxInventoryImbalance != 0
  {
    var a := Adjusted(cfg, inv, token, side, q);
    CheckOrderAllowed(cfg, rs, inv, token, side, a.size, a.price) == Allowed
  }

  /** `a` is `b` with some elements left out, order kept. */
  predicate Subsequence<T(==)>(a: seq<T>, b: seq<T>)
    decreases |b|
  {
    if |a| == 0 then true
    else if |b| == 0 then false
    else (a[0] == b[0] && Subsequence(a[1..], b[1..])) || Subsequence(a, b[1..])
  }

  function AdjustAll(cfg: RiskConfig, inv: Inventory, token: string, side: Side, qs: seq<Quote>): (r: seq<Quote>)
    requires cfg.maxInventoryImbalance != 0
    ensures |r| == |qs|
    ensures forall i :: 0 <= i < |qs| ==> r[i] == Adjusted(cfg, inv, token, side, qs[i])
  {
    if |qs| == 0 then [] else [Adjusted(cfg, inv, token, side, qs[0])] + AdjustAll(cfg, inv, token, side, qs[1..])
  }

  /** One side's loop in `_update_quotes_for_market`: each quote's size is
      adjusted, and it survives, carrying that size, only when the risk
      check allows it. Survivors keep their relative order. */
  function FilterQuotes(cfg: RiskConfig, rs: RiskState, inv: Inventory, token: string, side: Side,
                        qs: seq<Quote>): (r: seq<Quote>)
    requires cfg.maxInventoryImbalance != 0
    ensures |r| <= |qs|
    ensures forall q :: q in r ==> exists q0 :: q0 in qs && Passes(cfg, rs, inv, token, side, q0)
                                                && q == Adjusted(cfg, inv, token, side, q0)
    ensures forall q0 :: q0 in qs && Passes(cfg, rs, inv, token, side, q0) ==>
      Adjusted(cfg, inv, token, side, q0) in r
    ensures Subsequence(r, AdjustAll(cfg, inv, token, side, qs))
  {
    if |qs| == 0 then []
    else
      var rest := FilterQuotes(cfg, rs, inv, token, side, qs[1..]);
      assert AdjustAll(cfg, inv, token, side, qs)[1..] == AdjustAll(cfg, inv, token, side, qs[1..]);
      assert forall q0 :: q0 in qs ==> q0 == qs[0] || q0 in qs[1..];
      if Passes(cfg, rs, inv, token, side, qs[0]) then
        [Adjusted(cfg, inv, token, side, qs[0])] + rest
      else
        rest
  }

  /** A halted risk manager lets no quote through. */
  lemma {:induction false} HaltedFiltersEverything(cfg: RiskConfig, rs: RiskState, inv: Inventory, token: string, side: Side,
                                qs: seq<Quote>)
    requires cfg.maxInventoryImbalance != 0 && rs.halted
    ensures FilterQuotes(cfg, rs, inv, token, side, qs) == []
  {
    if |qs| > 0 {
      assert !Passes(cfg, rs, inv, token, side, qs[0]);
      HaltedFiltersEverything(cfg, rs, inv, token, side, qs[1..]);
    }
  }

  // ---------------------------------------------------------------------
  // Requoting one market
  // ---------------------------------------------------------------------

  /** `_update_quotes_for_market`: with no cached book nothing happens.
      When `should_quote` says no, all of the token's orders are
      cancelled. Otherwise the engine's quotes are filtered side by side
      and, if any survive, handed to the order manager. The expiry is not
      passed, so the expiry test never fires. */
  function UpdateQuotesForMarket(cfg: RiskConfig, st: BotState, token: string, env: Env): (r: BotState)
    requires cfg.maxInventoryImbalance != 0
    ensures r.(manager := st.manager) == st
    ensures token !in st.books ==> r == st
    ensures token in st.books && !ShouldQuote(Some(st.books[token]), PositionOf(st.inv, token).quantity,
                                              cfg.maxPositionPerMarket, None).quote ==>
      r.manager == Orders.CancelAll(st.manager, Some(token)).0
    ensures r.manager != st.manager ==> token in st.books
  {
    if token !in st.books then st
    else
      var b := st.books[token];
      var q := PositionOf(st.inv, token).quantity;
      if !ShouldQuote(Some(b), q, cfg.maxPositionPerMarket, None).quote then
        st.(manager := Orders.CancelAll(st.manager, Some(token)).0)
      else
        match env.quotesFor(token, b, q)
        case None => st
        case Some(qs) =>
          var bids := FilterQuotes(cfg, st.risk, st.inv, token, Buy, qs.bids);
          var asks := FilterQuotes(cfg, st.risk, st.inv, token, Sell, qs.asks);
          if |bids| == 0 && |asks| == 0 then st
          else st.(manager := UpdateQuotes(st.manager, token, qs.(bids := bids, asks := asks),
                                           env.cancelOk, env.place, env.now).0)
  }

  /** When quoting goes ahead, the order manager is asked for exactly the
      filtered quotes, and only when at least one survives. */
  lemma RequoteUsesFilteredQuotes(cfg: RiskConfig, st: BotState, token: string, env: Env)
    requires cfg.maxInventoryImbalance != 0
    requires token in st.books
    requires ShouldQuote(Some(st.books[token]), PositionOf(st.inv, token).quantity,
                         cfg.maxPositionPerMarket, None).quote
    requires env.quotesFor(token, st.books[token], PositionOf(st.inv, token).quantity).Some?
    ensures var qs := env.quotesFor(token, st.books[token], PositionOf(st.inv, token).quantity).value;
      var bids := FilterQuotes(cfg, st.risk, st.inv, token, Buy, qs.bids);
      var asks := FilterQuotes(cfg, st.risk, st.inv, token, Sell, qs.asks);
      UpdateQuotesForMarket(cfg, st, token, env).manager ==
        if |bids| == 0 && |asks| == 0 then st.manager
        else UpdateQuotes(st.manager, token, qs.(bids := bids, asks := asks), env.cancelOk, env.place, env.now).0
  {
  }

  /** A halted bot never sends quotes to the order manager: it either
      cancels the token's orders or changes nothing. */
  lemma HaltedBotOnlyCancels(cfg: RiskConfig, st: BotState, token: string, env: Env)
    requires cfg.maxInventoryImbalance != 0 && st.risk.halted
    ensures UpdateQuotesForMarket(cfg, st, token, env).manager in {st.manager, Orders.CancelAll(st.manager, Some(token)).0}
  {
    if token in st.books {
      var b := st.books[token];
      var q := PositionOf(st.inv, token).quantity;
      match env.quotesFor(token, b, q)
      case None =>
      case Some(qs) =>
        HaltedFiltersEverything(cfg, st.risk, st.inv, token, Buy, qs.bids);
        HaltedFiltersEverything(cfg, st.risk, st.inv, token, Sell, qs.asks);
    }
  }

  function UpdateMarkets(cfg: RiskConfig, st: BotState, tokens: seq<string>, env: Env): (r: BotState)
    requires cfg.maxInventoryImbalance != 0
    ensures r.(manager := st.manager) == st
    decreases |tokens|
  {
    if |tokens| == 0 then st
    else UpdateMarkets(cfg, UpdateQuotesForMarket(cfg, st, tokens[0], env), tokens[1..], env)
  }

  // ---------------------------------------------------------------------
  // Draining the flags
  // ---------------------------------------------------------------------

  /** The flagged tokens, in the dict's order. */
  function Flagged(d: Dict<bool>): (r: seq<string>)
    ensures forall i :: 0 <= i < |r| ==> exists j :: 0 <= j < |d| && d[j] == (r[i], true)
    ensures forall j :: 0 <= j < |d| && d[j].1 ==> d[j].0 in r
  {
    if |d| == 0 then []
    else
      var rest := Flagged(d[1..]);
      assert forall j :: 1 <= j < |d| ==> d[j] == d[1..][j - 1];
      if d[0].1 then [d[0].0] + rest else rest
  }

  /** Every flag lowered, keys and order kept. */
  function Lower(d: Dict<bool>): (r: Dict<bool>)
    ensures |r| == |d|
    ensures forall i :: 0 <= i < |d| ==> r[i] == (d[i].0, false)
  {
    if |d| == 0 then [] else [(d[0].0, false)] + Lower(d[1..])
  }

  lemma {:induction false} NothingFlaggedAfterLower(d: Dict<bool>)
    ensures Flagged(Lower(d)) == []
  {
    if |d| > 0 {
      NothingFlaggedAfterLower(d[1..]);
      assert Lower(d)[1..] == Lower(d[1..]);
    }
  }

  /** `_process_pending_quote_updates`: the flagged tokens are collected
      and every flag is lowered before anything else; then, unless the
      daily loss check trips (which halts the risk manager and updates no
      quote), each collected token is requoted in order. The second
      component is the collected list. */
  function ProcessPending(cfg: RiskConfig, st: BotState, newDay: bool, env: Env): (r: (BotState, seq<string>))
    requires cfg.maxInventoryImbalance != 0
    ensures r.1 == Flagged(st.pending)
    ensures Flagged(r.0.pending) == []
    ensures Keys(r.0.pending) == Keys(st.pending)
    ensures r.0.risk == CheckDailyLoss(cfg, st.risk, st.inv, newDay).0
    ensures CheckDailyLoss(cfg, st.risk, st.inv, newDay).1 ==> r.0.manager == st.manager
    ensures r.0.books == st.books && r.0.inv == st.inv && r.0.pnl == st.pnl
  {
    var tokens := Flagged(st.pending);
    NothingFlaggedAfterLower(st.pending);
    var lowered := Lower(st.pending);
    var (rs, tripped) := CheckDailyLoss(cfg, st.risk, st.inv, newDay);
    var st1 := st.(pending := lowered, risk := rs);
    if tripped then (st1, tokens)
    else (UpdateMarkets(cfg, st1, tokens, env), tokens)
  }

  /** A fill is requoted at the next drain: its token is among the
      collected ones. */
  lemma FillIsRequoted(cfg: RiskConfig, st: BotState, t: Trade, tradeTime: real, now: real,
                       newDay: bool, env: Env)
    requires cfg.maxInventoryImbalance != 0
    ensures t.tokenId in ProcessPending(cfg, OnFill(st, t, tradeTime, now), newDay, env).1
  {
    var p := OnFill(st, t, tradeTime, now).pending;
    var j := Find(p, t.tokenId).value;
    assert p[j] == (t.tokenId, true);
  }

  /** The same for a book update. */
  lemma BookUpdateIsRequoted(cfg: RiskConfig, st: BotState, b: OrderBook, newDay: bool, env: Env)
    requires cfg.maxInventoryImbalance != 0
    ensures b.tokenId in ProcessPending(cfg, OnOrderbookUpdate(st, b), newDay, env).1
  {
    var p := OnOrderbookUpdate(st, b).pending;
    var j := Find(p, b.tokenId).value;
    assert p[j] == (b.tokenId, true);
  }
}

=== FILE: common.dfy ===
/**
 Shared vocabulary of the market-making bot model: optional values, order
 sides, order-book price levels, and the handful of Python numeric and
 slicing conventions (truncating `int()`, banker's rounding of `quantize`,
 truthiness of an optional Decimal, negative slice bounds) that the rest of
 the model relies on.
 */
module Common {

  datatype Option<T> = None | Some(value: T)

  /** An order side. The source compares the side string with "BUY" and
      treats every other value as "SELL", so two constructors suffice. */
  datatype Side = Buy | Sell

  function SideOf(s: string): (r: Side)
    ensures r == Buy <==> s == "BUY"
  {
    if s == "BUY" then Buy else Sell
  }

  /** An exchange order as the client reports it. The status is kept as
      the source's string ("LIVE", "MATCHED", "CANCELLED", "UNKNOWN", ...). */
  datatype Order = Order(orderId: string, tokenId: string, side: Side,
                         price: real, size: real, sizeMatched: real, status: string)

  /** A fill, as the client reports it. */
  datatype Trade = Trade(tradeId: string, tokenId: string, side: Side,
                         price: real, size: real, fee: real, orderId: string)

  /** One price level of an order book (`{"price": p, "size": s}`). */
  datatype Level = Level(price: real, size: real)

  function Abs(x: real): (r: real)
    ensures r >= 0.0
    ensures r == x || r == -x
  {
    if x < 0.0 then -x else x
  }

  function IAbs(x: int): (r: nat)
    ensures r == x || r == -x
  {
    if x < 0 then -x else x
  }

  function MinR(a: real, b: real): (r: real)
    ensures r <= a && r <= b
    ensures r == a || r == b
  {
    if a <= b then a else b
  }

  function MaxR(a: real, b: real): (r: real)
    ensures r >= a && r >= b
    ensures r == a || r == b
  {
    if a >= b then a else b
  }

  /** `max(lo, min(hi, x))`, the clamp the quote engine applies. */
  function Clamp(lo: real, hi: real, x: real): (r: real)
    ensures r >= lo
    ensures lo <= hi ==> lo <= r <= hi
    ensures lo <= x <= hi ==> r == x
  {
    MaxR(lo, MinR(hi, x))
  }

  /** Python `int(d)` on a Decimal: truncation toward zero. */
  function Trunc(x: real): (n: int)
    ensures x >= 0.0 ==> 0 <= n && n as real <= x < n as real + 1.0
    ensures x < 0.0 ==> n <= 0 && n as real - 1.0 < x <= n as real
  {
    if x >= 0.0 then x.Floor else -((-x).Floor)
  }

  /** `Decimal.quantize(Decimal("1"))` under the default decimal context,
      whose rounding mode is ROUND_HALF_EVEN. */
  function RoundHalfEven(x: real): (n: int)
    ensures -0.5 <= x - n as real <= 0.5
    ensures x - n as real == 0.5 || x - n as real == -0.5 ==> n % 2 == 0
  {
    var f := x.Floor;
    var d := x - f as real;
    if d < 0.5 then f
    else if d > 0.5 then f + 1
    else if f % 2 == 0 then f
    else f + 1
  }

  /** Truthiness of an `Optional[Decimal]`: both None and zero are false. */
  predicate Truthy(o: Option<real>)
  {
    o.Some? && o.value != 0.0
  }

  /** Python `s[:n]` for a non-negative `n`. */
  function Prefix<T>(s: seq<T>, n: nat): (r: seq<T>)
    ensures |r| == if n < |s| then n else |s|
    ensures r <= s
  {
    if n < |s| then s[..n] else s
  }

  /** Python `s[-n:]`. Note `s[-0:]` is the whole sequence and a negative
      `n` drops the first `-n` elements. */
  function PyTail<T>(s: seq<T>, n: int): (r: seq<T>)
    ensures n == 0 ==> r == s
    ensures n > 0 ==> |r| == (if n < |s| then n else |s|)
    ensures exists k :: 0 <= k <= |s| && r == s[k..]
  {
    if n == 0 then assert s == s[0..]; s
    else if n > 0 then (if n < |s| then s[|s| - n..] else s)
    else (if -n < |s| then s[-n..] else s[|s|..])
  }

  function Reverse<T>(s: seq<T>): (r: seq<T>)
    ensures |r| == |s|
    ensures forall i :: 0 <= i < |s| ==> r[i] == s[|s| - 1 - i]
  {
    if |s| == 0 then [] else Reverse(s[1..]) + [s[0]]
  }

  function Pow2(k: nat): (r: nat)
    ensures r >= 1
  {
    if k == 0 then 1 else 2 * Pow2(k - 1)
  }

  /** Sum of the sizes of a list of levels. */
  function SumSizes(ls: seq<Level>): real
  {
    if |ls| == 0 then 0.0 else ls[0].size + SumSizes(ls[1..])
  }

  /** Sum of price times size of a list of levels. */
  function SumValues(ls: seq<Level>): real
  {
    if |ls| == 0 then 0.0 else ls[0].price * ls[0].size + SumValues(ls[1..])
  }

  lemma {:induction false} SumSizesNonNeg(ls: seq<Level>)
    requires forall i :: 0 <= i < |ls| ==> ls[i].size >= 0.0
    ensures SumSizes(ls) >= 0.0
  {
    if |ls| > 0 {
      SumSizesNonNeg(ls[1..]);
    }
  }
}

=== FILE: dicts.dfy ===
/**
 Python's insertion-ordered `dict` with string keys, as a sequence of
 (key, value) entries. Lookups find the first entry with the key, an
 assignment to a present key overwrites that entry in place, and an
 assignment to a new key appends, so iteration order is insertion order.
 */
module Dicts {
  import opened Common

  type Dict<V> = seq<(string, V)>

  /** Index of the entry holding `k`, if any. */
  function Find<V>(d: Dict<V>, k: string): (r: Option<nat>)
    ensures r.Some? ==> r.value < |d| && d[r.value].0 == k
    ensures r.Some? ==> forall i :: 0 <= i < r.value ==> d[i].0 != k
    ensures r.None? <==> forall i :: 0 <= i < |d| ==> d[i].0 != k
  {
    if |d| == 0 then None
    else if d[0].0 == k then Some(0)
    else
      match Find(d[1..], k)
      case None => None
      case Some(j) => Some(j + 1)
  }

  /** The first entry holding `k` is the one `Find` reports. */
  lemma FindAt<V>(d: Dict<V>, k: string, i: nat)
    requires i < |d| && d[i].0 == k
    requires forall j :: 0 <= j < i ==> d[j].0 != k
    ensures Find(d, k) == Some(i)
  {
    assert d[i].0 == k;
  }

  predicate Has<V>(d: Dict<V>, k: string)
  {
    Find(d, k).Some?
  }

  /** `d.get(k)`. */
  function Get<V>(d: Dict<V>, k: string): (r: Option<V>)
    ensures r.Some? <==> Has(d, k)
    ensures r.Some? ==> r.value == d[Find(d, k).value].1
  {
    match Find(d, k)
    case Some(i) => Some(d[i].1)
    case None => None
  }

  /** `d[k] = v`. */
  function Put<V>(d: Dict<V>, k: string, v: V): (r: Dict<V>)
    ensures Has(d, k) ==> r == d[Find(d, k).value := (k, v)]
    ensures !Has(d, k) ==> r == d + [(k, v)]
  {
    match Find(d, k)
    case Some(i) => d[i := (k, v)]
    case None => d + [(k, v)]
  }

  /** `d.pop(k, None)`: drops the entry holding `k`, if any. */
  function Remove<V>(d: Dict<V>, k: string): (r: Dict<V>)
    ensures !Has(d, k) ==> r == d
    ensures Has(d, k) ==> r == d[..Find(d, k).value] + d[Find(d, k).value + 1..]
  {
    match Find(d, k)
    case Some(i) => d[..i] + d[i + 1..]
    case None => d
  }

  function Keys<V>(d: Dict<V>): (r: seq<string>)
    ensures |r| == |d|
    ensures forall i :: 0 <= i < |d| ==> r[i] == d[i].0
  {
    if |d| == 0 then [] else [d[0].0] + Keys(d[1..])
  }

  function Values<V>(d: Dict<V>): (r: seq<V>)
    ensures |r| == |d|
    ensures forall i :: 0 <= i < |d| ==> r[i] == d[i].1
  {
    if |d| == 0 then [] else [d[0].1] + Values(d[1..])
  }

  /** No key occurs twice: what every dict the model builds satisfies. */
  predicate DistinctKeys<V>(d: Dict<V>)
  {
    forall i, j :: 0 <= i < j < |d| ==> d[i].0 != d[j].0
  }

  /** A read after a write sees the written value; other keys read as
      before. */
  lemma {:induction false} GetPut<V>(d: Dict<V>, k: string, v: V, k2: string)
    ensures Get(Put(d, k, v), k2) == if k2 == k then Some(v) else Get(d, k2)
  {
    match Find(d, k)
    case Some(i) =>
      FindUpdate(d, i, (k, v), k2);
    case None =>
      FindAppend(d, (k, v), k2);
  }

  /** Writing back the value already stored changes nothing. */
  lemma PutSame<V>(d: Dict<V>, k: string, v: V)
    requires Get(d, k) == Some(v)
    ensures Put(d, k, v) == d
  {
    var i := Find(d, k).value;
    assert d[i] == (k, v);
  }

  /** After removal the key is gone; other keys read as before. */
  lemma GetRemove<V>(d: Dict<V>, k: string, k2: string)
    requires DistinctKeys(d)
    ensures Get(Remove(d, k), k2) == if k2 == k then None else Get(d, k2)
  {
    if Has(d, k) {
      if k2 == k {
        RemoveGone(d, k);
      } else {
        RemoveOther(d, k, k2);
      }
    }
  }

  lemma RemoveGone<V>(d: Dict<V>, k: string)
    requires DistinctKeys(d) && Has(d, k)
    ensures Find(Remove(d, k), k).None?
  {
    var i := Find(d, k).value;
    var r := Remove(d, k);
    forall j | 0 <= j < |r| ensures r[j].0 != k {
      RemoveAt(d, i, j);
    }
  }

  lemma RemoveOther<V>(d: Dict<V>, k: string, k2: string)
    requires Has(d, k) && k2 != k
    ensures Get(Remove(d, k), k2) == Get(d, k2)
  {
    var i := Find(d, k).value;
    var r := Remove(d, k);
    match Find(d, k2)
    case None =>
      forall j | 0 <= j < |r| ensures r[j].0 != k2 {
        RemoveAt(d, i, j);
      }
    case Some(m) =>
      var m' := if m < i then m else m - 1;
      RemoveAt(d, i, m');
      forall j | 0 <= j < m' ensures r[j].0 != k2 {
        RemoveAt(d, i, j);
      }
      FindAt(r, k2, m');
  }

  /** Writing keeps keys distinct. */
  lemma PutDistinct<V>(d: Dict<V>, k: string, v: V)
    requires DistinctKeys(d)
    ensures DistinctKeys(Put(d, k, v))
  {
  }

  lemma RemoveDistinct<V>(d: Dict<V>, k: string)
    requires DistinctKeys(d)
    ensures DistinctKeys(Remove(d, k))
  {
    if Has(d, k) {
      var i := Find(d, k).value;
      var r := Remove(d, k);
      forall a, b | 0 <= a < b < |r| ensures r[a].0 != r[b].0 {
        RemoveAt(d, i, a);
        RemoveAt(d, i, b);
      }
    }
  }

  /** Where entry `j` of `d` with entry `i` cut out came from. */
  lemma RemoveAt<V>(d: Dict<V>, i: nat, j: nat)
    requires i < |d| && j < |d| - 1
    ensures (d[..i] + d[i + 1..])[j] == if j < i then d[j] else d[j + 1]
  {
  }

  lemma {:induction false} FindUpdate<V>(d: Dict<V>, i: nat, e: (string, V), k2: string)
    requires i < |d| && Find(d, e.0) == Some(i)
    ensures Get(d[i := e], k2) == if k2 == e.0 then Some(e.1) else Get(d, k2)
  {
    var r := d[i := e];
    if k2 == e.0 {
      FindAt(r, k2, i);
    } else {
      match Find(d, k2)
      case None =>
        assert forall j :: 0 <= j < |r| ==> r[j].0 != k2;
      case Some(m) =>
        assert r[m] == d[m];
        assert Find(r, k2) == Some(m);
    }
  }

  lemma {:induction false} FindAppend<V>(d: Dict<V>, e: (string, V), k2: string)
    requires Find(d, e.0).None?
    ensures Get(d + [e], k2) == if k2 == e.0 then Some(e.1) else Get(d, k2)
  {
    var r := d + [e];
    if k2 == e.0 {
      FindAt(r, k2, |d|);
    } else {
      match Find(d, k2)
      case None =>
        assert forall j :: 0 <= j < |r| ==> r[j].0 != k2;
      case Some(m) =>
        assert r[m] == d[m];
        assert Find(r, k2) == Some(m);
    }
  }
}

=== FILE: feed.dfy ===
/**
 The market-data push channel client (`src/websocket.py`): the local cache
 of order books built from snapshots and incremental price changes, the
 subscription set, event dispatch, and the capped exponential reconnect
 schedule.
 */
module Feed {
  import opened Common
  import opened Book

  /** One incremental price-level change. */
  datatype Change = Change(assetId: string, market: string, side: Side, price: real, size: real)

  /** A decoded market-channel event. `priceChanges` is the optional
      `price_changes` array, `changes` the optional `changes` array of a
      `price_change` event, and `asChange` the event read as a single
      change (used when it carries no `changes`). */
  datatype MarketEvent = MarketEvent(
    eventType: string, market: string,
    priceChanges: Option<seq<Change>>, changes: Option<seq<Change>>, asChange: Change,
    assetId: string, bids: seq<Level>, asks: seq<Level>)

  datatype FeedState = FeedState(subscribed: set<string>, books: map<string, OrderBook>)

  // ---------------------------------------------------------------------
  // Local order-book cache
  // ---------------------------------------------------------------------

  /** `_apply_price_change`: no-op for an asset without a cached book;
      otherwise the change is applied to the side it names and nothing
      else in the cache moves. */
  function ApplyPriceChange(st: FeedState, c: Change): (r: FeedState)
    ensures c.assetId !in st.books ==> r == st
    ensures r.subscribed == st.subscribed && r.books.Keys == st.books.Keys
    ensures c.assetId in st.books ==> r.books[c.assetId] == ApplyChange(st.books[c.assetId], c.side, c.price, c.size)
    ensures forall a :: a in st.books && a != c.assetId ==> r.books[a] == st.books[a]
  {
    if c.assetId !in st.books then st
    else st.(books := st.books[c.assetId := ApplyChange(st.books[c.assetId], c.side, c.price, c.size)])
  }

  /** `_handle_book_event`: the snapshot replaces any cached book for the
      asset, bids sorted descending and asks ascending (stable sorts). */
  function HandleBookEvent(st: FeedState, asset: string, bids: seq<Level>, asks: seq<Level>): (r: FeedState)
    ensures r.subscribed == st.subscribed
    ensures r.books.Keys == st.books.Keys + {asset}
    ensures WellOrdered(r.books[asset]) && r.books[asset].tokenId == asset
    ensures multiset(r.books[asset].bids) == multiset(bids) && multiset(r.books[asset].asks) == multiset(asks)
    ensures forall a :: a in st.books && a != asset ==> r.books[a] == st.books[a]
  {
    st.(books := st.books[asset := OrderBook(asset, SortSide(Buy, bids), SortSide(Sell, asks))])
  }

  /** Every cached book keeps bids descending and asks ascending. */
  predicate CacheOrdered(st: FeedState)
  {
    forall a :: a in st.books ==> WellOrdered(st.books[a])
  }

  lemma ApplyPriceChangeKeepsOrder(st: FeedState, c: Change)
    requires CacheOrdered(st)
    ensures CacheOrdered(ApplyPriceChange(st, c))
  {
    if c.assetId in st.books {
      ApplyChangeKeepsOrder(st.books[c.assetId], c.side, c.price, c.size);
    }
  }

  // ---------------------------------------------------------------------
  // Event dispatch
  // ---------------------------------------------------------------------

  /** Applies a list of changes in order. */
  function ApplyChanges(st: FeedState, cs: seq<Change>): (r: FeedState)
    ensures r.subscribed == st.subscribed && r.books.Keys == st.books.Keys
    decreases |cs|
  {
    if |cs| == 0 then st else ApplyChanges(ApplyPriceChange(st, cs[0]), cs[1..])
  }

  /** Each change of a `price_changes` array, stamped with the event's
      market. */
  function StampMarket(cs: seq<Change>, market: string): (r: seq<Change>)
    ensures |r| == |cs|
    ensures forall i :: 0 <= i < |cs| ==> r[i] == cs[i].(market := market)
  {
    if |cs| == 0 then [] else [cs[0].(market := market)] + StampMarket(cs[1..], market)
  }

  /** The changes an event stands for, in the order the handler applies
      them: a `price_changes` array wins over the event type; a
      `price_change` event contributes its `changes` or else itself. */
  function EventChanges(e: MarketEvent): seq<Change>
  {
    if e.priceChanges.Some? then StampMarket(e.priceChanges.value, e.market)
    else if e.eventType == "price_change" then
      (if e.changes.Some? then e.changes.value else [e.asChange])
    else []
  }

  /** One event of `_handle_market_message`: `price_changes` are applied
      per change before the type is looked at; a `book` event stores a
      snapshot; every other type (trades, tick-size changes, unknown or
      empty types) leaves the cache alone. */
  function HandleEvent(st: FeedState, e: MarketEvent): (r: FeedState)
    ensures e.priceChanges.None? && e.eventType != "book" && e.eventType != "price_change" ==> r == st
    ensures e.priceChanges.None? && e.eventType == "book" ==> r == HandleBookEvent(st, e.assetId, e.bids, e.asks)
    ensures e.priceChanges.Some? || e.eventType != "book" ==> r == ApplyChanges(st, EventChanges(e))
    ensures r.subscribed == st.subscribed
  {
    if e.priceChanges.None? && e.eventType == "book" then HandleBookEvent(st, e.assetId, e.bids, e.asks)
    else ApplyChanges(st, EventChanges(e))
  }

  function HandleEvents(st: FeedState, es: seq<MarketEvent>): (r: FeedState)
    ensures r.subscribed == st.subscribed
    decreases |es|
  {
    if |es| == 0 then st else HandleEvents(HandleEvent(st, es[0]), es[1..])
  }

  /** `_handle_market_message`: a message that fails to decode (None) is
      logged and dropped; a single event is handled like a one-element
      list. Events here are already decoded, so nothing can fail part-way.
      In the code a field that fails to convert is caught inside the book
      or price-change handler: a bad book snapshot leaves the cache alone,
      and a bad entry of a `changes` array skips that entry and the rest
      of the array. Only a malformed structure (an event that is not an
      object, a null `price_changes`, a change that is not an object)
      reaches the single `try` around the loop, which keeps the earlier
      events' effects and skips the later events. */
  function HandleMarketMessage(st: FeedState, msg: Option<seq<MarketEvent>>): (r: FeedState)
    ensures msg.None? ==> r == st
    ensures msg.Some? ==> r == HandleEvents(st, msg.value)
    ensures r.subscribed == st.subscribed
  {
    if msg.None? then st else HandleEvents(st, msg.value)
  }

  lemma {:induction false} ApplyChangesKeepsOrder(st: FeedState, cs: seq<Change>)
    requires CacheOrdered(st)
    ensures CacheOrdered(ApplyChanges(st, cs))
    decreases |cs|
  {
    if |cs| > 0 {
      ApplyPriceChangeKeepsOrder(st, cs[0]);
      ApplyChangesKeepsOrder(ApplyPriceChange(st, cs[0]), cs[1..]);
    }
  }

  /** Whatever the market channel sends, every cached book stays well
      ordered. */
  lemma {:induction false} MessageKeepsOrder(st: FeedState, msg: Option<seq<MarketEvent>>)
    requires CacheOrdered(st)
    ensures CacheOrdered(HandleMarketMessage(st, msg))
  {
    if msg.Some? {
      EventsKeepOrder(st, msg.value);
    }
  }

  lemma {:induction false} EventsKeepOrder(st: FeedState, es: seq<MarketEvent>)
    requires CacheOrdered(st)
    ensures CacheOrdered(HandleEvents(st, es))
    decreases |es|
  {
    if |es| > 0 {
      var e := es[0];
      if e.priceChanges.None? && e.eventType == "book" {
        var r := HandleBookEvent(st, e.assetId, e.bids, e.asks);
        assert CacheOrdered(r) by {
          forall a | a in r.books ensures WellOrdered(r.books[a]) {
            if a != e.assetId {
              assert r.books[a] == st.books[a];
            }
          }
        }
      } else {
        ApplyChangesKeepsOrder(st, EventChanges(e));
      }
      EventsKeepOrder(HandleEvent(st, e), es[1..]);
    }
  }

  // ---------------------------------------------------------------------
  // Cached prices
  // ---------------------------------------------------------------------

  function CachedBestBid(st: FeedState, asset: string): (r: Option<real>)
    ensures r.Some? <==> asset in st.books && |st.books[asset].bids| > 0
    ensures r.Some? ==> r.value == st.books[asset].bids[0].price
  {
    if asset in st.books then BestBid(st.books[asset]) else None
  }

  function CachedBestAsk(st: FeedState, asset: string): (r: Option<real>)
    ensures r.Some? <==> asset in st.books && |st.books[asset].asks| > 0
    ensures r.Some? ==> r.value == st.books[asset].asks[0].price
  {
    if asset in st.books then BestAsk(st.books[asset]) else None
  }

  /** `get_mid_price`: the mean of the cached best prices, only when both
      are truthy; it agrees with the book's own mid price. */
  function CachedMid(st: FeedState, asset: string): (r: Option<real>)
    ensures r == (if asset in st.books then MidPrice(st.books[asset]) else None)
  {
    var b := CachedBestBid(st, asset);
    var a := CachedBestAsk(st, asset);
    if Truthy(b) && Truthy(a) then Some((b.value + a.value) / 2.0) else None
  }

  // ---------------------------------------------------------------------
  // Subscriptions
  // ---------------------------------------------------------------------

  function SetOf(s: seq<string>): (r: set<string>)
    ensures forall x :: x in r <==> x in s
  {
    set x | x in s
  }

  /** `subscribe`: only unseen assets are added (and would be announced);
      with none, nothing happens. Returns the newly added assets. */
  function Subscribe(st: FeedState, assets: seq<string>): (r: (FeedState, set<string>))
    ensures r.1 == SetOf(assets) - st.subscribed
    ensures r.0.subscribed == st.subscribed + SetOf(assets)
    ensures r.0.books == st.books
    ensures r.1 == {} ==> r.0 == st
  {
    var added := SetOf(assets) - st.subscribed;
    if added == {} then (st, added) else (st.(subscribed := st.subscribed + added), added)
  }

  /** `unsubscribe`: only subscribed assets are removed, and their cached
      books are dropped; other books stay. Returns the removed assets. */
  function Unsubscribe(st: FeedState, assets: seq<string>): (r: (FeedState, set<string>))
    ensures r.1 == SetOf(assets) * st.subscribed
    ensures r.0.subscribed == st.subscribed - SetOf(assets)
    ensures forall a :: a in r.0.books <==> a in st.books && a !in r.1
    ensures forall a :: a in r.0.books ==> r.0.books[a] == st.books[a]
  {
    var gone := SetOf(assets) * st.subscribed;
    if gone == {} then
      DisjointMinus(st.subscribed, SetOf(assets));
      (st, gone)
    else (FeedState(st.subscribed - gone, st.books - gone), gone)
  }

  /** Subscribing to assets none of which were subscribed and then
      unsubscribing them restores the subscription set. */
  lemma SubscribeThenUnsubscribe(st: FeedState, assets: seq<string>)
    requires SetOf(assets) * st.subscribed == {}
    ensures Unsubscribe(Subscribe(st, assets).0, assets).0.subscribed == st.subscribed
  {
    DisjointMinus(st.subscribed, SetOf(assets));
  }

  lemma DisjointMinus(a: set<string>, b: set<string>)
    ensures a * b == {} ==> a - b == a
    ensures a * b == {} ==> (a + b) - b == a
  {
    if a * b == {} {
      forall x | x in a ensures x !in b {
        assert x !in a * b;
      }
    }
  }

  // ---------------------------------------------------------------------
  // Reconnection
  // ---------------------------------------------------------------------

  /** How one connection attempt of the market channel ended. */
  datatype Attempt =
    | ConnectFailed          // connecting raised
    | DroppedAfterConnect    // connected, then the session raised
    | ClosedCleanly          // connected, then the stream ended normally

  datatype Next = Retry(delay: real) | GiveUp

  datatype ReconnectConfig = ReconnectConfig(interval: real, maxAttempts: int)

  /** The constructor defaults: 5 seconds, 10 attempts. */
  function DefaultReconnectConfig(): ReconnectConfig
  {
    ReconnectConfig(5.0, 10)
  }

  const MaxReconnectDelay: real := 60.0

  /** Wait before retry number `count`: `min(interval * 2^count, 60)`. */
  function BackoffDelay(cfg: ReconnectConfig, count: nat): (d: real)
    ensures d <= MaxReconnectDelay
    ensures cfg.interval >= 0.0 ==> d >= 0.0
  {
    MulNonNegInt(cfg.interval, Pow2(count));
    MinR(cfg.interval * Pow2(count) as real, MaxReconnectDelay)
  }

  lemma MulNonNegInt(a: real, n: nat)
    ensures a >= 0.0 ==> a * n as real >= 0.0
  {
  }

  /** One turn of `_run_market_channel` after an attempt: a successful
      connect resets the counter; an exception (while running) bumps it
      and either gives up, once it passes the maximum, or waits the
      backoff delay. A clean close retries at once while the loop's
      `_running` flag is still set and ends the loop otherwise. */
  function AfterAttempt(cfg: ReconnectConfig, count: nat, running: bool, a: Attempt): (r: (nat, Next))
    ensures a == ClosedCleanly ==> r.0 == 0 && (r.1 == GiveUp <==> !running)
    ensures a == ClosedCleanly && running ==> r.1 == Retry(0.0)
    ensures a != ClosedCleanly && !running ==> r.1 == GiveUp
    ensures a != ClosedCleanly && running ==>
      var c := if a == ConnectFailed then count + 1 else 1;
      r.0 == c && (r.1 == GiveUp <==> c > cfg.maxAttempts) &&
      (r.1.Retry? ==> r.1.delay == BackoffDelay(cfg, c))
  {
    var base := if a == ConnectFailed then count else 0;
    if a == ClosedCleanly then (0, if running then Retry(0.0) else GiveUp)
    else if !running then (base, GiveUp)
    else if base + 1 > cfg.maxAttempts then (base + 1, GiveUp)
    else (base + 1, Retry(BackoffDelay(cfg, base + 1)))
  }

  /** Outcome of `k` consecutive failed connects from counter `count`:
      the counter after them and what the last one led to. */
  function FailStreak(cfg: ReconnectConfig, count: nat, k: nat): (r: (nat, Next))
    decreases k
  {
    if k == 0 then (count, Retry(0.0))
    else
      var (c, n) := AfterAttempt(cfg, count, true, ConnectFailed);
      if n == GiveUp || k == 1 then (c, n) else FailStreak(cfg, c, k - 1)
  }

  /** While the counter stays within `max_reconnect_attempts`, every failed
      connect is followed by a retry after the backoff for the new count. */
  lemma {:induction false} StreakSurvives(cfg: ReconnectConfig, count: nat, k: nat)
    requires count + k <= cfg.maxAttempts
    ensures FailStreak(cfg, count, k).0 == count + k
    ensures k > 0 ==> FailStreak(cfg, count, k).1 == Retry(BackoffDelay(cfg, count + k))
    decreases k
  {
    if k > 1 {
      StreakSurvives(cfg, count + 1, k - 1);
    }
  }

  /** ... and the failure that takes the counter past the maximum ends the
      loop: from a fresh counter the channel gives up on failure number
      `max_reconnect_attempts + 1`. */
  lemma {:induction false} StreakGivesUp(cfg: ReconnectConfig, count: nat, k: nat)
    requires count + k == cfg.maxAttempts
    ensures FailStreak(cfg, count, k + 1).1 == GiveUp
    decreases k
  {
    if k > 0 {
      StreakGivesUp(cfg, count + 1, k - 1);
    }
  }

  /** Delays never shrink as the counter grows. */
  lemma BackoffMonotone(cfg: ReconnectConfig, c: nat)
    requires cfg.interval >= 0.0
    ensures BackoffDelay(cfg, c) <= BackoffDelay(cfg, c + 1)
  {
    assert Pow2(c + 1) == 2 * Pow2(c);
    MulMonotone(cfg.interval, Pow2(c) as real, Pow2(c + 1) as real);
  }

  lemma MulMonotone(a: real, x: real, y: real)
    requires a >= 0.0 && x <= y
    ensures a * x <= a * y
  {
    assert a * (y - x) >= 0.0;
  }
}

=== FILE: orders.dfy ===
/**
 The order manager (`src/order_manager.py`): per token, the bot's own
 orders on each side, re-quoted against a fresh quote set, cancelled when
 stale, and reconciled with the exchange.

 The exchange is an oracle: `cancelOk(id)` is whether a cancel request is
 accepted (a refusal and an exception behave alike), and `place(side, q)`
 is the order the exchange returns for a placement, or None when it
 returns nothing. Clock readings are parameters in seconds.
 */
module Orders {
  import opened Common
  import opened Dicts
  import opened Quotes

  const LiveStatus := "LIVE"
  const CancelledStatus := "CANCELLED"
  const UnknownStatus := "UNKNOWN"
  /** `order_timeout_seconds` default. */
  const DefaultOrderTimeout: real := 300.0

  datatype Managed = Managed(order: Order, quote: Quote, placedAt: real, tokenId: string)

  /** The `{"BUY": [...], "SELL": [...]}` entry kept per token. */
  datatype SideOrders = SideOrders(buy: seq<Managed>, sell: seq<Managed>)

  const NoOrders := SideOrders([], [])

  function OnSide(o: SideOrders, side: Side): seq<Managed>
  {
    if side == Buy then o.buy else o.sell
  }

  /** The manager's state. The pending-cancel set is non-empty only while
      a cancel request is in flight. */
  datatype Manager = Manager(orders: Dict<SideOrders>, pending: set<string>)

  predicate IsLive(m: Managed)
  {
    m.order.status == LiveStatus
  }

  /** The live orders of `l`, in order. */
  function LiveOnly(l: seq<Managed>): (r: seq<Managed>)
    ensures |r| <= |l|
    ensures forall x :: x in r <==> x in l && IsLive(x)
  {
    if |l| == 0 then []
    else if IsLive(l[0]) then [l[0]] + LiveOnly(l[1..])
    else LiveOnly(l[1..])
  }

  /** `_get_orders_for_token`: the token's entry, created empty when it is
      missing. */
  function OrdersFor(m: Manager, token: string): (r: (Manager, SideOrders))
    ensures Get(r.0.orders, token) == Some(r.1)
    ensures Has(m.orders, token) ==> r.0 == m && Get(m.orders, token) == Some(r.1)
    ensures !Has(m.orders, token) ==> r.1 == NoOrders && r.0 == m.(orders := m.orders + [(token, NoOrders)])
    ensures forall k :: k != token ==> Get(r.0.orders, k) == Get(m.orders, k)
  {
    match Get(m.orders, token)
    case Some(o) => (m, o)
    case None =>
      GetPut(m.orders, token, NoOrders, token);
      forall k | k != token
        ensures Get(m.orders + [(token, NoOrders)], k) == Get(m.orders, k)
      {
        GetPut(m.orders, token, NoOrders, k);
      }
      (m.(orders := m.orders + [(token, NoOrders)]), NoOrders)
  }

  // ---------------------------------------------------------------------
  // Cancelling one order
  // ---------------------------------------------------------------------

  /** `_cancel_order`: skipped when a cancel for the same id is already in
      flight; otherwise the order becomes CANCELLED exactly when the
      exchange accepts. The pending set is restored afterwards, so it is
      not part of the result. */
  function CancelOrder(pending: set<string>, m: Managed, cancelOk: string -> bool): (r: Managed)
    ensures r.order.status ==
      (if m.order.orderId !in pending && cancelOk(m.order.orderId) then CancelledStatus else m.order.status)
    ensures r.(order := r.order.(status := m.order.status)) == m
  {
    if m.order.orderId in pending then m
    else if cancelOk(m.order.orderId) then m.(order := m.order.(status := CancelledStatus))
    else m
  }

  /** Asking twice is the same as asking once. */
  lemma CancelIdempotent(pending: set<string>, m: Managed, cancelOk: string -> bool)
    ensures CancelOrder(pending, CancelOrder(pending, m, cancelOk), cancelOk) == CancelOrder(pending, m, cancelOk)
  {
  }

  /** Cancel every order of `l`. */
  function CancelEach(pending: set<string>, l: seq<Managed>, cancelOk: string -> bool): (r: seq<Managed>)
    ensures |r| == |l|
    ensures forall i :: 0 <= i < |l| ==> r[i] == CancelOrder(pending, l[i], cancelOk)
  {
    if |l| == 0 then [] else [CancelOrder(pending, l[0], cancelOk)] + CancelEach(pending, l[1..], cancelOk)
  }

  // ---------------------------------------------------------------------
  // Re-quoting one side
  // ---------------------------------------------------------------------

  /** An order or quote is matched by its (price, size) pair. */
  datatype Key = Key(price: real, size: real)

  function QuoteKey(q: Quote): Key
  {
    Key(q.price, q.size)
  }

  function OrderKey(m: Managed): Key
  {
    Key(m.order.price, m.order.size)
  }

  function DesiredKeys(qs: seq<Quote>): (r: set<Key>)
    ensures forall k :: k in r <==> exists q :: q in qs && QuoteKey(q) == k
  {
    set q | q in qs :: QuoteKey(q)
  }

  function KeysOf(l: seq<Managed>): (r: set<Key>)
    ensures forall k :: k in r <==> exists x :: x in l && OrderKey(x) == k
  {
    set x | x in l :: OrderKey(x)
  }

  predicate DistinctOrderKeys(l: seq<Managed>)
  {
    forall i, j :: 0 <= i < j < |l| ==> OrderKey(l[i]) != OrderKey(l[j])
  }

  /** The first loop of `_update_side`: non-live orders are dropped, a
      live order whose key is still wanted is kept and uses that key up,
      any other live order is to be cancelled. */
  datatype Split = Split(keep: seq<Managed>, cancel: seq<Managed>, remaining: set<Key>)

  function Partition(cur: seq<Managed>, desired: set<Key>): (r: Split)
    ensures forall x :: x in r.keep ==> x in cur && IsLive(x) && OrderKey(x) in desired
    ensures r.remaining == desired - KeysOf(r.keep)
  {
    if |cur| == 0 then Split([], [], desired)
    else
      var x := cur[0];
      if !IsLive(x) then Partition(cur[1..], desired)
      else if OrderKey(x) in desired then
        var rest := Partition(cur[1..], desired - {OrderKey(x)});
        Split([x] + rest.keep, rest.cancel, rest.remaining)
      else
        var rest := Partition(cur[1..], desired);
        Split(rest.keep, [x] + rest.cancel, rest.remaining)
  }

  /** Every live order is either kept or cancelled, and nothing else is. */
  lemma {:induction false} PartitionSplitsLive(cur: seq<Managed>, desired: set<Key>)
    ensures multiset(Partition(cur, desired).keep) + multiset(Partition(cur, desired).cancel)
      == multiset(LiveOnly(cur))
  {
    if |cur| > 0 {
      var x := cur[0];
      if !IsLive(x) {
        PartitionSplitsLive(cur[1..], desired);
      } else if OrderKey(x) in desired {
        PartitionSplitsLive(cur[1..], desired - {OrderKey(x)});
      } else {
        PartitionSplitsLive(cur[1..], desired);
      }
    }
  }

  /** A key is kept at most once. */
  lemma {:induction false} PartitionKeepsDistinct(cur: seq<Managed>, desired: set<Key>)
    ensures DistinctOrderKeys(Partition(cur, desired).keep)
  {
    if |cur| > 0 {
      var x := cur[0];
      if !IsLive(x) {
        PartitionKeepsDistinct(cur[1..], desired);
      } else if OrderKey(x) in desired {
        var k := OrderKey(x);
        PartitionKeepsDistinct(cur[1..], desired - {k});
        var rest := Partition(cur[1..], desired - {k});
        ConsDistinct(x, rest.keep, desired - {k});
      } else {
        PartitionKeepsDistinct(cur[1..], desired);
      }
    }
  }

  lemma ConsDistinct(x: Managed, l: seq<Managed>, ks: set<Key>)
    requires DistinctOrderKeys(l) && OrderKey(x) !in ks
    requires forall y :: y in l ==> OrderKey(y) in ks
    ensures DistinctOrderKeys([x] + l)
  {
    var keep := [x] + l;
    forall i, j | 0 <= i < j < |keep| ensures OrderKey(keep[i]) != OrderKey(keep[j]) {
      if i == 0 {
        assert keep[j] in l;
      } else {
        assert keep[i] == l[i - 1] && keep[j] == l[j - 1];
      }
    }
  }

  /** A cancelled order's key is not waiting for a placement. */
  lemma {:induction false} PartitionCancelsUnwanted(cur: seq<Managed>, desired: set<Key>)
    ensures forall x :: x in Partition(cur, desired).cancel ==>
      OrderKey(x) !in Partition(cur, desired).remaining
  {
    if |cur| > 0 {
      var x := cur[0];
      if !IsLive(x) {
        PartitionCancelsUnwanted(cur[1..], desired);
      } else if OrderKey(x) in desired {
        PartitionCancelsUnwanted(cur[1..], desired - {OrderKey(x)});
      } else {
        PartitionCancelsUnwanted(cur[1..], desired);
      }
    }
  }

  /** The second loop of `_update_side`: every quote whose key was not
      matched by a kept order is placed, and only the placements the
      exchange answered are tracked. */
  function PlaceNew(token: string, side: Side, qs: seq<Quote>, remaining: set<Key>,
                    place: (Side, Quote) -> Option<Order>, now: real): (r: seq<Managed>)
    ensures |r| <= |qs|
    ensures forall x :: x in r ==>
      x.quote in qs && QuoteKey(x.quote) in remaining && place(side, x.quote) == Some(x.order)
      && x.placedAt == now && x.tokenId == token
    ensures forall q :: q in qs && QuoteKey(q) in remaining && place(side, q).Some? ==>
      Managed(place(side, q).value, q, now, token) in r
  {
    if |qs| == 0 then []
    else
      var q := qs[0];
      var rest := PlaceNew(token, side, qs[1..], remaining, place, now);
      if QuoteKey(q) in remaining && place(side, q).Some? then
        [Managed(place(side, q).value, q, now, token)] + rest
      else rest
  }

  lemma {:induction false} NothingToPlace(token: string, side: Side, qs: seq<Quote>,
                                         place: (Side, Quote) -> Option<Order>, now: real)
    ensures PlaceNew(token, side, qs, {}, place, now) == []
  {
    if |qs| > 0 {
      NothingToPlace(token, side, qs[1..], place, now);
    }
  }

  datatype SideUpdate = SideUpdate(tracked: seq<Managed>, placed: nat, cancelled: seq<Managed>)

  /** `_update_side`: the tracked list becomes the kept orders followed by
      the new placements; cancelled orders leave the list whatever the
      exchange answered. `cancelled` holds the cancel outcomes. */
  function UpdateSide(pending: set<string>, token: string, side: Side, qs: seq<Quote>,
                      cur: seq<Managed>, cancelOk: string -> bool,
                      place: (Side, Quote) -> Option<Order>, now: real): (r: SideUpdate)
    ensures r.placed <= |qs| && r.placed <= |r.tracked|
    ensures forall x :: x in r.tracked ==>
      (x in cur && IsLive(x) && OrderKey(x) in DesiredKeys(qs)) ||
      (x.quote in qs && place(side, x.quote) == Some(x.order) && x.placedAt == now)
  {
    var split := Partition(cur, DesiredKeys(qs));
    var added := PlaceNew(token, side, qs, split.remaining, place, now);
    SideUpdate(split.keep + added, |added|, CancelEach(pending, split.cancel, cancelOk))
  }

  /** Every live order is accounted for: it is kept or it is sent a
      cancel request. */
  lemma UpdateSideAccounts(pending: set<string>, token: string, side: Side, qs: seq<Quote>,
                           cur: seq<Managed>, cancelOk: string -> bool,
                           place: (Side, Quote) -> Option<Order>, now: real)
    ensures var r := UpdateSide(pending, token, side, qs, cur, cancelOk, place, now);
      (|r.tracked| - r.placed) + |r.cancelled| == |LiveOnly(cur)|
  {
    var split := Partition(cur, DesiredKeys(qs));
    PartitionSplitsLive(cur, DesiredKeys(qs));
    assert |multiset(split.keep) + multiset(split.cancel)| == |multiset(LiveOnly(cur))|;
  }

  /** Re-quoting a side whose live orders already match the quotes one for
      one changes nothing: no order is cancelled and none is placed. */
  lemma UpdateSideStable(pending: set<string>, token: string, side: Side, qs: seq<Quote>,
                         cur: seq<Managed>, cancelOk: string -> bool,
                         place: (Side, Quote) -> Option<Order>, now: real)
    requires forall x :: x in cur ==> IsLive(x)
    requires DistinctOrderKeys(cur)
    requires KeysOf(cur) == DesiredKeys(qs)
    ensures UpdateSide(pending, token, side, qs, cur, cancelOk, place, now) == SideUpdate(cur, 0, [])
  {
    KeepAll(cur, DesiredKeys(qs));
    var split := Partition(cur, DesiredKeys(qs));
    assert split.remaining == {};
    NothingToPlace(token, side, qs, place, now);
  }

  /** Live orders with distinct wanted keys are all kept. */
  lemma {:induction false} KeepAll(cur: seq<Managed>, desired: set<Key>)
    requires forall x :: x in cur ==> IsLive(x) && OrderKey(x) in desired
    requires DistinctOrderKeys(cur)
    ensures Partition(cur, desired).keep == cur
    ensures Partition(cur, desired).cancel == []
  {
    if |cur| > 0 {
      var k := OrderKey(cur[0]);
      forall x | x in cur[1..]
        ensures OrderKey(x) in desired - {k}
      {
        var i :| 1 <= i < |cur| && cur[i] == x;
        assert OrderKey(cur[0]) != OrderKey(cur[i]);
      }
      KeepAll(cur[1..], desired - {k});
      assert [cur[0]] + cur[1..] == cur;
    }
  }

  /** Every live order whose key is no longer quoted leaves the tracked
      list, and the quotes that need an order are exactly the ones no kept
      order covers. */
  lemma UnwantedOrdersLeave(cur: seq<Managed>, qs: seq<Quote>)
    ensures forall x :: x in cur && IsLive(x) && OrderKey(x) !in DesiredKeys(qs) ==>
      x in Partition(cur, DesiredKeys(qs)).cancel
    ensures forall q :: q in qs ==>
      (QuoteKey(q) in Partition(cur, DesiredKeys(qs)).remaining <==>
       QuoteKey(q) !in KeysOf(Partition(cur, DesiredKeys(qs)).keep))
  {
    var split := Partition(cur, DesiredKeys(qs));
    PartitionSplitsLive(cur, DesiredKeys(qs));
    forall x | x in cur && IsLive(x) && OrderKey(x) !in DesiredKeys(qs)
      ensures x in split.cancel
    {
      assert x in LiveOnly(cur);
      assert x in multiset(split.keep) + multiset(split.cancel);
    }
  }

  /** `update_quotes`: both sides of the token are re-quoted; the result
      is the number of orders placed. Other tokens are untouched. */
  function UpdateQuotes(m: Manager, token: string, qs: QuoteSet, cancelOk: string -> bool,
                        place: (Side, Quote) -> Option<Order>, now: real): (r: (Manager, nat))
    ensures r.1 <= |qs.bids| + |qs.asks|
    ensures Get(r.0.orders, token) == Some(SideOrders(
      UpdateSide(m.pending, token, Buy, qs.bids, OrdersFor(m, token).1.buy, cancelOk, place, now).tracked,
      UpdateSide(m.pending, token, Sell, qs.asks, OrdersFor(m, token).1.sell, cancelOk, place, now).tracked))
    ensures forall k :: k != token ==> Get(r.0.orders, k) == Get(m.orders, k)
    ensures r.0.pending == m.pending
  {
    var (m1, cur) := OrdersFor(m, token);
    var b := UpdateSide(m.pending, token, Buy, qs.bids, cur.buy, cancelOk, place, now);
    var s := UpdateSide(m.pending, token, Sell, qs.asks, cur.sell, cancelOk, place, now);
    var o := Put(m1.orders, token, SideOrders(b.tracked, s.tracked));
    GetPut(m1.orders, token, SideOrders(b.tracked, s.tracked), token);
    forall k | k != token
      ensures Get(o, k) == Get(m.orders, k)
    {
      GetPut(m1.orders, token, SideOrders(b.tracked, s.tracked), k);
    }
    (m1.(orders := o), b.placed + s.placed)
  }

  // ---------------------------------------------------------------------
  // Cancel all, cancel stale
  // ---------------------------------------------------------------------

  /** `if token_id:` — None and the empty string both select every token. */
  function SelectedTokens(m: Manager, token: Option<string>): (r: seq<string>)
    ensures token.Some? && token.value != "" ==> r == [token.value]
    ensures (token.None? || token.value == "") ==> r == Keys(m.orders)
  {
    if token.Some? && token.value != "" then [token.value] else Keys(m.orders)
  }

  function ClearTokens(d: Dict<SideOrders>, ts: seq<string>): (r: Dict<SideOrders>)
    ensures forall k :: k in ts ==> Get(r, k) == Some(NoOrders)
    ensures forall k :: k !in ts ==> Get(r, k) == Get(d, k)
    decreases |ts|
  {
    if |ts| == 0 then d
    else
      var d1 := Put(d, ts[0], NoOrders);
      forall k ensures Get(d1, k) == if k == ts[0] then Some(NoOrders) else Get(d, k) {
        GetPut(d, ts[0], NoOrders, k);
      }
      ClearTokens(d1, ts[1..])
  }

  /** The ids of the orders of `l` whose cancel is not already in flight,
      in order: the requests `_cancel_order` actually sends for them. */
  function RequestIds(l: seq<Managed>, pending: set<string>): (r: seq<string>)
    ensures forall x :: x in l && x.order.orderId !in pending ==> x.order.orderId in r
    ensures forall i :: 0 <= i < |r| ==> r[i] !in pending && exists x :: x in l && x.order.orderId == r[i]
  {
    if |l| == 0 then []
    else
      var rest := RequestIds(l[1..], pending);
      assert forall x :: x in l ==> x == l[0] || x in l[1..];
      (if l[0].order.orderId in pending then [] else [l[0].order.orderId]) + rest
  }

  /** `x` sits in a BUY or SELL list that `cancel_all_orders` walks for
      `token`: the named token's lists, or every token's when `token` is
      None or empty. */
  ghost predicate InSelectedLists(m: Manager, token: Option<string>, x: Managed)
  {
    if token.Some? && token.value != "" then
      Has(m.orders, token.value) && (x in Get(m.orders, token.value).value.buy || x in Get(m.orders, token.value).value.sell)
    else
      exists i :: 0 <= i < |m.orders| && (x in m.orders[i].1.buy || x in m.orders[i].1.sell)
  }

  /** `cancel_all_orders`: every LIVE order in the selected tokens' lists,
      BUY before SELL, is sent a cancel request unless one is already in
      flight for it; no other order is. Then every selected token's lists
      are emptied (the token is created when unknown), so the outcomes of
      the requests are no longer tracked. The trailing exchange-wide
      `cancel_all_orders` call is I/O and is not modelled. */
  function CancelAll(m: Manager, token: Option<string>): (r: (Manager, seq<string>))
    ensures forall k :: k in SelectedTokens(m, token) ==> Get(r.0.orders, k) == Some(NoOrders)
    ensures forall k :: k !in SelectedTokens(m, token) ==> Get(r.0.orders, k) == Get(m.orders, k)
    ensures r.0.pending == m.pending
    ensures forall x :: InSelectedLists(m, token, x) && IsLive(x) && x.order.orderId !in m.pending ==>
      x.order.orderId in r.1
    ensures forall i :: 0 <= i < |r.1| ==>
      r.1[i] !in m.pending && exists x :: InSelectedLists(m, token, x) && IsLive(x) && x.order.orderId == r.1[i]
  {
    var live := GetLiveOrders(m, token, None);
    assert forall x :: x in live <==> InSelectedLists(m, token, x) && IsLive(x);
    (m.(orders := ClearTokens(m.orders, SelectedTokens(m, token))), RequestIds(live, m.pending))
  }

  /** Clearing listed tokens keeps every entry's key where it was. */
  lemma {:induction false} ClearTokensKeepsKeys(d: Dict<SideOrders>, ts: seq<string>)
    requires forall k :: k in ts ==> Has(d, k)
    ensures |ClearTokens(d, ts)| == |d|
    ensures forall i :: 0 <= i < |d| ==> ClearTokens(d, ts)[i].0 == d[i].0
    decreases |ts|
  {
    if |ts| > 0 {
      var d1 := Put(d, ts[0], NoOrders);
      forall k | k in ts[1..] ensures Has(d1, k) {
        GetPut(d, ts[0], NoOrders, k);
      }
      ClearTokensKeepsKeys(d1, ts[1..]);
    }
  }

  /** In a dict without repeated keys each entry is the one its key finds. */
  lemma FindDistinct(d: Dict<SideOrders>, i: nat)
    requires DistinctKeys(d) && i < |d|
    ensures Find(d, d[i].0) == Some(i)
  {
    FindAt(d, d[i].0, i);
  }

  /** Clearing every key of a dict without repeated keys empties every
      entry. */
  lemma ClearEveryKey(d: Dict<SideOrders>)
    requires DistinctKeys(d)
    ensures |ClearTokens(d, Keys(d))| == |d|
    ensures forall i :: 0 <= i < |d| ==> ClearTokens(d, Keys(d))[i].1 == NoOrders
  {
    var ks := Keys(d);
    forall k | k in ks ensures Has(d, k) {
      var i :| 0 <= i < |ks| && ks[i] == k;
      FindDistinct(d, i);
    }
    ClearTokensKeepsKeys(d, ks);
    var r := ClearTokens(d, ks);
    assert DistinctKeys(r);
    forall i | 0 <= i < |d| ensures r[i].1 == NoOrders {
      FindDistinct(r, i);
      assert r[i].0 in ks;
    }
  }

  lemma {:induction false} NoLiveInEmptyEntries(d: Dict<SideOrders>)
    requires forall i :: 0 <= i < |d| ==> d[i].1 == NoOrders
    ensures LiveOfEntries(d, None) == []
  {
    if |d| > 0 {
      NoLiveInEmptyEntries(d[1..]);
    }
  }

  /** After a cancel-all nothing of the selected tokens is live any more,
      so a second cancel-all sends no request. Without a token this needs
      the dict's keys to be distinct, as every Python dict's are. */
  lemma CancelAllQuiets(m: Manager, token: Option<string>)
    requires (token.Some? && token.value != "") || DistinctKeys(m.orders)
    ensures GetLiveOrders(CancelAll(m, token).0, token, None) == []
    ensures CancelAll(CancelAll(m, token).0, token).1 == []
  {
    var r := CancelAll(m, token).0;
    if !(token.Some? && token.value != "") {
      assert r.orders == ClearTokens(m.orders, Keys(m.orders));
      ClearEveryKey(m.orders);
      NoLiveInEmptyEntries(r.orders);
    }
  }

  /** The order is live and older than the timeout. */
  predicate Stale(x: Managed, now: real, timeout: real)
  {
    IsLive(x) && now - x.placedAt > timeout
  }

  function StaleCount(l: seq<Managed>, now: real, timeout: real): (n: nat)
    ensures n <= |l|
  {
    if |l| == 0 then 0
    else (if Stale(l[0], now, timeout) then 1 else 0) + StaleCount(l[1..], now, timeout)
  }

  /** One list of `cancel_stale_orders`: stale orders get a cancel request,
      everything stays in the list, and every request counts whether or
      not the exchange accepted it. */
  function CancelStaleList(pending: set<string>, l: seq<Managed>, now: real, timeout: real,
                           cancelOk: string -> bool): (r: (seq<Managed>, nat))
    ensures |r.0| == |l|
    ensures forall i :: 0 <= i < |l| ==>
      r.0[i] == if Stale(l[i], now, timeout) then CancelOrder(pending, l[i], cancelOk) else l[i]
    ensures r.1 == StaleCount(l, now, timeout)
  {
    if |l| == 0 then ([], 0)
    else
      var rest := CancelStaleList(pending, l[1..], now, timeout, cancelOk);
      var x := if Stale(l[0], now, timeout) then CancelOrder(pending, l[0], cancelOk) else l[0];
      ([x] + rest.0, (if Stale(l[0], now, timeout) then 1 else 0) + rest.1)
  }

  function StaleInEntries(d: Dict<SideOrders>, now: real, timeout: real): nat
  {
    if |d| == 0 then 0
    else
      StaleCount(d[0].1.buy, now, timeout) + StaleCount(d[0].1.sell, now, timeout)
      + StaleInEntries(d[1..], now, timeout)
  }

  /** `cancel_stale_orders` over every token entry. */
  function CancelStaleEntries(pending: set<string>, d: Dict<SideOrders>, now: real, timeout: real,
                              cancelOk: string -> bool): (r: (Dict<SideOrders>, nat))
    ensures Keys(r.0) == Keys(d)
    ensures r.1 == StaleInEntries(d, now, timeout)
    ensures forall i :: 0 <= i < |d| ==>
      r.0[i].1 == SideOrders(CancelStaleList(pending, d[i].1.buy, now, timeout, cancelOk).0,
                             CancelStaleList(pending, d[i].1.sell, now, timeout, cancelOk).0)
  {
    if |d| == 0 then ([], 0)
    else
      var b := CancelStaleList(pending, d[0].1.buy, now, timeout, cancelOk);
      var s := CancelStaleList(pending, d[0].1.sell, now, timeout, cancelOk);
      var rest := CancelStaleEntries(pending, d[1..], now, timeout, cancelOk);
      ([(d[0].0, SideOrders(b.0, s.0))] + rest.0, b.1 + s.1 + rest.1)
  }

  function CancelStale(m: Manager, now: real, timeout: real, cancelOk: string -> bool): (r: (Manager, nat))
    ensures Keys(r.0.orders) == Keys(m.orders)
    ensures r.1 == StaleInEntries(m.orders, now, timeout)
    ensures r.0.pending == m.pending
  {
    var e := CancelStaleEntries(m.pending, m.orders, now, timeout, cancelOk);
    (m.(orders := e.0), e.1)
  }

  /** When the exchange accepts every cancel and nothing is in flight, a
      second sweep at the same instant finds nothing stale. */
  lemma {:induction false} CancelStaleClears(m: Manager, now: real, timeout: real, cancelOk: string -> bool)
    requires m.pending == {}
    requires forall id :: cancelOk(id)
    ensures StaleInEntries(CancelStale(m, now, timeout, cancelOk).0.orders, now, timeout) == 0
  {
    EntriesCleared(m.orders, now, timeout, cancelOk);
  }

  lemma {:induction false} EntriesCleared(d: Dict<SideOrders>, now: real, timeout: real, cancelOk: string -> bool)
    requires forall id :: cancelOk(id)
    ensures StaleInEntries(CancelStaleEntries({}, d, now, timeout, cancelOk).0, now, timeout) == 0
  {
    if |d| > 0 {
      ListCleared(d[0].1.buy, now, timeout, cancelOk);
      ListCleared(d[0].1.sell, now, timeout, cancelOk);
      EntriesCleared(d[1..], now, timeout, cancelOk);
      var r := CancelStaleEntries({}, d, now, timeout, cancelOk).0;
      assert r[1..] == CancelStaleEntries({}, d[1..], now, timeout, cancelOk).0;
    }
  }

  lemma {:induction false} ListCleared(l: seq<Managed>, now: real, timeout: real, cancelOk: string -> bool)
    requires forall id :: cancelOk(id)
    ensures StaleCount(CancelStaleList({}, l, now, timeout, cancelOk).0, now, timeout) == 0
  {
    if |l| > 0 {
      ListCleared(l[1..], now, timeout, cancelOk);
      var r := CancelStaleList({}, l, now, timeout, cancelOk).0;
      assert r[1..] == CancelStaleList({}, l[1..], now, timeout, cancelOk).0;
    }
  }

  // ---------------------------------------------------------------------
  // Queries
  // ---------------------------------------------------------------------

  /** `sides = [side] if side else ["BUY", "SELL"]`, read through
      `orders.get(s, [])`: a side string other than BUY or SELL selects
      nothing. */
  predicate SideSelected(side: Option<string>, s: Side)
  {
    side.None? || side.value == "" ||
    (side.value == "BUY" && s == Buy) || (side.value == "SELL" && s == Sell)
  }

  function LiveOfEntry(o: SideOrders, side: Option<string>): (r: seq<Managed>)
    ensures forall x :: x in r <==>
      IsLive(x) && ((SideSelected(side, Buy) && x in o.buy) || (SideSelected(side, Sell) && x in o.sell))
  {
    (if SideSelected(side, Buy) then LiveOnly(o.buy) else []) +
    (if SideSelected(side, Sell) then LiveOnly(o.sell) else [])
  }

  function LiveOfEntries(d: Dict<SideOrders>, side: Option<string>): (r: seq<Managed>)
    ensures forall x :: x in r <==> exists i :: 0 <= i < |d| && x in LiveOfEntry(d[i].1, side)
  {
    if |d| == 0 then []
    else
      var rest := LiveOfEntries(d[1..], side);
      assert forall i :: 1 <= i < |d| ==> d[i] == d[1..][i - 1];
      LiveOfEntry(d[0].1, side) + rest
  }

  /** `get_live_orders`: with a token, the live orders of that token's
      selected sides (none when the token is unknown); without one, those
      of every token in insertion order. */
  function GetLiveOrders(m: Manager, token: Option<string>, side: Option<string>): (r: seq<Managed>)
    ensures forall x :: x in r ==> IsLive(x)
    ensures token.Some? && token.value != "" ==>
      (forall x :: x in r <==>
        Has(m.orders, token.value) && x in LiveOfEntry(Get(m.orders, token.value).value, side))
    ensures (token.None? || token.value == "") ==>
      (forall x :: x in r <==> exists i :: 0 <= i < |m.orders| && x in LiveOfEntry(m.orders[i].1, side))
  {
    if token.Some? && token.value != "" then
      match Get(m.orders, token.value)
      case None => []
      case Some(o) => LiveOfEntry(o, side)
    else LiveOfEntries(m.orders, side)
  }

  /** `get_order_count`: live orders per side; creates the token's entry
      when it is missing. */
  function GetOrderCount(m: Manager, token: string): (r: (Manager, nat, nat))
    ensures Has(r.0.orders, token)
    ensures r.1 == |LiveOnly(OnSide(Get(r.0.orders, token).value, Buy))|
    ensures r.2 == |LiveOnly(OnSide(Get(r.0.orders, token).value, Sell))|
  {
    var (m1, o) := OrdersFor(m, token);
    (m1, |LiveOnly(o.buy)|, |LiveOnly(o.sell)|)
  }

  /** The two counts add up to the number of live orders the query
      reports for the token. */
  lemma CountMatchesLiveOrders(m: Manager, token: string)
    requires token != ""
    ensures GetOrderCount(m, token).1 + GetOrderCount(m, token).2 ==
      |GetLiveOrders(GetOrderCount(m, token).0, Some(token), None)|
  {
  }

  // ---------------------------------------------------------------------
  // Reconciliation
  // ---------------------------------------------------------------------

  function KeepIds(l: seq<Managed>, ids: set<string>): (r: seq<Managed>)
    ensures |r| <= |l|
    ensures forall x :: x in r <==> x in l && x.order.orderId in ids
  {
    if |l| == 0 then []
    else if l[0].order.orderId in ids then [l[0]] + KeepIds(l[1..], ids)
    else KeepIds(l[1..], ids)
  }

  /** The dropped live orders, marked UNKNOWN. */
  function Orphans(l: seq<Managed>, ids: set<string>): (r: seq<Managed>)
    ensures forall x :: x in r ==> x.order.status == UnknownStatus
    ensures forall x :: x in l && IsLive(x) && x.order.orderId !in ids ==>
      x.(order := x.order.(status := UnknownStatus)) in r
  {
    if |l| == 0 then []
    else
      var rest := Orphans(l[1..], ids);
      if l[0].order.orderId !in ids && IsLive(l[0]) then
        [l[0].(order := l[0].order.(status := UnknownStatus))] + rest
      else rest
  }

  function IdsOf(os: seq<Order>): (r: set<string>)
    ensures forall id :: id in r <==> exists o :: o in os && o.orderId == id
  {
    set o | o in os :: o.orderId
  }

  /** One token's entry after reconciliation: each side keeps exactly the
      orders the exchange still reports, in their order. */
  function SyncEntry(o: SideOrders, ids: set<string>): (r: SideOrders)
    ensures forall s: Side, x :: x in OnSide(r, s) <==> x in OnSide(o, s) && x.order.orderId in ids
  {
    SideOrders(KeepIds(o.buy, ids), KeepIds(o.sell, ids))
  }

  /** `sync_with_exchange`: `live` is the exchange's answer to the query
      for the token's live orders, None when the query raised (then
      nothing changes, not even the token's entry). Otherwise the token's
      entry is reconciled and the live orders the exchange no longer
      reports are returned marked UNKNOWN. */
  function Sync(m: Manager, token: string, live: Option<seq<Order>>): (r: (Manager, seq<Managed>))
    ensures live.None? ==> r == (m, [])
    ensures live.Some? ==> Get(r.0.orders, token) == Some(SyncEntry(OrdersFor(m, token).1, IdsOf(live.value)))
    ensures forall k :: k != token ==> Get(r.0.orders, k) == Get(m.orders, k)
    ensures r.0.pending == m.pending
  {
    match live
    case None => (m, [])
    case Some(os) =>
      var ids := IdsOf(os);
      var (m1, o) := OrdersFor(m, token);
      var o2 := SyncEntry(o, ids);
      var d := Put(m1.orders, token, o2);
      GetPut(m1.orders, token, o2, token);
      forall k | k != token ensures Get(d, k) == Get(m.orders, k) {
        GetPut(m1.orders, token, o2, k);
      }
      (m1.(orders := d), Orphans(o.buy, ids) + Orphans(o.sell, ids))
  }

  /** Reconciling twice against the same answer changes nothing more and
      orphans nothing the second time. */
  lemma SyncIdempotent(m: Manager, token: string, live: Option<seq<Order>>)
    ensures Sync(Sync(m, token, live).0, token, live).0 == Sync(m, token, live).0
    ensures Sync(Sync(m, token, live).0, token, live).1 == []
  {
    if live.Some? {
      var ids := IdsOf(live.value);
      var o := OrdersFor(m, token).1;
      var o1 := SyncEntry(o, ids);
      var m1 := Sync(m, token, live).0;
      assert Get(m1.orders, token) == Some(o1);
      assert OrdersFor(m1, token) == (m1, o1);
      KeepIdsIdempotent(o.buy, ids);
      KeepIdsIdempotent(o.sell, ids);
      assert SyncEntry(o1, ids) == o1;
      PutSame(m1.orders, token, o1);
      OrphansOfKept(o1.buy, ids);
      OrphansOfKept(o1.sell, ids);
    }
  }

  lemma {:induction false} KeepIdsIdempotent(l: seq<Managed>, ids: set<string>)
    ensures KeepIds(KeepIds(l, ids), ids) == KeepIds(l, ids)
  {
    if |l| > 0 {
      KeepIdsIdempotent(l[1..], ids);
      if l[0].order.orderId in ids {
        assert ([l[0]] + KeepIds(l[1..], ids))[1..] == KeepIds(l[1..], ids);
      }
    }
  }

  lemma {:induction false} OrphansOfKept(l: seq<Managed>, ids: set<string>)
    requires forall x :: x in l ==> x.order.orderId in ids
    ensures Orphans(l, ids) == []
  {
    if |l| > 0 {
      assert l[0] in l;
      OrphansOfKept(l[1..], ids);
    }
  }
}

=== FILE: paper_client.dfy ===
/**
 The simple paper ledger of the exchange client: the cached order books
 kept up to date from the push channel, the paper orders, trades,
 positions and balance, and the deterministic crossing test used when a
 paper order is placed. Positions count whole shares (`int(size)`), the
 balance moves by the full notional, and no fees are charged.
 */
module PaperClient {
  import opened Common
  import opened Dicts
  import opened Book

  const LiveStatus: string := "LIVE"
  const MatchedStatus: string := "MATCHED"
  const CancelledStatus: string := "CANCELLED"
  const CancellationEvent: string := "CANCELLATION"

  /** `_paper_orders` (insertion ordered), `_paper_trades`,
      `_paper_positions`, `_paper_balance` and the cached books. */
  datatype Paper = Paper(balance: real, orders: Dict<Order>, trades: seq<Trade>,
                         positions: map<string, int>, books: map<string, OrderBook>)

  function NewPaper(startingBalance: real): Paper
  {
    Paper(startingBalance, [], [], map[], map[])
  }

  /** `positions.get(token, 0)`. */
  function PositionOf(p: Paper, token: string): int
  {
    if token in p.positions then p.positions[token] else 0
  }

  // ---------------------------------------------------------------------
  // Cached books
  // ---------------------------------------------------------------------

  /** `_handle_ws_price_change`: an unknown token is ignored; otherwise the
      level change is applied to the named side of the cached book. */
  function HandlePriceChange(p: Paper, token: string, side: Side, price: real, size: real): (r: Paper)
    ensures token !in p.books ==> r == p
    ensures r.balance == p.balance && r.orders == p.orders && r.trades == p.trades && r.positions == p.positions
    ensures r.books.Keys == p.books.Keys
    ensures forall k :: k in p.books && k != token ==> r.books[k] == p.books[k]
    ensures token in p.books ==> r.books[token].tokenId == p.books[token].tokenId
    ensures token in p.books && side == Buy ==>
      r.books[token].asks == p.books[token].asks &&
      r.books[token].bids == ApplyLevel(Buy, p.books[token].bids, price, size)
    ensures token in p.books && side == Sell ==>
      r.books[token].bids == p.books[token].bids &&
      r.books[token].asks == ApplyLevel(Sell, p.books[token].asks, price, size)
  {
    if token !in p.books then p
    else p.(books := p.books[token := ApplyChange(p.books[token], side, price, size)])
  }

  /** Cached books stay well ordered: bids descending, asks ascending. */
  ghost predicate BooksOrdered(p: Paper)
  {
    forall t :: t in p.books ==> WellOrdered(p.books[t])
  }

  lemma PriceChangeKeepsBooksOrdered(p: Paper, token: string, side: Side, price: real, size: real)
    requires BooksOrdered(p)
    ensures BooksOrdered(HandlePriceChange(p, token, side, price, size))
  {
    if token in p.books {
      ApplyChangeKeepsOrder(p.books[token], side, price, size);
    }
  }

  // ---------------------------------------------------------------------
  // The ledger
  // ---------------------------------------------------------------------

  /** Whole shares a trade adds to its token's position. */
  function SharesOf(t: Trade): int
  {
    if t.side == Buy then Trunc(t.size) else -Trunc(t.size)
  }

  /** Cash a trade takes out of the balance. */
  function CostOf(t: Trade): real
  {
    if t.side == Buy then t.price * t.size else -(t.price * t.size)
  }

  function Spent(ts: seq<Trade>): real
  {
    if |ts| == 0 then 0.0 else Spent(ts[..|ts| - 1]) + CostOf(ts[|ts| - 1])
  }

  function NetShares(ts: seq<Trade>, token: string): int
  {
    if |ts| == 0 then 0
    else NetShares(ts[..|ts| - 1], token) + (if ts[|ts| - 1].tokenId == token then SharesOf(ts[|ts| - 1]) else 0)
  }

  /** The balance is the starting balance less what the recorded trades
      cost, and every position is the net whole shares of its token's
      recorded trades. */
  ghost predicate Ledger(p: Paper, startingBalance: real)
  {
    && p.balance == startingBalance - Spent(p.trades)
    && forall token :: PositionOf(p, token) == NetShares(p.trades, token)
  }

  lemma NewPaperLedger(startingBalance: real)
    ensures Ledger(NewPaper(startingBalance), startingBalance)
  {
  }

  /** Records a fill: appends the trade, moves the token's position by
      `int(size)` in the trade's direction and the balance by the
      notional. */
  function Record(p: Paper, t: Trade): (r: Paper)
    ensures r.trades == p.trades + [t]
    ensures r.balance == p.balance - CostOf(t)
    ensures PositionOf(r, t.tokenId) == PositionOf(p, t.tokenId) + SharesOf(t)
    ensures forall k :: k != t.tokenId ==> PositionOf(r, k) == PositionOf(p, k)
    ensures r.orders == p.orders && r.books == p.books
  {
    var pos := PositionOf(p, t.tokenId) + (if t.side == Buy then Trunc(t.size) else -Trunc(t.size));
    var bal := if t.side == Buy then p.balance - t.price * t.size else p.balance + t.price * t.size;
    p.(trades := p.trades + [t], positions := p.positions[t.tokenId := pos], balance := bal)
  }

  lemma RecordKeepsLedger(p: Paper, startingBalance: real, t: Trade)
    requires Ledger(p, startingBalance)
    ensures Ledger(Record(p, t), startingBalance)
  {
    var r := Record(p, t);
    assert r.trades[..|r.trades| - 1] == p.trades;
  }

  /** `_handle_ws_user_trade`: in paper mode the fill is recorded; the fee
      is taken as zero and the order id is the taker order's. */
  function HandleUserTrade(p: Paper, paperTrading: bool, tradeId: string, token: string, side: string,
                           price: real, size: real, takerOrderId: string): (r: Paper)
    ensures !paperTrading ==> r == p
    ensures r.orders == p.orders && r.books == p.books
    ensures paperTrading ==>
      |r.trades| == |p.trades| + 1 && r.trades[..|p.trades|] == p.trades &&
      var t := r.trades[|p.trades|];
      t.tradeId == tradeId && t.tokenId == token && t.side == SideOf(side) &&
      t.price == price && t.size == size && t.fee == 0.0 && t.orderId == takerOrderId
    ensures paperTrading && SideOf(side) == Buy ==>
      r.balance == p.balance - price * size && PositionOf(r, token) == PositionOf(p, token) + Trunc(size)
    ensures paperTrading && SideOf(side) == Sell ==>
      r.balance == p.balance + price * size && PositionOf(r, token) == PositionOf(p, token) - Trunc(size)
    ensures forall k :: k != token ==> PositionOf(r, k) == PositionOf(p, k)
  {
    if paperTrading then Record(p, Trade(tradeId, token, SideOf(side), price, size, 0.0, takerOrderId)) else p
  }

  lemma UserTradeKeepsLedger(p: Paper, startingBalance: real, paperTrading: bool, tradeId: string, token: string,
                             side: string, price: real, size: real, takerOrderId: string)
    requires Ledger(p, startingBalance)
    ensures Ledger(HandleUserTrade(p, paperTrading, tradeId, token, side, price, size, takerOrderId), startingBalance)
  {
    if paperTrading {
      RecordKeepsLedger(p, startingBalance, Trade(tradeId, token, SideOf(side), price, size, 0.0, takerOrderId));
    }
  }

  /** `_handle_ws_user_order`: only a known paper order changes. Its
      matched size is taken from the update; a cancellation event cancels
      it, otherwise it is MATCHED once the matched size reaches the
      original size, and its status is kept before that. */
  function HandleUserOrder(p: Paper, paperTrading: bool, orderId: string, eventType: string,
                           sizeMatched: real, originalSize: real): (r: Paper)
    ensures !paperTrading || !Has(p.orders, orderId) ==> r == p
    ensures paperTrading && Has(p.orders, orderId) ==>
      var o := Get(p.orders, orderId).value;
      Get(r.orders, orderId) == Some(o.(sizeMatched := sizeMatched,
        status := if eventType == CancellationEvent then CancelledStatus
                  else if sizeMatched >= originalSize then MatchedStatus
                  else o.status))
    ensures forall k :: k != orderId ==> Get(r.orders, k) == Get(p.orders, k)
    ensures r.(orders := p.orders) == p
  {
    if !paperTrading then p
    else
      match Get(p.orders, orderId)
      case None => p
      case Some(o) =>
        var o1 := o.(sizeMatched := sizeMatched);
        var o2 := if eventType == CancellationEvent then o1.(status := CancelledStatus)
                  else if sizeMatched >= originalSize then o1.(status := MatchedStatus)
                  else o1;
        forall k ensures Get(Put(p.orders, orderId, o2), k) == if k == orderId then Some(o2) else Get(p.orders, k) {
          GetPut(p.orders, orderId, o2, k);
        }
        p.(orders := Put(p.orders, orderId, o2))
  }

  // ---------------------------------------------------------------------
  // Placing and filling paper orders
  // ---------------------------------------------------------------------

  /** The deterministic part of `_paper_check_fills`: the price a BUY
      crossing a truthy best ask, or a SELL crossing a truthy best bid,
      fills at. */
  function CrossPrice(o: Order, b: OrderBook): (r: Option<real>)
    ensures r.Some? <==>
      (o.side == Buy && Truthy(BestAsk(b)) && o.price >= BestAsk(b).value) ||
      (o.side != Buy && Truthy(BestBid(b)) && o.price <= BestBid(b).value)
    ensures r.Some? && o.side == Buy ==> r == BestAsk(b)
    ensures r.Some? && o.side != Buy ==> r == BestBid(b)
  {
    if o.side == Buy then
      (if Truthy(BestAsk(b)) && o.price >= BestAsk(b).value then BestAsk(b) else None)
    else
      (if Truthy(BestBid(b)) && o.price <= BestBid(b).value then BestBid(b) else None)
  }

  function Digit(n: nat): char
    requires n < 10
  {
    "0123456789"[n]
  }

  /** Decimal digits of a natural number, as `str(n)` writes them. */
  function NatStr(n: nat): (r: string)
    ensures |r| > 0
    decreases n
  {
    if n < 10 then [Digit(n)] else NatStr(n / 10) + [Digit(n % 10)]
  }

  /** `_paper_check_fills` for the order stored under `o.orderId`. With no
      book nothing happens. A crossing order fills at the touch; an order
      that does not cross fills at its own price when the caller's
      10 per cent draw `lucky` came up. A fill matches the whole remaining
      size, marks the order MATCHED and records a fee-free trade whose id
      is `paper_trade_<number of earlier trades>`. */
  function CheckFills(p: Paper, o: Order, book: Option<OrderBook>, lucky: bool): (r: (Paper, Order))
    ensures book.None? ==> r == (p, o)
    ensures book.Some? && CrossPrice(o, book.value).None? && !lucky ==> r == (p, o)
    ensures book.Some? && (CrossPrice(o, book.value).Some? || lucky) ==>
      && r.1 == o.(sizeMatched := o.size, status := MatchedStatus)
      && r.0.trades == p.trades + [Trade("paper_trade_" + NatStr(|p.trades|), o.tokenId, o.side,
                                         if CrossPrice(o, book.value).Some? then CrossPrice(o, book.value).value else o.price,
                                         o.size - o.sizeMatched, 0.0, o.orderId)]
      && Get(r.0.orders, o.orderId) == Some(r.1)
    ensures forall k :: k != o.orderId ==> Get(r.0.orders, k) == Get(p.orders, k)
  {
    match book
    case None => (p, o)
    case Some(b) =>
      var cross := CrossPrice(o, b);
      if cross.None? && !lucky then (p, o)
      else
        var price := if cross.Some? then cross.value else o.price;
        var t := Trade("paper_trade_" + NatStr(|p.trades|), o.tokenId, o.side, price, o.size - o.sizeMatched, 0.0, o.orderId);
        var o1 := o.(sizeMatched := o.size, status := MatchedStatus);
        var p1 := Record(p, t);
        forall k ensures Get(Put(p1.orders, o.orderId, o1), k) == if k == o.orderId then Some(o1) else Get(p1.orders, k) {
          GetPut(p1.orders, o.orderId, o1, k);
        }
        (p1.(orders := Put(p1.orders, o.orderId, o1)), o1)
  }

  /** `_paper_place_order`: a LIVE order with nothing matched is stored
      under the caller's fresh id, then checked for a fill. */
  function PlaceOrder(p: Paper, orderId: string, token: string, side: Side, price: real, size: real,
                      book: Option<OrderBook>, lucky: bool): (r: (Paper, Order))
    ensures r.1.orderId == orderId && r.1.tokenId == token && r.1.side == side
    ensures r.1.price == price && r.1.size == size
    ensures Get(r.0.orders, orderId) == Some(r.1)
    ensures forall k :: k != orderId ==> Get(r.0.orders, k) == Get(p.orders, k)
    ensures r.1.status == MatchedStatus || r.1.status == LiveStatus
    ensures r.1.status == MatchedStatus <==>
      book.Some? && (lucky || CrossPrice(Order(orderId, token, side, price, size, 0.0, LiveStatus), book.value).Some?)
    ensures r.1.status == MatchedStatus ==> r.1.sizeMatched == size && |r.0.trades| == |p.trades| + 1
    ensures r.1.status == LiveStatus ==> r.1.sizeMatched == 0.0 && r.0.trades == p.trades
  {
    var o := Order(orderId, token, side, price, size, 0.0, LiveStatus);
    forall k ensures Get(Put(p.orders, orderId, o), k) == if k == orderId then Some(o) else Get(p.orders, k) {
      GetPut(p.orders, orderId, o, k);
    }
    var p1 := p.(orders := Put(p.orders, orderId, o));
    CheckFills(p1, o, book, lucky)
  }

  /** The ledger does not look at the orders. */
  lemma LedgerIgnoresOrders(p: Paper, startingBalance: real, orders: Dict<Order>)
    requires Ledger(p, startingBalance)
    ensures Ledger(p.(orders := orders), startingBalance)
  {
    assert forall k :: PositionOf(p.(orders := orders), k) == PositionOf(p, k);
  }

  /** A paper fill keeps the ledger. */
  lemma CheckFillsKeepsLedger(p: Paper, startingBalance: real, o: Order, book: Option<OrderBook>, lucky: bool)
    requires Ledger(p, startingBalance)
    ensures Ledger(CheckFills(p, o, book, lucky).0, startingBalance)
  {
    if book.Some? && (lucky || CrossPrice(o, book.value).Some?) {
      var b := book.value;
      var price := if CrossPrice(o, b).Some? then CrossPrice(o, b).value else o.price;
      var t := Trade("paper_trade_" + NatStr(|p.trades|), o.tokenId, o.side, price, o.size - o.sizeMatched, 0.0, o.orderId);
      RecordKeepsLedger(p, startingBalance, t);
      var r := CheckFills(p, o, book, lucky).0;
      assert r == Record(p, t).(orders := r.orders);
      LedgerIgnoresOrders(Record(p, t), startingBalance, r.orders);
    }
  }

  /** Placing an order keeps the ledger. */
  lemma PlaceKeepsLedger(p: Paper, startingBalance: real, orderId: string, token: string, side: Side,
                         price: real, size: real, book: Option<OrderBook>, lucky: bool)
    requires Ledger(p, startingBalance)
    ensures Ledger(PlaceOrder(p, orderId, token, side, price, size, book, lucky).0, startingBalance)
  {
    var o := Order(orderId, token, side, price, size, 0.0, LiveStatus);
    LedgerIgnoresOrders(p, startingBalance, Put(p.orders, orderId, o));
    CheckFillsKeepsLedger(p.(orders := Put(p.orders, orderId, o)), startingBalance, o, book, lucky);
  }

  // ---------------------------------------------------------------------
  // Cancels and queries
  // ---------------------------------------------------------------------

  /** `_paper_cancel_order`: any known order, whatever its status, becomes
      CANCELLED and the call succeeds; an unknown id fails. */
  function CancelOrder(p: Paper, orderId: string): (r: (Paper, bool))
    ensures r.1 <==> Has(p.orders, orderId)
    ensures !r.1 ==> r.0 == p
    ensures r.1 ==> Get(r.0.orders, orderId) == Some(Get(p.orders, orderId).value.(status := CancelledStatus))
    ensures forall k :: k != orderId ==> Get(r.0.orders, k) == Get(p.orders, k)
    ensures r.0.(orders := p.orders) == p
  {
    match Get(p.orders, orderId)
    case None => (p, false)
    case Some(o) =>
      var o1 := o.(status := CancelledStatus);
      forall k ensures Get(Put(p.orders, orderId, o1), k) == if k == orderId then Some(o1) else Get(p.orders, k) {
        GetPut(p.orders, orderId, o1, k);
      }
      (p.(orders := Put(p.orders, orderId, o1)), true)
  }

  /** Cancelling twice succeeds twice and the second call changes nothing. */
  lemma CancelIdempotent(p: Paper, orderId: string)
    requires Has(p.orders, orderId)
    ensures CancelOrder(CancelOrder(p, orderId).0, orderId).1
    ensures CancelOrder(CancelOrder(p, orderId).0, orderId).0 == CancelOrder(p, orderId).0
  {
    var r := CancelOrder(p, orderId).0;
    var o1 := Get(r.orders, orderId).value;
    assert o1.(status := CancelledStatus) == o1;
    PutSame(r.orders, orderId, o1);
  }

  /** The token filter of the paper queries: only None selects all. */
  predicate TokenMatches(token: Option<string>, o: Order)
  {
    token.None? || o.tokenId == token.value
  }

  /** The orders with exactly this status that the token filter selects,
      in insertion order. */
  function Select(os: seq<Order>, token: Option<string>, status: string): (r: seq<Order>)
    ensures |r| <= |os|
    ensures forall o :: o in r <==> o in os && o.status == status && TokenMatches(token, o)
  {
    if |os| == 0 then []
    else
      var rest := Select(os[1..], token, status);
      assert forall o :: o in os <==> o == os[0] || o in os[1..];
      if os[0].status == status && TokenMatches(token, os[0]) then [os[0]] + rest else rest
  }

  /** `_paper_get_orders`: exact status, and the token when one is given. */
  function GetOrders(p: Paper, token: Option<string>, status: string): (r: seq<Order>)
    ensures forall o :: o in r <==> o in Values(p.orders) && o.status == status && TokenMatches(token, o)
  {
    Select(Values(p.orders), token, status)
  }

  /** An order after a cancel-all: a LIVE order the token selects becomes
      CANCELLED; any other order is left as it is. */
  function CancelIfLive(token: Option<string>, o: Order): (r: Order)
    ensures r.status == LiveStatus ==> !TokenMatches(token, o)
    ensures r == o || r == o.(status := CancelledStatus)
  {
    if o.status == LiveStatus && TokenMatches(token, o) then o.(status := CancelledStatus) else o
  }

  /** The loop of `_paper_cancel_all_orders`, with the number cancelled. */
  function CancelMatching(d: Dict<Order>, token: Option<string>): (r: (Dict<Order>, nat))
    ensures |r.0| == |d|
    ensures forall i :: 0 <= i < |d| ==> r.0[i] == (d[i].0, CancelIfLive(token, d[i].1))
  {
    if |d| == 0 then ([], 0)
    else
      var rest := CancelMatching(d[1..], token);
      var hit := d[0].1.status == LiveStatus && TokenMatches(token, d[0].1);
      ([(d[0].0, CancelIfLive(token, d[0].1))] + rest.0, (if hit then 1 else 0) + rest.1)
  }

  /** The number cancelled is the number of LIVE orders the token
      selects. */
  lemma {:induction false} CancelMatchingCounts(d: Dict<Order>, token: Option<string>)
    ensures CancelMatching(d, token).1 == |Select(Values(d), token, LiveStatus)|
  {
    if |d| > 0 {
      CancelMatchingCounts(d[1..], token);
      assert Values(d)[1..] == Values(d[1..]);
    }
  }

  /** `_paper_cancel_all_orders`: every LIVE order the token selects is
      CANCELLED, everything else is untouched; the count is the number of
      LIVE orders the query for that token reported. */
  function CancelAll(p: Paper, token: Option<string>): (r: (Paper, nat))
    ensures r.1 == |GetOrders(p, token, LiveStatus)|
    ensures Keys(r.0.orders) == Keys(p.orders)
    ensures forall i :: 0 <= i < |p.orders| ==>
      r.0.orders[i].1 == if p.orders[i].1.status == LiveStatus && TokenMatches(token, p.orders[i].1)
        then p.orders[i].1.(status := CancelledStatus) else p.orders[i].1
    ensures r.0.(orders := p.orders) == p
  {
    var c := CancelMatching(p.orders, token);
    CancelMatchingCounts(p.orders, token);
    assert Keys(c.0) == Keys(p.orders);
    (p.(orders := c.0), c.1)
  }

  lemma {:induction false} SelectNone(os: seq<Order>, token: Option<string>, status: string)
    requires forall i :: 0 <= i < |os| ==> !(os[i].status == status && TokenMatches(token, os[i]))
    ensures Select(os, token, status) == []
  {
    if |os| > 0 {
      SelectNone(os[1..], token, status);
    }
  }

  /** After a cancel-all, the LIVE query for the same token is empty. */
  lemma CancelAllLeavesNoneLive(p: Paper, token: Option<string>)
    ensures GetOrders(CancelAll(p, token).0, token, LiveStatus) == []
  {
    var r := CancelAll(p, token).0;
    SelectNone(Values(r.orders), token, LiveStatus);
  }
}

=== FILE: paper_sim.dfy ===
/**
 The paper-trading simulator (`src/paper_simulator.py`): simulated orders
 with queue position, a per-token market state built from book snapshots,
 crossing orders that walk the opposite side of the book, per-fill ledger
 updates, and the cancel and query rules.

 Order ids come from `uuid4` and are parameters here; clock readings are
 parameters in seconds; latency sleeps and the random fill draws of resting
 orders are not modelled.
 */
module PaperSim {
  import opened Common
  import opened Dicts
  import opened Book

  const LiveStatus := "LIVE"
  const PartialStatus := "PARTIAL"
  const MatchedStatus := "MATCHED"
  const CancelledStatus := "CANCELLED"

  /** Mid-price history is kept for five minutes. */
  const PriceHistorySeconds: real := 300.0

  // ---------------------------------------------------------------------
  // Orders
  // ---------------------------------------------------------------------

  /** A simulated order. `side` is the caller's string: the crossing test
      compares it with both "BUY" and "SELL", everything else reads any
      non-"BUY" value as a sell. `fills` holds (price, size, time). */
  datatype SimOrder = SimOrder(orderId: string, tokenId: string, side: string,
                               price: real, size: real, sizeMatched: real, status: string,
                               createdAt: real, orderType: string,
                               queuePosition: real, initialQueueDepth: real,
                               lastFillTime: Option<real>, fills: seq<(real, real, real)>)

  function SizeRemaining(o: SimOrder): real
  {
    o.size - o.sizeMatched
  }

  /** `is_live`: LIVE and PARTIAL orders are still working. */
  predicate IsLive(o: SimOrder)
  {
    o.status == LiveStatus || o.status == PartialStatus
  }

  // ---------------------------------------------------------------------
  // Market state
  // ---------------------------------------------------------------------

  /** Per-token view of the book. A depth is the `price -> size` dict
      built from a snapshot: one level per price. */
  datatype MarketState = MarketState(tokenId: string, bestBid: Option<real>, bestAsk: Option<real>,
                                     bidDepth: seq<Level>, askDepth: seq<Level>,
                                     priceHistory: seq<(real, real)>)

  function EmptyMarket(token: string): MarketState
  {
    MarketState(token, None, None, [], [], [])
  }

  predicate DistinctPrices(d: seq<Level>)
  {
    forall i, j :: 0 <= i < j < |d| ==> d[i].price != d[j].price
  }

  predicate HasPrice(ls: seq<Level>, p: real)
  {
    exists i :: 0 <= i < |ls| && ls[i].price == p
  }

  /** `{price: size for level in levels}`: a later level at the same price
      overwrites the size of the earlier one in place. */
  function DepthOf(ls: seq<Level>): (r: seq<Level>)
    ensures DistinctPrices(r)
    ensures forall p :: HasPrice(r, p) <==> HasPrice(ls, p)
    ensures |ls| > 0 ==> |r| > 0
  {
    if |ls| == 0 then []
    else
      var d := DepthOf(ls[..|ls| - 1]);
      var l := ls[|ls| - 1];
      assert forall p :: HasPrice(ls, p) <==> HasPrice(ls[..|ls| - 1], p) || p == l.price by {
        forall p | HasPrice(ls[..|ls| - 1], p) ensures HasPrice(ls, p) {
          var i :| 0 <= i < |ls| - 1 && ls[..|ls| - 1][i].price == p;
          assert ls[i].price == p;
        }
        assert ls[|ls| - 1].price == l.price;
      }
      match FindPrice(d, l.price)
      case Some(i) =>
        assert d[i].price == l.price;
        assert HasPrice(d, l.price);
        assert forall p :: HasPrice(d[i := l], p) <==> HasPrice(d, p) by {
          assert forall k :: 0 <= k < |d| ==> d[i := l][k].price == d[k].price;
          forall p | HasPrice(d, p) ensures HasPrice(d[i := l], p) {
            var k :| 0 <= k < |d| && d[k].price == p;
            assert d[i := l][k].price == p;
          }
          forall p | HasPrice(d[i := l], p) ensures HasPrice(d, p) {
            var k :| 0 <= k < |d| && d[i := l][k].price == p;
            assert d[k].price == p;
          }
        }
        d[i := l]
      case None =>
        assert forall p :: HasPrice(d + [l], p) <==> HasPrice(d, p) || p == l.price by {
          forall p | HasPrice(d, p) ensures HasPrice(d + [l], p) {
            var k :| 0 <= k < |d| && d[k].price == p;
            assert (d + [l])[k].price == p;
          }
          assert (d + [l])[|d|].price == l.price;
        }
        d + [l]
  }

  /** Largest price of a non-empty depth. */
  function MaxPrice(d: seq<Level>): (p: real)
    requires |d| > 0
    ensures HasPrice(d, p)
    ensures forall i :: 0 <= i < |d| ==> d[i].price <= p
  {
    if |d| == 1 then d[0].price
    else
      var q := MaxPrice(d[1..]);
      assert forall i :: 1 <= i < |d| ==> d[i] == d[1..][i - 1];
      if d[0].price >= q then d[0].price else q
  }

  /** Smallest price of a non-empty depth. */
  function MinPrice(d: seq<Level>): (p: real)
    requires |d| > 0
    ensures HasPrice(d, p)
    ensures forall i :: 0 <= i < |d| ==> d[i].price >= p
  {
    if |d| == 1 then d[0].price
    else
      var q := MinPrice(d[1..]);
      assert forall i :: 1 <= i < |d| ==> d[i] == d[1..][i - 1];
      if d[0].price <= q then d[0].price else q
  }

  function KeepRecent(h: seq<(real, real)>, cutoff: real): (r: seq<(real, real)>)
    ensures forall e :: e in r <==> e in h && e.0 > cutoff
  {
    if |h| == 0 then []
    else if h[0].0 > cutoff then [h[0]] + KeepRecent(h[1..], cutoff)
    else KeepRecent(h[1..], cutoff)
  }

  /** `update_from_orderbook`: the depths are rebuilt from the snapshot;
      a non-empty side sets its best price (the highest bid, the lowest
      ask) and an empty side keeps the previous one; when both best prices
      are truthy the mid is recorded and entries older than five minutes
      are dropped. */
  function UpdateFromOrderbook(m: MarketState, bids: seq<Level>, asks: seq<Level>, now: real): (r: MarketState)
    ensures r.tokenId == m.tokenId
    ensures |bids| == 0 ==> r.bestBid == m.bestBid
    ensures |asks| == 0 ==> r.bestAsk == m.bestAsk
    ensures |bids| > 0 ==>
      (r.bestBid.Some? && HasPrice(bids, r.bestBid.value) &&
       forall i :: 0 <= i < |bids| ==> bids[i].price <= r.bestBid.value)
    ensures |asks| > 0 ==>
      (r.bestAsk.Some? && HasPrice(asks, r.bestAsk.value) &&
       forall i :: 0 <= i < |asks| ==> asks[i].price >= r.bestAsk.value)
    ensures Truthy(r.bestBid) && Truthy(r.bestAsk) ==>
      (now, (r.bestBid.value + r.bestAsk.value) / 2.0) in r.priceHistory
    ensures !(Truthy(r.bestBid) && Truthy(r.bestAsk)) ==> r.priceHistory == m.priceHistory
  {
    var bd := DepthOf(bids);
    var ad := DepthOf(asks);
    var bb := if |bids| > 0 then Some(MaxPrice(bd)) else m.bestBid;
    var ba := if |asks| > 0 then Some(MinPrice(ad)) else m.bestAsk;
    assert |bids| > 0 ==> forall i :: 0 <= i < |bids| ==> bids[i].price <= bb.value by {
      if |bids| > 0 {
        forall i | 0 <= i < |bids| ensures bids[i].price <= bb.value {
          assert HasPrice(bids, bids[i].price);
        }
      }
    }
    assert |asks| > 0 ==> forall i :: 0 <= i < |asks| ==> asks[i].price >= ba.value by {
      if |asks| > 0 {
        forall i | 0 <= i < |asks| ensures asks[i].price >= ba.value {
          assert HasPrice(asks, asks[i].price);
        }
      }
    }
    var h := if Truthy(bb) && Truthy(ba)
      then KeepRecent(m.priceHistory + [(now, (bb.value + ba.value) / 2.0)], now - PriceHistorySeconds)
      else m.priceHistory;
    MarketState(m.tokenId, bb, ba, bd, ad, h)
  }

  /** Entry `i` ends the leading run of entries stamped at or before
      `since`. */
  predicate EndsLeadingRun(h: seq<(real, real)>, since: real, i: int)
  {
    0 <= i < |h| && (forall j :: 0 <= j <= i ==> h[j].0 <= since) && (i + 1 == |h| || h[i + 1].0 > since)
  }

  /** The price recorded at `since`: that of the last entry of the leading
      run of entries stamped at or before `since`. */
  function PriceAt(h: seq<(real, real)>, since: real): (r: Option<real>)
    ensures r.None? <==> |h| == 0 || h[0].0 > since
    ensures r.Some? ==> exists i :: EndsLeadingRun(h, since, i) && h[i].1 == r.value
  {
    if |h| == 0 || h[0].0 > since then None
    else
      match PriceAt(h[1..], since)
      case None =>
        assert EndsLeadingRun(h, since, 0);
        Some(h[0].1)
      case Some(p) =>
        var k :| EndsLeadingRun(h[1..], since, k) && h[1..][k].1 == p;
        assert forall j :: 1 <= j < |h| ==> h[j] == h[1..][j - 1];
        assert EndsLeadingRun(h, since, k + 1);
        Some(p)
  }

  /** `get_price_move`: latest mid minus the mid at `since`, zero with
      fewer than two entries or when nothing was recorded by then. */
  function PriceMove(h: seq<(real, real)>, since: real): (r: real)
    ensures |h| < 2 ==> r == 0.0
    ensures |h| >= 2 && PriceAt(h, since).Some? ==> r == h[|h| - 1].1 - PriceAt(h, since).value
    ensures |h| >= 2 && PriceAt(h, since).None? ==> r == 0.0
  {
    if |h| < 2 then 0.0
    else
      match PriceAt(h, since)
      case None => 0.0
      case Some(p) => h[|h| - 1].1 - p
  }

  /** Asked about a time no later than every entry is stamped at or
      before, the move is zero: the old price is the latest one. */
  lemma PriceMoveSinceLatest(h: seq<(real, real)>, since: real)
    requires forall i :: 0 <= i < |h| ==> h[i].0 <= since
    ensures PriceMove(h, since) == 0.0
  {
    if |h| >= 2 {
      var p := PriceAt(h, since).value;
      assert h[0].0 <= since;
      var i :| EndsLeadingRun(h, since, i) && h[i].1 == p;
      assert i + 1 == |h|;
    }
  }

  /** Sum of the sizes at prices that `keep` selects. */
  function SumWhere(d: seq<Level>, lo: Option<real>, hi: Option<real>): real
  {
    if |d| == 0 then 0.0
    else
      (if (lo.None? || d[0].price >= lo.value) && (hi.None? || d[0].price <= hi.value) then d[0].size else 0.0)
      + SumWhere(d[1..], lo, hi)
  }

  /** `get_queue_depth_at_price`: for a buy, the bid size at prices at or
      above ours; otherwise the ask size at prices at or below ours. */
  function QueueDepth(m: MarketState, price: real, side: string): (r: real)
    ensures side == "BUY" ==> r == SumWhere(m.bidDepth, Some(price), None)
    ensures side != "BUY" ==> r == SumWhere(m.askDepth, None, Some(price))
  {
    if side == "BUY" then SumWhere(m.bidDepth, Some(price), None) else SumWhere(m.askDepth, None, Some(price))
  }

  /** With non-negative sizes, a more aggressive price has no more size
      queued ahead of it. */
  lemma QueueDepthMonotone(m: MarketState, p: real, q: real, side: string)
    requires p <= q
    requires forall i :: 0 <= i < |m.bidDepth| ==> m.bidDepth[i].size >= 0.0
    requires forall i :: 0 <= i < |m.askDepth| ==> m.askDepth[i].size >= 0.0
    ensures side == "BUY" ==> QueueDepth(m, q, side) <= QueueDepth(m, p, side)
    ensures side != "BUY" ==> QueueDepth(m, p, side) <= QueueDepth(m, q, side)
  {
    if side == "BUY" {
      SumWhereLowerBound(m.bidDepth, p, q);
    } else {
      SumWhereUpperBound(m.askDepth, p, q);
    }
  }

  lemma {:induction false} SumWhereLowerBound(d: seq<Level>, p: real, q: real)
    requires p <= q
    requires forall i :: 0 <= i < |d| ==> d[i].size >= 0.0
    ensures SumWhere(d, Some(q), None) <= SumWhere(d, Some(p), None)
  {
    if |d| > 0 {
      SumWhereLowerBound(d[1..], p, q);
    }
  }

  lemma {:induction false} SumWhereUpperBound(d: seq<Level>, p: real, q: real)
    requires p <= q
    requires forall i :: 0 <= i < |d| ==> d[i].size >= 0.0
    ensures SumWhere(d, None, Some(p)) <= SumWhere(d, None, Some(q))
  {
    if |d| > 0 {
      SumWhereUpperBound(d[1..], p, q);
    }
  }

  // ---------------------------------------------------------------------
  // Walking the book
  // ---------------------------------------------------------------------

  /** A level's price is acceptable to a limit order: at or below the
      limit for a buy, at or above it for a sell. */
  predicate Acceptable(side: Side, limit: real, p: real)
  {
    if side == Buy then p <= limit else p >= limit
  }

  function Opposite(side: Side): Side
  {
    if side == Buy then Sell else Buy
  }

  function Pos(x: real): real
  {
    if x > 0.0 then x else 0.0
  }

  /** The loop of `_execute_crossing_order` over the opposite side, best
      price first: it stops at the first unacceptable price, takes
      `min(remaining, available)` from each level when that is positive,
      and stops once nothing remains. The fills are (price, size). */
  function Walk(side: Side, limit: real, ls: seq<Level>, remaining: real): (fills: seq<Level>)
    ensures forall f :: f in fills ==> Acceptable(side, limit, f.price) && f.size > 0.0
  {
    if |ls| == 0 || !Acceptable(side, limit, ls[0].price) then []
    else
      var f := MinR(remaining, ls[0].size);
      var rem := if f > 0.0 then remaining - f else remaining;
      var here := if f > 0.0 then [Level(ls[0].price, f)] else [];
      if rem <= 0.0 then here
      else
        here + Walk(side, limit, ls[1..], rem)
  }

  /** What the book offers an order at acceptable prices. */
  function Available(side: Side, limit: real, ls: seq<Level>): (a: real)
    ensures a >= 0.0
  {
    if |ls| == 0 then 0.0
    else (if Acceptable(side, limit, ls[0].price) then Pos(ls[0].size) else 0.0) + Available(side, limit, ls[1..])
  }

  /** On a side sorted best first, the walk fills exactly
      `min(remaining, available)`, and nothing when that is negative. */
  lemma {:induction false} WalkFillsAvailable(side: Side, limit: real, ls: seq<Level>, remaining: real)
    requires SortedSide(Opposite(side), ls)
    ensures SumSizes(Walk(side, limit, ls, remaining)) == Pos(MinR(remaining, Available(side, limit, ls)))
  {
    if |ls| == 0 {
      return;
    }
    if !Acceptable(side, limit, ls[0].price) {
      NoneAcceptable(side, limit, ls);
      return;
    }
    var a0 := ls[0].size;
    var ar := Available(side, limit, ls[1..]);
    var f := MinR(remaining, a0);
    assert Available(side, limit, ls) == Pos(a0) + ar;
    SortedTail(Opposite(side), ls);
    if f > 0.0 && remaining - f <= 0.0 {
      assert Walk(side, limit, ls, remaining) == [Level(ls[0].price, f)];
      StepFull(remaining, a0, ar);
    } else if f > 0.0 {
      WalkFillsAvailable(side, limit, ls[1..], remaining - f);
      WalkPartialStep(side, limit, ls, remaining);
    } else if remaining <= 0.0 {
      StepEmpty(remaining, Pos(a0) + ar);
    } else {
      assert Walk(side, limit, ls, remaining) == Walk(side, limit, ls[1..], remaining);
      WalkFillsAvailable(side, limit, ls[1..], remaining);
    }
  }

  /** A level that fills part of what remains adds its fill to what
      the rest of the book fills. */
  lemma WalkPartialStep(side: Side, limit: real, ls: seq<Level>, remaining: real)
    requires |ls| > 0 && Acceptable(side, limit, ls[0].price)
    requires MinR(remaining, ls[0].size) > 0.0 && remaining - MinR(remaining, ls[0].size) > 0.0
    requires SumSizes(Walk(side, limit, ls[1..], remaining - MinR(remaining, ls[0].size)))
      == Pos(MinR(remaining - MinR(remaining, ls[0].size), Available(side, limit, ls[1..])))
    ensures SumSizes(Walk(side, limit, ls, remaining)) == Pos(MinR(remaining, Available(side, limit, ls)))
  {
    var f := MinR(remaining, ls[0].size);
    var rest := Walk(side, limit, ls[1..], remaining - f);
    assert Walk(side, limit, ls, remaining) == [Level(ls[0].price, f)] + rest;
    assert Available(side, limit, ls) == Pos(ls[0].size) + Available(side, limit, ls[1..]);
    SumSizesAppend([Level(ls[0].price, f)], rest);
    StepPartial(remaining, ls[0].size, Available(side, limit, ls[1..]));
  }

  lemma SortedTail(side: Side, ls: seq<Level>)
    requires |ls| > 0 && SortedSide(side, ls)
    ensures SortedSide(side, ls[1..])
  {
    assert forall i :: 0 <= i < |ls| - 1 ==> ls[1..][i] == ls[i + 1];
  }

  /** The level covers what remains. */
  lemma StepFull(rem: real, a0: real, ar: real)
    requires MinR(rem, a0) > 0.0 && rem - MinR(rem, a0) <= 0.0 && ar >= 0.0
    ensures MinR(rem, a0) == Pos(MinR(rem, Pos(a0) + ar))
  {
  }

  /** The level is used up and the walk goes on. */
  lemma StepPartial(rem: real, a0: real, ar: real)
    requires MinR(rem, a0) > 0.0 && rem - MinR(rem, a0) > 0.0 && ar >= 0.0
    ensures MinR(rem, a0) + Pos(MinR(rem - MinR(rem, a0), ar)) == Pos(MinR(rem, Pos(a0) + ar))
  {
  }

  lemma StepEmpty(rem: real, a: real)
    requires rem <= 0.0
    ensures Pos(MinR(rem, a)) == 0.0
  {
  }

  /** Once the best remaining price is unacceptable, so is every later
      one on a side sorted best first. */
  lemma {:induction false} NoneAcceptable(side: Side, limit: real, ls: seq<Level>)
    requires |ls| > 0 && SortedSide(Opposite(side), ls)
    requires !Acceptable(side, limit, ls[0].price)
    ensures Available(side, limit, ls) == 0.0
    ensures Walk(side, limit, ls, 0.0) == []
  {
    if |ls| > 1 {
      assert Before(Opposite(side), ls[0].price, ls[1].price);
      SortedTail(Opposite(side), ls);
      NoneAcceptable(side, limit, ls[1..]);
    }
  }

  lemma {:induction false} SumSizesAppend(a: seq<Level>, b: seq<Level>)
    ensures SumSizes(a + b) == SumSizes(a) + SumSizes(b)
  {
    if |a| == 0 {
      assert a + b == b;
    } else {
      assert (a + b)[1..] == a[1..] + b;
      SumSizesAppend(a[1..], b);
    }
  }

  // ---------------------------------------------------------------------
  // The simulator and its ledger
  // ---------------------------------------------------------------------

  datatype Stats = Stats(ordersPlaced: nat, ordersFilled: nat, ordersPartial: nat, ordersCancelled: nat,
                         totalVolume: real, makerVolume: real, takerVolume: real, totalFees: real,
                         adverseFills: nat, favorableFills: nat)

  /** A simulated trade. The source's id is `paper_trade_<n>` with `n`
      the number of earlier trades; `tradeIndex` is that `n`. */
  datatype SimTrade = SimTrade(tradeIndex: nat, tokenId: string, side: string, price: real, size: real,
                               fee: real, timestamp: real, orderId: string,
                               isMaker: bool, slippage: real, queueWaitTime: real)

  /** `isAdverse` is the `_is_adverse` flag the fill-probability check
      raises and the next fill consumes. */
  datatype Sim = Sim(balance: real, makerFee: real, takerFee: real,
                     orders: Dict<SimOrder>, trades: seq<SimTrade>, positions: Dict<real>,
                     markets: Dict<MarketState>, stats: Stats, isAdverse: bool)

  function NewSim(startingBalance: real, makerFee: real, takerFee: real): Sim
  {
    Sim(startingBalance, makerFee, takerFee, [], [], [],
        [], Stats(0, 0, 0, 0, 0.0, 0.0, 0.0, 0.0, 0, 0), false)
  }

  /** `positions[token]` of the defaultdict. */
  function PositionOf(s: Sim, token: string): real
  {
    match Get(s.positions, token)
    case Some(q) => q
    case None => 0.0
  }

  /** Cash a trade takes out of the balance: notional plus fee for a buy,
      fee minus notional for a sell. */
  function CashOut(t: SimTrade): real
  {
    if t.side == "BUY" then t.price * t.size + t.fee else t.fee - t.price * t.size
  }

  function SignedSize(t: SimTrade): real
  {
    if t.side == "BUY" then t.size else -t.size
  }

  function CashFlow(ts: seq<SimTrade>): real
  {
    if |ts| == 0 then 0.0 else CashFlow(ts[..|ts| - 1]) + CashOut(ts[|ts| - 1])
  }

  function NetSize(ts: seq<SimTrade>, token: string): real
  {
    if |ts| == 0 then 0.0
    else NetSize(ts[..|ts| - 1], token) + (if ts[|ts| - 1].tokenId == token then SignedSize(ts[|ts| - 1]) else 0.0)
  }

  function Volume(ts: seq<SimTrade>): real
  {
    if |ts| == 0 then 0.0 else Volume(ts[..|ts| - 1]) + ts[|ts| - 1].size
  }

  function Fees(ts: seq<SimTrade>): real
  {
    if |ts| == 0 then 0.0 else Fees(ts[..|ts| - 1]) + ts[|ts| - 1].fee
  }

  lemma SnocSums(ts: seq<SimTrade>, t: SimTrade)
    ensures CashFlow(ts + [t]) == CashFlow(ts) + CashOut(t)
    ensures forall token :: (NetSize(ts + [t], token) ==
      NetSize(ts, token) + (if t.tokenId == token then SignedSize(t) else 0.0))
    ensures Volume(ts + [t]) == Volume(ts) + t.size
    ensures Fees(ts + [t]) == Fees(ts) + t.fee
  {
    assert (ts + [t])[..|ts|] == ts;
  }

  /** The ledger agrees with the trade list: the balance is the starting
      balance less the cash every trade took, each position is the signed
      sum of its token's trade sizes, total volume is maker plus taker
      volume and the sum of trade sizes, fees add up, and every trade was
      counted once as filled-or-partial and once as adverse-or-favourable. */
  ghost predicate Ledger(s: Sim, startingBalance: real)
  {
    && s.balance == startingBalance - CashFlow(s.trades)
    && (forall token :: PositionOf(s, token) == NetSize(s.trades, token))
    && s.stats.totalVolume == s.stats.makerVolume + s.stats.takerVolume
    && s.stats.totalVolume == Volume(s.trades)
    && s.stats.totalFees == Fees(s.trades)
    && s.stats.ordersFilled + s.stats.ordersPartial == |s.trades|
    && s.stats.adverseFills + s.stats.favorableFills == |s.trades|
  }

  lemma NewSimLedger(startingBalance: real, makerFee: real, takerFee: real)
    ensures Ledger(NewSim(startingBalance, makerFee, takerFee), startingBalance)
  {
  }

  /** The trade record of one fill of `o`. */
  function FillTrade(s: Sim, o: SimOrder, price: real, size: real, isMaker: bool,
                     slippage: real, now: real): (t: SimTrade)
    ensures t.fee == price * size * (if isMaker then s.makerFee else s.takerFee)
    ensures t.tradeIndex == |s.trades| && t.orderId == o.orderId && t.tokenId == o.tokenId
    ensures t.side == o.side && t.price == price && t.size == size
    ensures t.isMaker == isMaker && t.slippage == slippage && t.queueWaitTime == now - o.createdAt
  {
    SimTrade(|s.trades|, o.tokenId, o.side, price, size, price * size * (if isMaker then s.makerFee else s.takerFee),
             now, o.orderId, isMaker, slippage, now - o.createdAt)
  }

  /** Cash and position move by the trade: a buy pays notional plus fee
      and adds the size, a sell receives notional less fee and subtracts
      it. */
  function Settle(s: Sim, t: SimTrade): (r: Sim)
    ensures r.balance + CashOut(t) == s.balance
    ensures r.trades == s.trades + [t]
    ensures r.(balance := s.balance, positions := s.positions, trades := s.trades) == s
  {
    var pos := PositionOf(s, t.tokenId) + (if t.side == "BUY" then t.size else -t.size);
    var bal := if t.side == "BUY" then s.balance - (t.price * t.size + t.fee) else s.balance + (t.price * t.size - t.fee);
    s.(balance := bal, positions := Put(s.positions, t.tokenId, pos), trades := s.trades + [t])
  }

  /** Only the trade's token changes position, by the trade's signed size. */
  lemma SettleMovesPosition(s: Sim, t: SimTrade, k: string)
    ensures PositionOf(Settle(s, t), k) == PositionOf(s, k) + (if k == t.tokenId then SignedSize(t) else 0.0)
  {
    var pos := PositionOf(s, t.tokenId) + SignedSize(t);
    GetPut(s.positions, t.tokenId, pos, k);
  }

  /** The statistics of one fill. */
  function CountFill(st: Stats, size: real, fee: real, isMaker: bool, filled: bool, adverse: bool): Stats
  {
    st.(ordersFilled := st.ordersFilled + (if filled then 1 else 0),
        ordersPartial := st.ordersPartial + (if filled then 0 else 1),
        totalVolume := st.totalVolume + size,
        totalFees := st.totalFees + fee,
        makerVolume := st.makerVolume + (if isMaker then size else 0.0),
        takerVolume := st.takerVolume + (if isMaker then 0.0 else size),
        adverseFills := st.adverseFills + (if adverse then 1 else 0),
        favorableFills := st.favorableFills + (if adverse then 0 else 1))
  }

  /** `_execute_fill`: records the trade, adds the size to the order's
      matched size (MATCHED once it reaches the order size, PARTIAL
      before), moves the position and the balance by the side's sign,
      updates the statistics and consumes the adverse flag. The updated
      order is stored under its id. */
  function ExecuteFill(s: Sim, o: SimOrder, price: real, size: real, isMaker: bool,
                       slippage: real, now: real): (r: (Sim, SimOrder))
    ensures r.1.sizeMatched == o.sizeMatched + size
    ensures r.1.status == (if r.1.sizeMatched >= o.size then MatchedStatus else PartialStatus)
    ensures r.1 == o.(sizeMatched := r.1.sizeMatched, status := r.1.status,
                      fills := o.fills + [(price, size, now)], lastFillTime := Some(now))
    ensures Get(r.0.orders, o.orderId) == Some(r.1)
    ensures r.0.trades == s.trades + [FillTrade(s, o, price, size, isMaker, slippage, now)]
    ensures r.0.markets == s.markets && r.0.makerFee == s.makerFee && r.0.takerFee == s.takerFee
    ensures r.0.stats.ordersPlaced == s.stats.ordersPlaced
    ensures !r.0.isAdverse
  {
    var t := FillTrade(s, o, price, size, isMaker, slippage, now);
    var matched := o.sizeMatched + size;
    var o1 := o.(sizeMatched := matched, fills := o.fills + [(price, size, now)], lastFillTime := Some(now),
                 status := if matched >= o.size then MatchedStatus else PartialStatus);
    var s1 := Settle(s, t);
    GetPut(s.orders, o.orderId, o1, o.orderId);
    (s1.(orders := Put(s.orders, o.orderId, o1),
         stats := CountFill(s.stats, size, t.fee, isMaker, matched >= o.size, s.isAdverse),
         isAdverse := false), o1)
  }

  /** Every fill keeps the ledger consistent. */
  lemma ExecuteFillKeepsLedger(s: Sim, startingBalance: real, o: SimOrder, price: real, size: real,
                               isMaker: bool, slippage: real, now: real)
    requires Ledger(s, startingBalance)
    ensures Ledger(ExecuteFill(s, o, price, size, isMaker, slippage, now).0, startingBalance)
  {
    var t := FillTrade(s, o, price, size, isMaker, slippage, now);
    var r := ExecuteFill(s, o, price, size, isMaker, slippage, now).0;
    var s1 := Settle(s, t);
    SnocSums(s.trades, t);
    assert r.balance == s1.balance && r.positions == s1.positions;
    assert r.balance == startingBalance - CashFlow(r.trades);
    forall token ensures PositionOf(r, token) == NetSize(r.trades, token) {
      assert PositionOf(r, token) == PositionOf(s1, token);
      SettleMovesPosition(s, t, token);
    }
  }

  /** The fills of a crossing order, in walk order, each executed as a
      taker with slippage `|fill price - limit|`. */
  function ApplyFills(s: Sim, o: SimOrder, fills: seq<Level>, now: real): (r: (Sim, SimOrder))
    ensures r.1.sizeMatched == o.sizeMatched + SumSizes(fills)
    ensures |fills| == 0 ==> r == (s, o)
    decreases |fills|
  {
    if |fills| == 0 then (s, o)
    else
      SumSizesSnoc(fills);
      TakeFill(ApplyFills(s, o, fills[..|fills| - 1], now), o.price, fills[|fills| - 1], now)
  }

  /** The fills update the same order, stored under its id, add one trade
      each and touch neither the markets, the fee rates nor the placed
      count. */
  lemma {:induction false} ApplyFillsTracksOrder(s: Sim, o: SimOrder, fills: seq<Level>, now: real)
    ensures var r := ApplyFills(s, o, fills, now);
      && r.1.orderId == o.orderId && r.1.price == o.price && r.1.size == o.size
      && r.1.side == o.side && r.1.tokenId == o.tokenId && r.1.createdAt == o.createdAt
      && (|fills| > 0 ==> Get(r.0.orders, o.orderId) == Some(r.1))
      && |r.0.trades| == |s.trades| + |fills|
      && r.0.markets == s.markets && r.0.makerFee == s.makerFee && r.0.takerFee == s.takerFee
      && r.0.stats.ordersPlaced == s.stats.ordersPlaced
    decreases |fills|
  {
    if |fills| > 0 {
      ApplyFillsTracksOrder(s, o, fills[..|fills| - 1], now);
      ApplyFillsStep(s, o, fills, now);
    }
  }

  /** One fill of a crossing order, executed as a taker trade with
      slippage `|fill price - limit|`. */
  function TakeFill(p: (Sim, SimOrder), limit: real, f: Level, now: real): (Sim, SimOrder)
  {
    ExecuteFill(p.0, p.1, f.price, f.size, false, Abs(f.price - limit), now)
  }

  /** A crossing trade: a taker trade at its fill's price and size, with
      slippage the distance from the order's limit. */
  predicate TakerTrade(t: SimTrade, f: Level, limit: real)
  {
    t.price == f.price && t.size == f.size && t.slippage == Abs(f.price - limit) && !t.isMaker
  }

  /** The last fill of a crossing order appends one taker trade. */
  lemma ApplyFillsStep(s: Sim, o: SimOrder, fills: seq<Level>, now: real)
    requires |fills| > 0
    ensures ApplyFills(s, o, fills, now) ==
      TakeFill(ApplyFills(s, o, fills[..|fills| - 1], now), o.price, fills[|fills| - 1], now)
  {
  }

  /** `ts` extends `base` by one taker trade per fill, in fill order. */
  predicate TakerTrades(base: seq<SimTrade>, ts: seq<SimTrade>, fills: seq<Level>, limit: real)
  {
    && |ts| == |base| + |fills|
    && ts[..|base|] == base
    && forall i :: 0 <= i < |fills| ==> TakerTrade(ts[|base| + i], fills[i], limit)
  }

  /** The crossing trades are appended in walk order, one per fill. */
  lemma {:induction false} CrossingTrades(s: Sim, o: SimOrder, fills: seq<Level>, now: real)
    ensures TakerTrades(s.trades, ApplyFills(s, o, fills, now).0.trades, fills, o.price)
    decreases |fills|
  {
    if |fills| > 0 {
      var n := |fills| - 1;
      var p := ApplyFills(s, o, fills[..n], now);
      CrossingTrades(s, o, fills[..n], now);
      TakeFillAppends(p, o.price, fills[n], now);
      ApplyFillsStep(s, o, fills, now);
      var ts := TakeFill(p, o.price, fills[n], now).0.trades;
      TakerAppend(s.trades, p.0.trades, ts[|ts| - 1], fills, o.price);
    } else {
      assert ApplyFills(s, o, fills, now).0.trades == s.trades;
    }
  }

  lemma TakeFillAppends(p: (Sim, SimOrder), limit: real, f: Level, now: real)
    ensures var ts := TakeFill(p, limit, f, now).0.trades;
      |ts| == |p.0.trades| + 1 && ts == p.0.trades + [ts[|ts| - 1]] && TakerTrade(ts[|ts| - 1], f, limit)
  {
  }

  lemma TakerAppend(base: seq<SimTrade>, ts: seq<SimTrade>, t: SimTrade, fills: seq<Level>, limit: real)
    requires |fills| > 0 && TakerTrades(base, ts, fills[..|fills| - 1], limit)
    requires TakerTrade(t, fills[|fills| - 1], limit)
    ensures TakerTrades(base, ts + [t], fills, limit)
  {
    assert (ts + [t])[..|base|] == ts[..|base|];
    forall i | 0 <= i < |fills| ensures TakerTrade((ts + [t])[|base| + i], fills[i], limit) {
      if i < |fills| - 1 {
        assert fills[..|fills| - 1][i] == fills[i];
      }
    }
  }

  lemma {:induction false} SumSizesSnoc(ls: seq<Level>)
    requires |ls| > 0
    ensures SumSizes(ls) == SumSizes(ls[..|ls| - 1]) + ls[|ls| - 1].size
  {
    assert ls == ls[..|ls| - 1] + [ls[|ls| - 1]];
    SumSizesAppend(ls[..|ls| - 1], [ls[|ls| - 1]]);
  }

  lemma {:induction false} ApplyFillsKeepsLedger(s: Sim, startingBalance: real, o: SimOrder,
                                                 fills: seq<Level>, now: real)
    requires Ledger(s, startingBalance)
    ensures Ledger(ApplyFills(s, o, fills, now).0, startingBalance)
    decreases |fills|
  {
    if |fills| > 0 {
      var p := ApplyFills(s, o, fills[..|fills| - 1], now);
      ApplyFillsKeepsLedger(s, startingBalance, o, fills[..|fills| - 1], now);
      TakeFillKeepsLedger(p, startingBalance, o.price, fills[|fills| - 1], now);
      ApplyFillsStep(s, o, fills, now);
    }
  }

  lemma TakeFillKeepsLedger(p: (Sim, SimOrder), startingBalance: real, limit: real, f: Level, now: real)
    requires Ledger(p.0, startingBalance)
    ensures Ledger(TakeFill(p, limit, f, now).0, startingBalance)
  {
    var r := ExecuteFill(p.0, p.1, f.price, f.size, false, Abs(f.price - limit), now);
    ExecuteFillKeepsLedger(p.0, startingBalance, p.1, f.price, f.size, false, Abs(f.price - limit), now);
    assert TakeFill(p, limit, f, now) == r;
  }

  /** The opposite side of the market, best price first: asks ascending
      for a buy, bids descending for a sell. */
  function CrossLevels(m: MarketState, side: Side): (ls: seq<Level>)
    ensures SortedSide(Opposite(side), ls)
  {
    if side == Buy then SortSide(Sell, m.askDepth) else SortSide(Buy, m.bidDepth)
  }

  function CrossFills(o: SimOrder, m: MarketState): seq<Level>
  {
    Walk(SideOf(o.side), o.price, CrossLevels(m, SideOf(o.side)), SizeRemaining(o))
  }

  /** `_execute_crossing_order`: walk the opposite side for the order's
      remaining size, execute each fill as a taker, and put any remainder
      at the front of the queue. */
  function ExecuteCrossing(s: Sim, o: SimOrder, m: MarketState, now: real): (r: (Sim, SimOrder))
    ensures r.1.sizeMatched ==
      o.sizeMatched + Pos(MinR(SizeRemaining(o), Available(SideOf(o.side), o.price, CrossLevels(m, SideOf(o.side)))))
    ensures SizeRemaining(r.1) > 0.0 ==> r.1.queuePosition == 0.0
    ensures r.1.orderId == o.orderId && r.1.tokenId == o.tokenId && r.1.price == o.price && r.1.size == o.size
    ensures Get(r.0.orders, o.orderId) == Some(r.1) || (r.0 == s && r.1 == o)
    ensures r.0.stats.ordersPlaced == s.stats.ordersPlaced
  {
    var fills := CrossFills(o, m);
    WalkFillsAvailable(SideOf(o.side), o.price, CrossLevels(m, SideOf(o.side)), SizeRemaining(o));
    ApplyFillsTracksOrder(s, o, fills, now);
    var (s1, o1) := ApplyFills(s, o, fills, now);
    if SizeRemaining(o1) > 0.0 then
      var o2 := o1.(queuePosition := 0.0);
      GetPut(s1.orders, o.orderId, o2, o.orderId);
      (s1.(orders := Put(s1.orders, o.orderId, o2)), o2)
    else (s1, o1)
  }

  /** A crossing fill never takes the order past its size. */
  lemma CrossingNeverOverfills(s: Sim, o: SimOrder, m: MarketState, now: real)
    requires o.sizeMatched <= o.size
    ensures o.sizeMatched <= ExecuteCrossing(s, o, m, now).1.sizeMatched <= o.size
  {
  }

  lemma CrossingKeepsLedger(s: Sim, startingBalance: real, o: SimOrder, m: MarketState, now: real)
    requires Ledger(s, startingBalance)
    ensures Ledger(ExecuteCrossing(s, o, m, now).0, startingBalance)
  {
    var p := ApplyFills(s, o, CrossFills(o, m), now);
    ApplyFillsKeepsLedger(s, startingBalance, o, CrossFills(o, m), now);
    LedgerIgnoresOrders(p.0, startingBalance, Put(p.0.orders, o.orderId, p.1.(queuePosition := 0.0)));
  }

  /** The ledger does not depend on the order book-keeping. */
  lemma LedgerIgnoresOrders(s: Sim, startingBalance: real, orders: Dict<SimOrder>)
    requires Ledger(s, startingBalance)
    ensures Ledger(s.(orders := orders), startingBalance)
  {
    assert forall k :: PositionOf(s.(orders := orders), k) == PositionOf(s, k);
  }

  /** The crossing test of `_check_immediate_fill`: a BUY at or above a
      truthy best ask, or a SELL at or below a truthy best bid. */
  predicate Crossing(o: SimOrder, m: MarketState)
  {
    (o.side == "BUY" && Truthy(m.bestAsk) && o.price >= m.bestAsk.value) ||
    (o.side == "SELL" && Truthy(m.bestBid) && o.price <= m.bestBid.value)
  }

  /** `_check_immediate_fill`: only a known market and a crossing order
      trade at once. */
  function CheckImmediateFill(s: Sim, o: SimOrder, now: real): (r: (Sim, SimOrder))
    ensures Get(s.markets, o.tokenId).None? ==> r == (s, o)
    ensures Get(s.markets, o.tokenId).Some? && !Crossing(o, Get(s.markets, o.tokenId).value) ==> r == (s, o)
    ensures Get(s.markets, o.tokenId).Some? && Crossing(o, Get(s.markets, o.tokenId).value) ==>
      r == ExecuteCrossing(s, o, Get(s.markets, o.tokenId).value, now)
  {
    match Get(s.markets, o.tokenId)
    case None => (s, o)
    case Some(m) => if Crossing(o, m) then ExecuteCrossing(s, o, m, now) else (s, o)
  }

  /** The queued order `place_order` creates before the immediate-fill
      check: LIVE, nothing matched, behind the size already resting at its
      price or better. */
  function Enqueue(s: Sim, orderId: string, token: string, side: string, price: real, size: real,
                   orderType: string, now: real): (r: (Sim, SimOrder))
    ensures r.1.status == LiveStatus && r.1.sizeMatched == 0.0
    ensures r.1.queuePosition == r.1.initialQueueDepth ==
      QueueDepth(match Get(s.markets, token) case Some(m) => m case None => EmptyMarket(token), price, side)
    ensures Get(r.0.orders, orderId) == Some(r.1)
    ensures r.0 == s.(orders := r.0.orders, stats := s.stats.(ordersPlaced := s.stats.ordersPlaced + 1))
  {
    var m := match Get(s.markets, token) case Some(m) => m case None => EmptyMarket(token);
    var qd := QueueDepth(m, price, side);
    var o := SimOrder(orderId, token, side, price, size, 0.0, LiveStatus, now, orderType,
                      qd, qd, None, []);
    GetPut(s.orders, orderId, o, orderId);
    (s.(orders := Put(s.orders, orderId, o), stats := s.stats.(ordersPlaced := s.stats.ordersPlaced + 1)), o)
  }

  /** `place_order`: enqueue, count, then check for an immediate fill. */
  function PlaceOrder(s: Sim, orderId: string, token: string, side: string, price: real, size: real,
                      orderType: string, now: real): (r: (Sim, SimOrder))
    ensures r.1.orderId == orderId && r.1.tokenId == token && r.1.price == price && r.1.size == size
    ensures r.0.stats.ordersPlaced == s.stats.ordersPlaced + 1
    ensures Get(r.0.orders, orderId) == Some(r.1)
    ensures Get(s.markets, token).None? ==> r.1.status == LiveStatus && r.1.queuePosition == 0.0
  {
    var (s1, o) := Enqueue(s, orderId, token, side, price, size, orderType, now);
    CheckImmediateFill(s1, o, now)
  }

  /** Placing an order keeps the ledger consistent. */
  lemma PlaceKeepsLedger(s: Sim, startingBalance: real, orderId: string, token: string, side: string,
                         price: real, size: real, orderType: string, now: real)
    requires Ledger(s, startingBalance)
    ensures Ledger(PlaceOrder(s, orderId, token, side, price, size, orderType, now).0, startingBalance)
  {
    var (s1, o) := Enqueue(s, orderId, token, side, price, size, orderType, now);
    assert forall k :: PositionOf(s1, k) == PositionOf(s, k);
    assert Ledger(s1, startingBalance);
    if Get(s1.markets, token).Some? && Crossing(o, Get(s1.markets, token).value) {
      CrossingKeepsLedger(s1, startingBalance, o, Get(s1.markets, token).value, now);
    }
  }

  /** `update_orderbook`: the token's market state is created when missing
      and then refreshed from the snapshot. */
  function UpdateOrderbook(s: Sim, token: string, bids: seq<Level>, asks: seq<Level>, now: real): (r: Sim)
    ensures Get(r.markets, token).Some?
    ensures Get(r.markets, token).value ==
      UpdateFromOrderbook(match Get(s.markets, token) case Some(m) => m case None => EmptyMarket(token),
                          bids, asks, now)
    ensures forall k :: k != token ==> Get(r.markets, k) == Get(s.markets, k)
    ensures r.(markets := s.markets) == s
  {
    var m := match Get(s.markets, token) case Some(m) => m case None => EmptyMarket(token);
    var m1 := UpdateFromOrderbook(m, bids, asks, now);
    forall k ensures Get(Put(s.markets, token, m1), k) == if k == token then Some(m1) else Get(s.markets, k) {
      GetPut(s.markets, token, m1, k);
    }
    s.(markets := Put(s.markets, token, m1))
  }

  // ---------------------------------------------------------------------
  // Fill probability
  // ---------------------------------------------------------------------

  const BaseFillProbPerSecond: real := 0.02
  const AdverseMultiplier: real := 3.0
  const FavorableMultiplier: real := 0.3

  /** `_calculate_fill_probability`, given the estimated volume per second
      and the price move since the order was created. The second
      component says whether the adverse flag is raised. */
  function FillProbability(o: SimOrder, volPerSec: real, priceMove: real,
                           enableAdverse: bool): (r: (real, bool))
    ensures 0.0 < r.0 <= 1.0
    ensures r.1 <==>
      (enableAdverse && ((o.side == "BUY" && priceMove < 0.0) || (o.side != "BUY" && priceMove > 0.0)))
  {
    var p0 := BaseFillProbPerSecond / 2.0;
    var p1 := if volPerSec > 0.0 then p0 * (1.0 + MinR(3.0, volPerSec / 10.0)) else p0;
    var c := if o.initialQueueDepth > 0.0 then Clamp(0.0, 1.0, 1.0 - o.queuePosition / o.initialQueueDepth) else 0.0;
    var p2 := if o.initialQueueDepth > 0.0 then p1 * (0.2 + c * 0.8) else p1;
    var adverse := enableAdverse && ((o.side == "BUY" && priceMove < 0.0) || (o.side != "BUY" && priceMove > 0.0));
    var favorable := enableAdverse && ((o.side == "BUY" && priceMove > 0.0) || (o.side != "BUY" && priceMove < 0.0));
    var p3 := if adverse then p2 * AdverseMultiplier else if favorable then p2 * FavorableMultiplier else p2;
    PositiveScale(p1, c);
    (MinR(1.0, p3), adverse)
  }

  lemma PositiveScale(p: real, c: real)
    requires p > 0.0 && 0.0 <= c <= 1.0
    ensures p * (0.2 + c * 0.8) > 0.0
  {
    assert 0.2 + c * 0.8 > 0.0;
  }

  // ---------------------------------------------------------------------
  // Cancels and queries
  // ---------------------------------------------------------------------

  /** `cancel_order`: a known live order becomes CANCELLED and is counted;
      anything else is refused and changes nothing. */
  function CancelOrder(s: Sim, orderId: string): (r: (Sim, bool))
    ensures r.1 <==> Get(s.orders, orderId).Some? && IsLive(Get(s.orders, orderId).value)
    ensures !r.1 ==> r.0 == s
    ensures r.1 ==> Get(r.0.orders, orderId) == Some(Get(s.orders, orderId).value.(status := CancelledStatus))
    ensures r.1 ==> r.0.stats.ordersCancelled == s.stats.ordersCancelled + 1
    ensures forall k :: k != orderId ==> Get(r.0.orders, k) == Get(s.orders, k)
  {
    match Get(s.orders, orderId)
    case Some(o) =>
      if IsLive(o) then
        var o1 := o.(status := CancelledStatus);
        forall k ensures Get(Put(s.orders, orderId, o1), k) == if k == orderId then Some(o1) else Get(s.orders, k) {
          GetPut(s.orders, orderId, o1, k);
        }
        (s.(orders := Put(s.orders, orderId, o1),
            stats := s.stats.(ordersCancelled := s.stats.ordersCancelled + 1)), true)
      else (s, false)
    case None => (s, false)
  }

  /** A second cancel of the same order is refused and changes nothing. */
  lemma CancelTwice(s: Sim, orderId: string)
    ensures !CancelOrder(CancelOrder(s, orderId).0, orderId).1
    ensures CancelOrder(CancelOrder(s, orderId).0, orderId).0 == CancelOrder(s, orderId).0
  {
  }

  /** The token filter of `cancel_all_orders`: only None selects all; an
      empty string selects the orders whose token is empty. */
  predicate TokenMatches(token: Option<string>, o: SimOrder)
  {
    token.None? || o.tokenId == token.value
  }

  /** The live orders the token filter selects, in order. */
  function LiveMatching(os: seq<SimOrder>, token: Option<string>): (r: seq<SimOrder>)
    ensures forall o :: o in r <==> o in os && IsLive(o) && TokenMatches(token, o)
  {
    if |os| == 0 then []
    else
      var rest := LiveMatching(os[1..], token);
      assert forall o :: o in os <==> o == os[0] || o in os[1..];
      if IsLive(os[0]) && TokenMatches(token, os[0]) then [os[0]] + rest else rest
  }

  /** An order after a cancel-all: a live order the token selects becomes
      CANCELLED; any other order is left as it is. */
  function CancelIfLive(token: Option<string>, o: SimOrder): (r: SimOrder)
    ensures IsLive(r) ==> !TokenMatches(token, o)
    ensures r == o || r == o.(status := CancelledStatus)
  {
    if IsLive(o) && TokenMatches(token, o) then o.(status := CancelledStatus) else o
  }

  /** The loop of `cancel_all_orders`, with the number cancelled. */
  function CancelMatching(d: Dict<SimOrder>, token: Option<string>): (r: (Dict<SimOrder>, nat))
    ensures |r.0| == |d|
    ensures forall i :: 0 <= i < |d| ==> r.0[i] == (d[i].0, CancelIfLive(token, d[i].1))
  {
    if |d| == 0 then ([], 0)
    else
      var rest := CancelMatching(d[1..], token);
      var hit := IsLive(d[0].1) && TokenMatches(token, d[0].1);
      ([(d[0].0, CancelIfLive(token, d[0].1))] + rest.0, (if hit then 1 else 0) + rest.1)
  }

  /** The number cancelled is the number of live orders the token
      selects. */
  lemma {:induction false} CancelMatchingCounts(d: Dict<SimOrder>, token: Option<string>)
    ensures CancelMatching(d, token).1 == |LiveMatching(Values(d), token)|
  {
    if |d| > 0 {
      CancelMatchingCounts(d[1..], token);
      assert Values(d)[1..] == Values(d[1..]);
    }
  }

  /** `cancel_all_orders`: every live order of the selected tokens is
      CANCELLED, nothing else changes; the result is how many there were. */
  function CancelAll(s: Sim, token: Option<string>): (r: (Sim, nat))
    ensures r.1 == |LiveMatching(Values(s.orders), token)|
    ensures r.0.stats.ordersCancelled == s.stats.ordersCancelled + r.1
    ensures Keys(r.0.orders) == Keys(s.orders)
    ensures forall i :: 0 <= i < |s.orders| ==>
      r.0.orders[i].1 == if IsLive(s.orders[i].1) && TokenMatches(token, s.orders[i].1)
        then s.orders[i].1.(status := CancelledStatus) else s.orders[i].1
  {
    var c := CancelMatching(s.orders, token);
    CancelMatchingCounts(s.orders, token);
    assert Keys(c.0) == Keys(s.orders);
    (s.(orders := c.0, stats := s.stats.(ordersCancelled := s.stats.ordersCancelled + c.1)), c.1)
  }

  /** The status filter of `get_orders`: "LIVE" also admits PARTIAL
      orders; any other status must match exactly. */
  predicate StatusMatches(status: string, o: SimOrder)
  {
    if status == LiveStatus then IsLive(o) else o.status == status
  }

  /** The token filter of `get_orders`: a falsy token selects all. */
  predicate TokenSelected(token: Option<string>, o: SimOrder)
  {
    token.None? || token.value == "" || o.tokenId == token.value
  }

  function Select(os: seq<SimOrder>, token: Option<string>, status: string): (r: seq<SimOrder>)
    ensures forall o :: o in r <==> o in os && StatusMatches(status, o) && TokenSelected(token, o)
  {
    if |os| == 0 then []
    else
      var rest := Select(os[1..], token, status);
      assert forall o :: o in os <==> o == os[0] || o in os[1..];
      if StatusMatches(status, os[0]) && TokenSelected(token, os[0]) then [os[0]] + rest else rest
  }

  /** `get_orders`: the orders passing both filters, in insertion order. */
  function GetOrders(s: Sim, token: Option<string>, status: string): (r: seq<SimOrder>)
    ensures forall o :: o in r <==> o in Values(s.orders) && StatusMatches(status, o) && TokenSelected(token, o)
  {
    Select(Values(s.orders), token, status)
  }

  /** The count `cancel_all_orders` returns is the number of orders the
      live query reported for that token just before, whenever the two
      token filters agree (None, or a non-empty token). */
  lemma {:induction false} CancelAllCountsLiveOrders(s: Sim, token: Option<string>)
    requires token.None? || token.value != ""
    ensures CancelAll(s, token).1 == |GetOrders(s, token, LiveStatus)|
  {
    SameSelection(Values(s.orders), token);
  }

  lemma {:induction false} SameSelection(os: seq<SimOrder>, token: Option<string>)
    requires token.None? || token.value != ""
    ensures LiveMatching(os, token) == Select(os, token, LiveStatus)
  {
    if |os| > 0 {
      SameSelection(os[1..], token);
    }
  }

  /** After a cancel-all, the live query for the same token is empty. */
  lemma CancelAllLeavesNoneLive(s: Sim, token: Option<string>)
    requires token.None? || token.value != ""
    ensures GetOrders(CancelAll(s, token).0, token, LiveStatus) == []
  {
    var r := CancelAll(s, token).0;
    SelectNone(Values(r.orders), token, LiveStatus);
  }

  lemma {:induction false} SelectNone(os: seq<SimOrder>, token: Option<string>, status: string)
    requires forall i :: 0 <= i < |os| ==> !(StatusMatches(status, os[i]) && TokenSelected(token, os[i]))
    ensures Select(os, token, status) == []
  {
    if |os| > 0 {
      SelectNone(os[1..], token, status);
    }
  }

  /** `get_trades`: the last `limit` trades (all of them for 0). */
  function GetTrades(s: Sim, limit: int): (r: seq<SimTrade>)
    ensures limit > 0 ==> |r| == if limit < |s.trades| then limit else |s.trades|
    ensures exists k :: 0 <= k <= |s.trades| && r == s.trades[k..]
  {
    PyTail(s.trades, limit)
  }
}

=== FILE: quotes.dfy ===
/**
 Quote generation (`src/quote_engine.py`): fair value, spread and
 inventory skew clamped to configured bounds, a ladder of bid and ask
 levels rounded to the 0.01 tick, the go/no-go decision, the
 adverse-selection factor, and the price-history part of the smart engine.
 */
module Quotes {
  import opened Common
  import opened Book

  datatype QuoteConfig = QuoteConfig(
    baseSpread: real, minSpread: real, maxSpread: real,
    minPrice: real, maxPrice: real,
    numLevels: nat, levelSpacing: real, defaultSize: real,
    skewThreshold: int, useWeightedMid: bool)

  /** The constructor defaults. */
  function DefaultQuoteConfig(): QuoteConfig
  {
    QuoteConfig(0.02, 0.01, 0.10, 0.05, 0.95, 3, 0.01, 20.0, 100, true)
  }

  datatype Quote = Quote(price: real, size: real, side: Side)

  datatype QuoteSet = QuoteSet(tokenId: string, bids: seq<Quote>, asks: seq<Quote>,
                               fairValue: real, spread: real)

  // ---------------------------------------------------------------------
  // Fair value
  // ---------------------------------------------------------------------

  /** The book price fair value starts from: the weighted mid over three
      levels when configured and available, else the plain mid. */
  function BasePrice(cfg: QuoteConfig, b: OrderBook): (r: Option<real>)
    ensures Truthy(MidPrice(b)) ==> r.Some?
    ensures r.Some? ==> r == WeightedMid(b, 3) || r == MidPrice(b)
  {
    var w := if cfg.useWeightedMid then WeightedMid(b, 3) else MidPrice(b);
    if w.None? then MidPrice(b) else w
  }

  /** Inventory lean of the fair value: `inventory * 0.0001`, applied only
      past the skew threshold. */
  function FairValueLean(cfg: QuoteConfig, inv: int): real
  {
    if IAbs(inv) > cfg.skewThreshold then inv as real * 0.0001 else 0.0
  }

  /** `calculate_fair_value`: None without a truthy mid price; otherwise
      the base price less the inventory lean, clamped to the price band. */
  function FairValue(cfg: QuoteConfig, b: Option<OrderBook>, inv: int): (r: Option<real>)
    ensures r.None? <==> b.None? || !Truthy(MidPrice(b.value))
    ensures r.Some? ==> cfg.minPrice <= r.value
    ensures r.Some? && cfg.minPrice <= cfg.maxPrice ==> r.value <= cfg.maxPrice
    ensures r.Some? ==> r.value == Clamp(cfg.minPrice, cfg.maxPrice, BasePrice(cfg, b.value).value - FairValueLean(cfg, inv))
  {
    if b.None? || !Truthy(MidPrice(b.value)) then None
    else
      var fv := BasePrice(cfg, b.value).value;
      Some(Clamp(cfg.minPrice, cfg.maxPrice, fv - FairValueLean(cfg, inv)))
  }

  lemma ClampMonotone(lo: real, hi: real, x: real, y: real)
    requires x <= y
    ensures Clamp(lo, hi, x) <= Clamp(lo, hi, y)
  {
  }

  /** Inventory within the threshold leaves the fair value where a flat
      book-holder would put it; a long past the threshold never raises it
      and a short past the threshold never lowers it. */
  lemma FairValueLeansAgainstInventory(cfg: QuoteConfig, b: Option<OrderBook>, inv: int)
    requires cfg.skewThreshold >= 0
    ensures IAbs(inv) <= cfg.skewThreshold ==> FairValue(cfg, b, inv) == FairValue(cfg, b, 0)
    ensures FairValue(cfg, b, inv).Some? && inv > cfg.skewThreshold ==>
      FairValue(cfg, b, inv).value <= FairValue(cfg, b, 0).value
    ensures FairValue(cfg, b, inv).Some? && inv < -cfg.skewThreshold ==>
      FairValue(cfg, b, inv).value >= FairValue(cfg, b, 0).value
  {
    if FairValue(cfg, b, inv).Some? {
      var base := BasePrice(cfg, b.value).value;
      assert FairValueLean(cfg, 0) == 0.0;
      if inv > cfg.skewThreshold {
        ClampMonotone(cfg.minPrice, cfg.maxPrice, base - FairValueLean(cfg, inv), base);
      }
      if inv < -cfg.skewThreshold {
        ClampMonotone(cfg.minPrice, cfg.maxPrice, base, base - FairValueLean(cfg, inv));
      }
    }
  }

  // ---------------------------------------------------------------------
  // Spread
  // ---------------------------------------------------------------------

  /** Widening for a large inventory: `1 + |inv| / (4 * threshold)` past
      the threshold, 1 otherwise. */
  function InventoryFactor(cfg: QuoteConfig, inv: int): (f: real)
    requires IAbs(inv) > cfg.skewThreshold ==> cfg.skewThreshold != 0
    ensures IAbs(inv) <= cfg.skewThreshold ==> f == 1.0
    ensures cfg.skewThreshold > 0 ==> f >= 1.0
  {
    if IAbs(inv) > cfg.skewThreshold then
      DivNonNeg(IAbs(inv) as real, (cfg.skewThreshold * 4) as real);
      1.0 + IAbs(inv) as real / (cfg.skewThreshold * 4) as real
    else 1.0
  }

  lemma DivNonNeg(a: real, d: real)
    requires d != 0.0
    ensures a >= 0.0 && d > 0.0 ==> a / d >= 0.0
  {
  }

  /** Widening near expiry: `1 + 1 / max(1, hours / 12)` under 48 hours,
      1 otherwise or when the expiry is unknown. It never exceeds 2. */
  function ExpiryFactor(hours: Option<real>): (f: real)
    ensures hours.None? || hours.value >= 48.0 ==> f == 1.0
    ensures hours.Some? && hours.value < 48.0 ==> 1.0 < f <= 2.0
  {
    if hours.Some? && hours.value < 48.0 then
      var d := MaxR(1.0, hours.value / 12.0);
      InverseAtMostOne(d);
      1.0 + 1.0 / d
    else 1.0
  }

  lemma InverseAtMostOne(d: real)
    requires d >= 1.0
    ensures 0.0 < 1.0 / d <= 1.0
  {
    assert 1.0 / d * d == 1.0;
  }

  /** The book is thin when the top five levels of either side hold less
      than 100 shares. */
  predicate ThinBook(b: OrderBook)
  {
    SumSizes(Prefix(b.bids, 5)) < 100.0 || SumSizes(Prefix(b.asks, 5)) < 100.0
  }

  function DepthFactor(b: Option<OrderBook>): (f: real)
    ensures f == 1.5 <==> b.Some? && ThinBook(b.value)
    ensures f == 1.0 || f == 1.5
  {
    if b.Some? && ThinBook(b.value) then 1.5 else 1.0
  }

  /** `calculate_spread`: the base spread scaled by volatility, inventory,
      expiry, book depth and adverse selection, then clamped. Whatever the
      factors, the result is at least `min_spread`, and at most
      `max_spread` whenever the bounds are ordered. */
  function Spread(cfg: QuoteConfig, adverse: real, b: Option<OrderBook>, inv: int,
                  vol: real, hours: Option<real>): (r: real)
    requires IAbs(inv) > cfg.skewThreshold ==> cfg.skewThreshold != 0
    ensures cfg.minSpread <= r
    ensures cfg.minSpread <= cfg.maxSpread ==> r <= cfg.maxSpread
    ensures r == Clamp(cfg.minSpread, cfg.maxSpread, RawSpread(cfg, adverse, b, inv, vol, hours))
  {
    var s0 := cfg.baseSpread * vol;
    var s1 := s0 * InventoryFactor(cfg, inv);
    var s2 := s1 * ExpiryFactor(hours);
    var s3 := s2 * DepthFactor(b);
    var s4 := s3 * adverse;
    assert s4 == RawSpread(cfg, adverse, b, inv, vol, hours);
    Clamp(cfg.minSpread, cfg.maxSpread, s4)
  }

  /** The unclamped spread as one product of its five factors. */
  function RawSpread(cfg: QuoteConfig, adverse: real, b: Option<OrderBook>, inv: int,
                     vol: real, hours: Option<real>): real
    requires IAbs(inv) > cfg.skewThreshold ==> cfg.skewThreshold != 0
  {
    cfg.baseSpread * vol * InventoryFactor(cfg, inv) * ExpiryFactor(hours) * DepthFactor(b) * adverse
  }

  /** A thin book (the only book-dependent factor) widens the unclamped
      spread by exactly half. */
  lemma ThinBookWidens(cfg: QuoteConfig, adverse: real, b: OrderBook, inv: int, vol: real, hours: Option<real>)
    requires IAbs(inv) > cfg.skewThreshold ==> cfg.skewThreshold != 0
    ensures ThinBook(b) ==> RawSpread(cfg, adverse, Some(b), inv, vol, hours) == 1.5 * RawSpread(cfg, adverse, None, inv, vol, hours)
    ensures !ThinBook(b) ==> RawSpread(cfg, adverse, Some(b), inv, vol, hours) == RawSpread(cfg, adverse, None, inv, vol, hours)
  {
  }

  // ---------------------------------------------------------------------
  // Inventory skew
  // ---------------------------------------------------------------------

  /** `calculate_inventory_skew`: (0, 0) within the threshold; beyond it
      both prices move by `-(inv / threshold) * 0.005`, so a long lowers
      both quotes and a short raises them. */
  function InventorySkew(cfg: QuoteConfig, inv: int): (r: (real, real))
    requires IAbs(inv) > cfg.skewThreshold ==> cfg.skewThreshold != 0
    ensures IAbs(inv) <= cfg.skewThreshold ==> r == (0.0, 0.0)
    ensures IAbs(inv) > cfg.skewThreshold ==> r.0 == r.1 == -(inv as real / cfg.skewThreshold as real) * 0.005
    ensures cfg.skewThreshold > 0 && inv > cfg.skewThreshold ==> r.0 < 0.0
    ensures cfg.skewThreshold > 0 && inv < -cfg.skewThreshold ==> r.0 > 0.0
  {
    if IAbs(inv) <= cfg.skewThreshold then (0.0, 0.0)
    else
      var m := inv as real / cfg.skewThreshold as real;
      SignOfRatio(inv as real, cfg.skewThreshold as real);
      (-(m * 0.005), -(m * 0.005))
  }

  lemma SignOfRatio(a: real, d: real)
    requires d != 0.0
    ensures d > 0.0 && a > 0.0 ==> a / d > 0.0
    ensures d > 0.0 && a < 0.0 ==> a / d < 0.0
  {
    assert a / d * d == a;
  }

  // ---------------------------------------------------------------------
  // Tick rounding
  // ---------------------------------------------------------------------

  /** A price on the 0.01 tick grid. */
  predicate OnTick(p: real)
  {
    (p * 100.0).Floor as real == p * 100.0
  }

  /** `_round_price`: `(p * 100).quantize(1) / 100`, half-even. The result
      is on the tick grid and within half a tick of `p`. */
  function RoundPrice(p: real): (r: real)
    ensures OnTick(r)
    ensures -0.005 <= p - r <= 0.005
  {
    var n := RoundHalfEven(p * 100.0);
    TickOfInt(n);
    n as real / 100.0
  }

  lemma TickOfInt(n: int)
    ensures (n as real / 100.0) * 100.0 == n as real
    ensures OnTick(n as real / 100.0)
  {
    assert (n as real / 100.0) * 100.0 == n as real;
    assert (n as real).Floor == n;
  }

  /** Rounding to the grid is idempotent. */
  lemma RoundPriceIdempotent(p: real)
    ensures RoundPrice(RoundPrice(p)) == RoundPrice(p)
  {
    var n := RoundHalfEven(p * 100.0);
    TickOfInt(n);
    assert RoundPrice(p) * 100.0 == n as real;
    assert (n as real).Floor == n;
    assert RoundHalfEven(n as real) == n;
  }

  lemma {:induction false} RoundHalfEvenMonotone(x: real, y: real)
    requires x <= y
    ensures RoundHalfEven(x) <= RoundHalfEven(y)
  {
    if x.Floor < y.Floor {
      assert RoundHalfEven(x) <= x.Floor + 1;
      assert y.Floor <= RoundHalfEven(y);
    }
  }

  /** Rounding to the grid preserves order. */
  lemma RoundPriceMonotone(x: real, y: real)
    requires x <= y
    ensures RoundPrice(x) <= RoundPrice(y)
  {
    RoundHalfEvenMonotone(x * 100.0, y * 100.0);
  }

  /** Half-even rounding can put two prices a tick apart on the same tick:
      0.485 and 0.475 both round to 0.48. */
  lemma AdjacentTicksCanCollide()
    ensures RoundPrice(0.485) == RoundPrice(0.475) == 0.48
  {
    assert (48.5).Floor == 48;
    assert (47.5).Floor == 47;
  }

  // ---------------------------------------------------------------------
  // The quote ladder
  // ---------------------------------------------------------------------

  /** Everything a ladder level depends on. */
  datatype LadderParams = LadderParams(fairValue: real, halfSpread: real, spacing: real,
                                       bidSkew: real, askSkew: real, size: real,
                                       minPrice: real, maxPrice: real)

  /** Size at ladder level `k`: 20% smaller per level, never below 5. */
  function LevelSize(size: real, k: nat): (s: real)
    ensures s >= 5.0
    ensures s == 5.0 || s == size * (1.0 - k as real * 0.2)
  {
    MaxR(5.0, size * (1.0 - k as real * 0.2))
  }

  /** Rounded price of level `k` on a side: bids step down from
      `fair - half + skew`, asks step up from `fair + half + skew`. */
  function LevelPrice(lp: LadderParams, side: Side, k: nat): (p: real)
    ensures OnTick(p)
    ensures -0.005 <= LevelTarget(lp, side, k) - p <= 0.005
  {
    RoundPrice(LevelTarget(lp, side, k))
  }

  /** Unrounded price of level `k`. */
  function LevelTarget(lp: LadderParams, side: Side, k: nat): real
  {
    if side == Buy then lp.fairValue - lp.halfSpread - k as real * lp.spacing + lp.bidSkew
    else lp.fairValue + lp.halfSpread + k as real * lp.spacing + lp.askSkew
  }

  /** A level is quoted when its price stays inside the band: bids at or
      above the minimum price, asks at or below the maximum. */
  predicate InBand(lp: LadderParams, side: Side, p: real)
  {
    if side == Buy then p >= lp.minPrice else p <= lp.maxPrice
  }

  function LevelQuote(lp: LadderParams, side: Side, k: nat): Quote
  {
    Quote(LevelPrice(lp, side, k), LevelSize(lp.size, k), side)
  }

  /** Quotes of levels `0 .. n-1` on one side, skipping out-of-band
      prices. Exactly the in-band levels appear, in level order. */
  function Ladder(lp: LadderParams, side: Side, n: nat): (qs: seq<Quote>)
    ensures |qs| <= n
    ensures forall i :: 0 <= i < |qs| ==>
      qs[i].side == side && InBand(lp, side, qs[i].price) && OnTick(qs[i].price) && qs[i].size >= 5.0
  {
    if n == 0 then []
    else
      var q := LevelQuote(lp, side, n - 1);
      Ladder(lp, side, n - 1) + (if InBand(lp, side, q.price) then [q] else [])
  }

  /** The ladder holds exactly the in-band levels: every in-band level's
      quote is in it, and every quote in it is some level's quote. */
  lemma {:induction false} LadderContents(lp: LadderParams, side: Side, n: nat)
    ensures forall k :: 0 <= k < n && InBand(lp, side, LevelPrice(lp, side, k)) ==> LevelQuote(lp, side, k) in Ladder(lp, side, n)
    ensures forall q :: q in Ladder(lp, side, n) ==> exists k :: 0 <= k < n && q == LevelQuote(lp, side, k)
  {
    if n > 0 {
      LadderContents(lp, side, n - 1);
      var q := LevelQuote(lp, side, n - 1);
      var prev := Ladder(lp, side, n - 1);
      assert Ladder(lp, side, n) == prev + (if InBand(lp, side, q.price) then [q] else []);
    }
  }

  /** Quote prices in ladder order on a side: bids never increase, asks
      never decrease. */
  predicate QuotesOrdered(side: Side, qs: seq<Quote>)
  {
    forall i, j :: 0 <= i < j < |qs| ==> Before(side, qs[i].price, qs[j].price)
  }

  lemma OrderedAppend(side: Side, qs: seq<Quote>, x: Quote)
    requires QuotesOrdered(side, qs)
    requires forall i :: 0 <= i < |qs| ==> Before(side, qs[i].price, x.price)
    ensures QuotesOrdered(side, qs + [x])
  {
    var r := qs + [x];
    forall i, j | 0 <= i < j < |r| ensures Before(side, r[i].price, r[j].price) {
      if j < |qs| {
        assert r[i] == qs[i] && r[j] == qs[j];
      }
    }
  }

  /** Ladder prices move away from the fair value: with a non-negative
      spacing, bids never increase and asks never decrease along the
      ladder. */
  lemma {:induction false} LadderOrdered(lp: LadderParams, side: Side, n: nat)
    ensures lp.spacing >= 0.0 ==> QuotesOrdered(side, Ladder(lp, side, n))
  {
    if lp.spacing >= 0.0 && n > 0 {
      LadderOrdered(lp, side, n - 1);
      LadderStepOrdered(lp, side, n);
    }
  }

  /** One more level keeps an ordered ladder ordered. */
  lemma LadderStepOrdered(lp: LadderParams, side: Side, n: nat)
    requires lp.spacing >= 0.0 && n > 0
    requires QuotesOrdered(side, Ladder(lp, side, n - 1))
    ensures QuotesOrdered(side, Ladder(lp, side, n))
  {
    var prev := Ladder(lp, side, n - 1);
    var q := LevelQuote(lp, side, n - 1);
    if InBand(lp, side, q.price) {
      assert Ladder(lp, side, n) == prev + [q];
      LadderBefore(lp, side, n - 1, n - 1);
      OrderedAppend(side, prev, q);
    } else {
      assert Ladder(lp, side, n) == prev;
    }
  }

  /** Every quote among the first `n` levels may stand before the price of
      any level `j >= n`. */
  lemma {:induction false} LadderBefore(lp: LadderParams, side: Side, n: nat, j: nat)
    requires lp.spacing >= 0.0 && n <= j
    ensures forall i :: 0 <= i < |Ladder(lp, side, n)| ==>
      Before(side, Ladder(lp, side, n)[i].price, LevelPrice(lp, side, j))
  {
    if n > 0 {
      LadderBefore(lp, side, n - 1, j);
      LevelPriceMonotone(lp, side, n - 1, j);
      var prev := Ladder(lp, side, n - 1);
      var q := LevelQuote(lp, side, n - 1);
      var qs := Ladder(lp, side, n);
      assert qs == prev + (if InBand(lp, side, q.price) then [q] else []);
      forall i | 0 <= i < |qs|
        ensures Before(side, qs[i].price, LevelPrice(lp, side, j))
      {
        if i < |prev| {
          assert qs[i] == prev[i];
        }
      }
    }
  }

  lemma LevelPriceMonotone(lp: LadderParams, side: Side, k: nat, j: nat)
    requires lp.spacing >= 0.0 && k <= j
    ensures Before(side, LevelPrice(lp, side, k), LevelPrice(lp, side, j))
  {
    LevelTargetMonotone(lp, side, k, j);
    if side == Buy {
      RoundPriceMonotone(LevelTarget(lp, side, j), LevelTarget(lp, side, k));
    } else {
      RoundPriceMonotone(LevelTarget(lp, side, k), LevelTarget(lp, side, j));
    }
  }

  lemma LevelTargetMonotone(lp: LadderParams, side: Side, k: nat, j: nat)
    requires lp.spacing >= 0.0 && k <= j
    ensures Before(side, LevelTarget(lp, side, k), LevelTarget(lp, side, j))
  {
    MulMonotone(k as real, j as real, lp.spacing);
  }

  lemma MulMonotone(a: real, b: real, c: real)
    requires a <= b && c >= 0.0
    ensures a * c <= b * c
  {
    assert (b - a) * c >= 0.0;
  }

  /** With the default configuration, a fair value of 0.50 and a spread
      of 0.03 (the base spread widened for a thin book) put the first two
      bid levels on the same tick. */
  lemma DefaultLadderCollides()
    ensures var lp := LadderParams(0.5, 0.015, 0.01, 0.0, 0.0, 20.0, 0.05, 0.95);
      var qs := Ladder(lp, Buy, 2);
      |qs| == 2 && qs[0].price == qs[1].price == 0.48 && qs[0].size != qs[1].size
  {
    var lp := LadderParams(0.5, 0.015, 0.01, 0.0, 0.0, 20.0, 0.05, 0.95);
    AdjacentTicksCanCollide();
    assert LevelTarget(lp, Buy, 0) == 0.485;
    assert LevelTarget(lp, Buy, 1) == 0.475;
  }

  // ---------------------------------------------------------------------
  // calculate_quotes
  // ---------------------------------------------------------------------

  /** Order size: the override when truthy, else the default size. */
  function QuoteSize(cfg: QuoteConfig, sizeOverride: Option<real>): (s: real)
    ensures Truthy(sizeOverride) ==> s == sizeOverride.value
    ensures !Truthy(sizeOverride) ==> s == cfg.defaultSize
  {
    if Truthy(sizeOverride) then sizeOverride.value else cfg.defaultSize
  }

  /** `calculate_quotes`: None exactly when there is no fair value;
      otherwise at most `num_levels` quotes per side, bids at or above the
      minimum price and asks at or below the maximum, all on the tick
      grid, each of at least 5 shares, and laddered away from the fair
      value. */
  function CalculateQuotes(cfg: QuoteConfig, adverse: real, token: string, b: Option<OrderBook>,
                           inv: int, vol: real, hours: Option<real>, sizeOverride: Option<real>): (r: Option<QuoteSet>)
    requires IAbs(inv) > cfg.skewThreshold ==> cfg.skewThreshold != 0
    ensures r.None? <==> FairValue(cfg, b, inv).None?
    ensures r.Some? ==> r.value.fairValue == FairValue(cfg, b, inv).value
    ensures r.Some? ==> r.value.spread == Spread(cfg, adverse, b, inv, vol, hours)
    ensures r.Some? ==> |r.value.bids| <= cfg.numLevels && |r.value.asks| <= cfg.numLevels
    ensures r.Some? ==> forall i :: 0 <= i < |r.value.bids| ==>
      r.value.bids[i].side == Buy && r.value.bids[i].price >= cfg.minPrice && OnTick(r.value.bids[i].price) && r.value.bids[i].size >= 5.0
    ensures r.Some? ==> forall i :: 0 <= i < |r.value.asks| ==>
      r.value.asks[i].side == Sell && r.value.asks[i].price <= cfg.maxPrice && OnTick(r.value.asks[i].price) && r.value.asks[i].size >= 5.0
    ensures r.Some? && cfg.levelSpacing >= 0.0 ==>
      QuotesOrdered(Buy, r.value.bids) && QuotesOrdered(Sell, r.value.asks)
  {
    var fv := FairValue(cfg, b, inv);
    if fv.None? then None
    else
      var spread := Spread(cfg, adverse, b, inv, vol, hours);
      var skew := InventorySkew(cfg, inv);
      var lp := LadderParams(fv.value, spread / 2.0, cfg.levelSpacing, skew.0, skew.1,
                             QuoteSize(cfg, sizeOverride), cfg.minPrice, cfg.maxPrice);
      var bids := Ladder(lp, Buy, cfg.numLevels);
      var asks := Ladder(lp, Sell, cfg.numLevels);
      LadderOrdered(lp, Buy, cfg.numLevels);
      LadderOrdered(lp, Sell, cfg.numLevels);
      Some(QuoteSet(token, bids, asks, fv.value, spread))
  }

  /** `calculate_expected_pnl`: zero unless both sides are quoted;
      otherwise half the spread times the fill probability times the
      average top-level size. */
  function ExpectedPnl(qs: QuoteSet, fillProbability: real): (r: real)
    ensures |qs.bids| == 0 || |qs.asks| == 0 ==> r == 0.0
    ensures (|qs.bids| > 0 && |qs.asks| > 0 && qs.spread >= 0.0 && fillProbability >= 0.0
             && qs.bids[0].size + qs.asks[0].size >= 0.0) ==> r >= 0.0
  {
    if |qs.bids| == 0 || |qs.asks| == 0 then 0.0
    else
      var profit := (qs.spread / 2.0) * fillProbability;
      var avgSize := (qs.bids[0].size + qs.asks[0].size) / 2.0;
      MulNonNeg(qs.spread / 2.0, fillProbability);
      MulNonNeg(profit, avgSize);
      profit * avgSize
  }

  lemma MulNonNeg(a: real, b: real)
    ensures a >= 0.0 && b >= 0.0 ==> a * b >= 0.0
  {
  }

  // ---------------------------------------------------------------------
  // should_quote
  // ---------------------------------------------------------------------

  datatype QuoteDecision = QuoteDecision(quote: bool, reason: string)

  /** `should_quote`: no truthy mid stops quoting; an inventory at the
      limit keeps quoting (the reason names the side to block); otherwise
      quoting stops within an hour of expiry or with a mid outside
      [0.02, 0.98]. */
  function ShouldQuote(b: Option<OrderBook>, inv: int, maxInventory: int, hours: Option<real>): (r: QuoteDecision)
    ensures r.quote <==>
      b.Some? && Truthy(MidPrice(b.value)) &&
      (IAbs(inv) >= maxInventory ||
       ((hours.None? || hours.value >= 1.0) && 0.02 <= MidPrice(b.value).value <= 0.98))
    ensures b.Some? && Truthy(MidPrice(b.value)) && IAbs(inv) >= maxInventory ==>
      r.reason == "Inventory limit - blocking " + (if inv > 0 then "BUY" else "SELL")
  {
    if b.None? || !Truthy(MidPrice(b.value)) then QuoteDecision(false, "No orderbook data")
    else if IAbs(inv) >= maxInventory then
      QuoteDecision(true, "Inventory limit - blocking " + (if inv > 0 then "BUY" else "SELL"))
    else if hours.Some? && hours.value < 1.0 then QuoteDecision(false, "Too close to expiry")
    else
      var mid := MidPrice(b.value).value;
      if mid < 0.02 || mid > 0.98 then QuoteDecision(false, "Price near resolution bounds")
      else QuoteDecision(true, "OK")
  }

  // ---------------------------------------------------------------------
  // Adverse selection
  // ---------------------------------------------------------------------

  /** A recent trade as the flow analysis sees it. */
  datatype FlowTrade = FlowTrade(time: real, side: Side, size: real)

  datatype FlowState = FlowState(recent: seq<FlowTrade>, factor: real)

  const FlowWindowSeconds: real := 300.0

  function KeepRecent(ts: seq<FlowTrade>, cutoff: real): (r: seq<FlowTrade>)
    ensures |r| <= |ts|
    ensures forall t :: t in r <==> t in ts && t.time > cutoff
  {
    if |ts| == 0 then []
    else if ts[0].time > cutoff then [ts[0]] + KeepRecent(ts[1..], cutoff)
    else KeepRecent(ts[1..], cutoff)
  }

  function SideVolume(ts: seq<FlowTrade>, side: Side): real
  {
    if |ts| == 0 then 0.0
    else (if ts[0].side == side then ts[0].size else 0.0) + SideVolume(ts[1..], side)
  }

  predicate NonNegativeSizes(ts: seq<FlowTrade>)
  {
    forall i :: 0 <= i < |ts| ==> ts[i].size >= 0.0
  }

  lemma {:induction false} SideVolumeNonNeg(ts: seq<FlowTrade>, side: Side)
    requires NonNegativeSizes(ts)
    ensures SideVolume(ts, side) >= 0.0
  {
    if |ts| > 0 {
      assert NonNegativeSizes(ts[1..]) by {
        forall i | 0 <= i < |ts[1..]| ensures ts[1..][i].size >= 0.0 {
          assert ts[1..][i] == ts[i + 1];
        }
      }
      SideVolumeNonNeg(ts[1..], side);
    }
  }

  /** `update_adverse_selection` at time `now`: an empty batch changes
      nothing; otherwise the batch joins the window, trades older than five
      minutes drop out, and the factor becomes 1.0 with fewer than five
      trades and `1 + 0.5 * |buy - sell| / total` otherwise (unchanged
      when the total volume is zero). */
  function UpdateAdverseSelection(st: FlowState, now: real, batch: seq<FlowTrade>): (r: FlowState)
    ensures |batch| == 0 ==> r == st
    ensures |batch| > 0 ==> r.recent == KeepRecent(st.recent + batch, now - FlowWindowSeconds)
    ensures |batch| > 0 && |r.recent| < 5 ==> r.factor == 1.0
    ensures |batch| > 0 && |r.recent| >= 5 ==>
      var b := SideVolume(r.recent, Buy);
      var s := SideVolume(r.recent, Sell);
      (b + s > 0.0 ==> r.factor == 1.0 + Abs(b - s) / (b + s) * 0.5) &&
      (b + s <= 0.0 ==> r.factor == st.factor)
    ensures 1.0 <= st.factor <= 1.5 && NonNegativeSizes(st.recent + batch) ==> 1.0 <= r.factor <= 1.5
  {
    if |batch| == 0 then st
    else
      var recent := KeepRecent(st.recent + batch, now - FlowWindowSeconds);
      if |recent| < 5 then FlowState(recent, 1.0)
      else
        var buy := SideVolume(recent, Buy);
        var sell := SideVolume(recent, Sell);
        var total := buy + sell;
        KeptSizesNonNeg(st.recent + batch, now - FlowWindowSeconds);
        if total > 0.0 then
          ImbalanceRatioBounded(buy, sell);
          FlowState(recent, 1.0 + Abs(buy - sell) / total * 0.5)
        else FlowState(recent, st.factor)
  }

  /** Every trade of `ts` is on `side`. */
  predicate AllOnSide(ts: seq<FlowTrade>, side: Side)
  {
    forall i :: 0 <= i < |ts| ==> ts[i].side == side
  }

  /** A window all on one side has no volume on the other. */
  lemma {:induction false} OtherSideEmpty(ts: seq<FlowTrade>, side: Side, other: Side)
    requires AllOnSide(ts, side) && other != side
    ensures SideVolume(ts, other) == 0.0
  {
    if |ts| > 0 {
      assert AllOnSide(ts[1..], side) by {
        forall i | 0 <= i < |ts[1..]| ensures ts[1..][i].side == side {
          assert ts[1..][i] == ts[i + 1];
        }
      }
      OtherSideEmpty(ts[1..], side, other);
    }
  }

  /** Flow that is entirely one-sided, with positive volume, widens the
      spread the most: the factor becomes exactly 1.5. */
  lemma OneSidedFlowWidensMost(st: FlowState, now: real, batch: seq<FlowTrade>, side: Side)
    requires |batch| > 0
    requires |KeepRecent(st.recent + batch, now - FlowWindowSeconds)| >= 5
    requires AllOnSide(KeepRecent(st.recent + batch, now - FlowWindowSeconds), side)
    requires SideVolume(KeepRecent(st.recent + batch, now - FlowWindowSeconds), side) > 0.0
    ensures UpdateAdverseSelection(st, now, batch).factor == 1.5
  {
    var w := KeepRecent(st.recent + batch, now - FlowWindowSeconds);
    var other := if side == Buy then Sell else Buy;
    OtherSideEmpty(w, side, other);
    var b := SideVolume(w, Buy);
    var s := SideVolume(w, Sell);
    var t := b + s;
    assert t > 0.0 && Abs(b - s) == t;
    assert t / t == 1.0;
  }

  /** Balanced flow leaves the spread alone: the factor becomes exactly 1. */
  lemma BalancedFlowNeutral(st: FlowState, now: real, batch: seq<FlowTrade>)
    requires |batch| > 0
    requires |KeepRecent(st.recent + batch, now - FlowWindowSeconds)| >= 5
    requires SideVolume(KeepRecent(st.recent + batch, now - FlowWindowSeconds), Buy) ==
             SideVolume(KeepRecent(st.recent + batch, now - FlowWindowSeconds), Sell) > 0.0
    ensures UpdateAdverseSelection(st, now, batch).factor == 1.0
  {
  }

  lemma KeptSizesNonNeg(ts: seq<FlowTrade>, cutoff: real)
    ensures NonNegativeSizes(ts) ==> SideVolume(KeepRecent(ts, cutoff), Buy) >= 0.0 && SideVolume(KeepRecent(ts, cutoff), Sell) >= 0.0
  {
    if NonNegativeSizes(ts) {
      var r := KeepRecent(ts, cutoff);
      assert NonNegativeSizes(r) by {
        forall i | 0 <= i < |r| ensures r[i].size >= 0.0 {
          assert r[i] in ts;
        }
      }
      SideVolumeNonNeg(r, Buy);
      SideVolumeNonNeg(r, Sell);
    }
  }

  lemma ImbalanceRatioBounded(buy: real, sell: real)
    requires buy + sell > 0.0
    ensures buy >= 0.0 && sell >= 0.0 ==> 0.0 <= Abs(buy - sell) / (buy + sell) <= 1.0
  {
    if buy >= 0.0 && sell >= 0.0 {
      var t := buy + sell;
      var a := Abs(buy - sell);
      assert 0.0 <= a <= t;
      var q := a / t;
      assert q * t == a;
      assert (1.0 - q) * t == t - a;
    }
  }

  // ---------------------------------------------------------------------
  // SmartQuoteEngine: price history and momentum
  // ---------------------------------------------------------------------

  const PriceHistoryLimit: nat := 100

  /** `update_price_history`: appends and keeps the newest 100 prices. */
  function UpdatePriceHistory(h: seq<real>, price: real): (r: seq<real>)
    ensures |r| == if |h| + 1 > PriceHistoryLimit then PriceHistoryLimit else |h| + 1
    ensures r[|r| - 1] == price
    ensures exists k :: 0 <= k <= |h| + 1 && r == (h + [price])[k..]
  {
    var h1 := h + [price];
    if |h1| > PriceHistoryLimit then
      var r := h1[|h1| - PriceHistoryLimit..];
      assert r == PyTail(h1, PriceHistoryLimit);
      r
    else
      assert h1 == h1[0..];
      h1
  }

  function SumReals(s: seq<real>): real
  {
    if |s| == 0 then 0.0 else s[0] + SumReals(s[1..])
  }

  /** `detect_momentum`: 0 with fewer than five prices; with fewer than ten
      the "older" window is the recent one, so the result is again 0;
      otherwise the mean of the last five minus the mean of the five
      before them. */
  function DetectMomentum(h: seq<real>): (r: real)
    ensures |h| < 10 ==> r == 0.0
    ensures |h| >= 10 ==> r == SumReals(h[|h| - 5..]) / 5.0 - SumReals(h[|h| - 10..|h| - 5]) / 5.0
  {
    if |h| < 5 then 0.0
    else
      var recent := PyTail(h, 5);
      var older := if |h| >= 10 then h[|h| - 10..|h| - 5] else recent;
      SumReals(recent) / |recent| as real - SumReals(older) / |older| as real
  }

  /** A flat price history has no momentum. */
  lemma FlatHistoryNoMomentum(h: seq<real>, c: real)
    requires forall i :: 0 <= i < |h| ==> h[i] == c
    ensures DetectMomentum(h) == 0.0
  {
    if |h| >= 10 {
      SumConst(h[|h| - 5..], c);
      SumConst(h[|h| - 10..|h| - 5], c);
    }
  }

  lemma {:induction false} SumConst(s: seq<real>, c: real)
    requires forall i :: 0 <= i < |s| ==> s[i] == c
    ensures SumReals(s) == |s| as real * c
  {
    if |s| > 0 {
      SumConst(s[1..], c);
    }
  }
}

=== FILE: risk.dfy ===
/**
 Position and PnL accounting and the order risk gate of the market maker
 (`src/risk_manager.py`): per-token positions with average-entry
 bookkeeping, realized and unrealized PnL, exposure sums, the sticky halt
 flag, size damping and the PnL tracker.
 */
module Risk {
  import opened Common

  /** A position in one token: positive quantity is long, negative short. */
  datatype Position = Position(tokenId: string, quantity: int, avgEntry: real,
                               realized: real, unrealized: real)

  function Flat(token: string): (p: Position)
    ensures p.tokenId == token && p.quantity == 0
    ensures p.avgEntry == 0.0 && p.realized == 0.0 && p.unrealized == 0.0
  {
    Position(token, 0, 0.0, 0.0, 0.0)
  }

  // ---------------------------------------------------------------------
  // Unrealized PnL
  // ---------------------------------------------------------------------

  /** Marks a position to `price`. Whatever the sign of the position, the
      result is `(price - avg) * quantity`: a short gains when the price
      falls. Only the unrealized field changes. */
  function UpdateUnrealized(p: Position, price: real): (r: Position)
    ensures r == p.(unrealized := r.unrealized)
    ensures r.unrealized == (price - p.avgEntry) * p.quantity as real
    ensures p.quantity == 0 ==> r.unrealized == 0.0
  {
    if p.quantity == 0 then p.(unrealized := 0.0)
    else if p.quantity > 0 then p.(unrealized := (price - p.avgEntry) * p.quantity as real)
    else p.(unrealized := (p.avgEntry - price) * (-p.quantity) as real)
  }

  // ---------------------------------------------------------------------
  // Applying a fill to a position
  // ---------------------------------------------------------------------

  /** Signed share change of a trade: `+int(size)` for a buy and
      `-int(size)` for a sell. */
  function Delta(t: Trade): int
  {
    if t.side == Buy then Trunc(t.size) else -Trunc(t.size)
  }

  /** The trade extends the position in its own direction (or opens it
      from flat): a buy on a non-negative position, a sell on a
      non-positive one. */
  predicate Extends(q: int, t: Trade)
  {
    if t.side == Buy then q >= 0 else q <= 0
  }

  /** Shares of the existing position that the trade closes. */
  function ClosedQty(q: int, t: Trade): int
  {
    var n := Trunc(t.size);
    if t.side == Buy then (if n < IAbs(q) then n else IAbs(q))
    else (if n < q then n else q)
  }

  /** PnL realized by closing `ClosedQty` shares at the trade price. */
  function ClosePnl(p: Position, t: Trade): real
  {
    if t.side == Buy then (p.avgEntry - t.price) * ClosedQty(p.quantity, t) as real
    else (t.price - p.avgEntry) * ClosedQty(p.quantity, t) as real
  }

  /** Cost basis of the part of the position the trade extends: the long
      part for a buy, the short part for a sell. */
  function OpenCost(p: Position, t: Trade): real
  {
    if t.side == Buy then p.avgEntry * (if p.quantity > 0 then p.quantity else 0) as real
    else p.avgEntry * IAbs(if p.quantity < 0 then p.quantity else 0) as real
  }

  /** The divisor the source uses for the new average: the new quantity
      for a buy, its absolute value for a sell. */
  function AvgDivisor(t: Trade, newQty: int): int
  {
    if t.side == Buy then newQty else IAbs(newQty)
  }

  /** Average entry after extending a position. It conserves cost basis:
      the new average times the new quantity is the old cost plus the
      trade's notional. */
  function ExtendedAvg(p: Position, t: Trade, newQty: int): (a: real)
    requires newQty != 0
    ensures a * AvgDivisor(t, newQty) as real == OpenCost(p, t) + t.price * t.size
  {
    var d := AvgDivisor(t, newQty) as real;
    DivMul(OpenCost(p, t) + t.price * t.size, d);
    (OpenCost(p, t) + t.price * t.size) / d
  }

  /** `InventoryManager.update_position` on one position, exactly as the
      source writes it: when the new quantity is zero nothing but the
      quantity changes, so a trade that closes a position exactly realizes
      no PnL. */
  function ApplyFillAsWritten(p: Position, t: Trade): (r: Position)
    ensures r.quantity == p.quantity + Delta(t)
    ensures r.tokenId == p.tokenId && r.unrealized == p.unrealized
    ensures r.quantity == 0 ==> r.avgEntry == p.avgEntry && r.realized == p.realized
    ensures r.quantity != 0 && Extends(p.quantity, t) ==>
      r.realized == p.realized && r.avgEntry == ExtendedAvg(p, t, r.quantity)
    ensures r.quantity != 0 && !Extends(p.quantity, t) ==>
      r.realized == p.realized + ClosePnl(p, t)
    ensures r.quantity != 0 && !Extends(p.quantity, t) ==>
      (if (r.quantity > 0) == (p.quantity > 0) then r.avgEntry == p.avgEntry else r.avgEntry == t.price)
  {
    var newQty := p.quantity + Delta(t);
    if newQty == 0 then p.(quantity := 0)
    else if Extends(p.quantity, t) then
      p.(quantity := newQty, avgEntry := ExtendedAvg(p, t, newQty))
    else
      var flipped := if t.side == Buy then newQty > 0 else newQty < 0;
      p.(quantity := newQty,
         realized := p.realized + ClosePnl(p, t),
         avgEntry := if flipped then t.price else p.avgEntry)
  }

  /** The corrected update: identical, except that a trade that takes a
      non-flat position exactly to zero realizes the PnL of the shares it
      closes. */
  function ApplyFill(p: Position, t: Trade): (r: Position)
    ensures r.quantity == p.quantity + Delta(t)
    ensures r.tokenId == p.tokenId && r.unrealized == p.unrealized
    ensures r.quantity == 0 ==> r.avgEntry == p.avgEntry
    ensures r.quantity == 0 && p.quantity != 0 ==> r.realized == p.realized + ClosePnl(p, t)
    ensures r.quantity == 0 && p.quantity == 0 ==> r.realized == p.realized
    ensures r.quantity != 0 ==> r == ApplyFillAsWritten(p, t)
  {
    var newQty := p.quantity + Delta(t);
    if newQty == 0 && p.quantity != 0 then
      p.(quantity := 0, realized := p.realized + ClosePnl(p, t))
    else
      ApplyFillAsWritten(p, t)
  }

  lemma DivMul(x: real, d: real)
    requires d != 0.0
    ensures x / d * d == x
  {
  }

  lemma MulCancel(a: real, b: real, d: real)
    requires d != 0.0 && a * d == b * d
    ensures a == b
  {
    assert (a - b) * d == 0.0;
  }

  /** Round trip from flat with `n` whole shares: buying at `buy` and then
      selling at `sell`. */
  function RoundTrip(token: string, n: nat, buy: real, sell: real): (ts: (Trade, Trade))
  {
    (Trade("open", token, Buy, buy, n as real, 0.0, ""),
     Trade("close", token, Sell, sell, n as real, 0.0, ""))
  }

  /** As written, closing a whole position realizes nothing: after buying
      `n > 0` shares and selling all of them the realized PnL is still
      zero, whatever the two prices. */
  lemma AsWrittenLosesClosingPnl(token: string, n: nat, buy: real, sell: real)
    requires n > 0
    ensures var (o, c) := RoundTrip(token, n, buy, sell);
      var r := ApplyFillAsWritten(ApplyFillAsWritten(Flat(token), o), c);
      r.quantity == 0 && r.realized == 0.0
  {
    var (o, c) := RoundTrip(token, n, buy, sell);
    assert Trunc(n as real) == n;
  }

  /** The concrete case: 10 shares bought at 0.50 and sold at 0.60 leave a
      realized PnL of 0 rather than 1. */
  lemma AsWrittenCounterexample()
    ensures var (o, c) := RoundTrip("t", 10, 0.5, 0.6);
      ApplyFillAsWritten(ApplyFillAsWritten(Flat("t"), o), c).realized == 0.0
    ensures var (o, c) := RoundTrip("t", 10, 0.5, 0.6);
      ApplyFill(ApplyFill(Flat("t"), o), c).realized == 1.0
  {
    AsWrittenLosesClosingPnl("t", 10, 0.5, 0.6);
    CorrectedRealizesRoundTrip("t", 10, 0.5, 0.6);
  }

  /** With the corrected update a full round trip realizes exactly
      `(sell - buy) * n`. */
  lemma CorrectedRealizesRoundTrip(token: string, n: nat, buy: real, sell: real)
    requires n > 0
    ensures var (o, c) := RoundTrip(token, n, buy, sell);
      var r := ApplyFill(ApplyFill(Flat(token), o), c);
      r.quantity == 0 && r.realized == (sell - buy) * n as real
  {
    var (o, c) := RoundTrip(token, n, buy, sell);
    assert Trunc(n as real) == n;
    var p1 := ApplyFill(Flat(token), o);
    assert p1.quantity == n;
    assert p1 == ApplyFillAsWritten(Flat(token), o) && Extends(0, o);
    assert p1.avgEntry * n as real == buy * n as real;
    MulCancel(p1.avgEntry, buy, n as real);
  }

  // ---------------------------------------------------------------------
  // The inventory: positions in insertion order, plus the fill history
  // ---------------------------------------------------------------------

  datatype Inventory = Inventory(positions: seq<Position>, history: seq<Trade>)

  function IndexOf(ps: seq<Position>, token: string): (r: Option<nat>)
    ensures r.Some? ==> r.value < |ps| && ps[r.value].tokenId == token
    ensures r.None? ==> forall i :: 0 <= i < |ps| ==> ps[i].tokenId != token
  {
    if |ps| == 0 then None
    else if ps[0].tokenId == token then Some(0)
    else
      match IndexOf(ps[1..], token)
      case None => None
      case Some(k) => Some(k + 1)
  }

  /** `get_position`: the stored position, or a flat one for an unseen
      token. */
  function PositionOf(inv: Inventory, token: string): (p: Position)
    ensures p.tokenId == token
    ensures IndexOf(inv.positions, token).None? ==> p == Flat(token)
  {
    match IndexOf(inv.positions, token)
    case Some(i) => inv.positions[i]
    case None => Flat(token)
  }

  /** Stores `p` under its token: in place when present, appended when new
      (Python dict insertion order). */
  function Store(ps: seq<Position>, p: Position): (r: seq<Position>)
    ensures IndexOf(ps, p.tokenId).Some? ==>
      r == ps[IndexOf(ps, p.tokenId).value := p]
    ensures IndexOf(ps, p.tokenId).None? ==> r == ps + [p]
  {
    match IndexOf(ps, p.tokenId)
    case Some(i) => ps[i := p]
    case None => ps + [p]
  }

  /** `update_position`: the fill's token position absorbs the fill (with
      the corrected close rule), no other position changes, and the trade
      is appended to the history exactly once. */
  function UpdatePosition(inv: Inventory, t: Trade): (r: Inventory)
    ensures r.history == inv.history + [t]
    ensures PositionOf(r, t.tokenId) == ApplyFill(PositionOf(inv, t.tokenId), t)
    ensures forall tok :: tok != t.tokenId ==> PositionOf(r, tok) == PositionOf(inv, tok)
  {
    var p := ApplyFill(PositionOf(inv, t.tokenId), t);
    var r := Inventory(Store(inv.positions, p), inv.history + [t]);
    StoreLookup(inv.positions, p);
    r
  }

  lemma StoreLookup(ps: seq<Position>, p: Position)
    ensures IndexOf(Store(ps, p), p.tokenId).Some?
    ensures Store(ps, p)[IndexOf(Store(ps, p), p.tokenId).value] == p
    ensures forall tok :: tok != p.tokenId ==>
      IndexOf(Store(ps, p), tok) == IndexOf(ps, tok) &&
      (IndexOf(ps, tok).Some? ==> Store(ps, p)[IndexOf(ps, tok).value] == ps[IndexOf(ps, tok).value])
  {
    match IndexOf(ps, p.tokenId)
    case Some(i) =>
      forall tok | tok != p.tokenId
        ensures IndexOf(Store(ps, p), tok) == IndexOf(ps, tok)
      {
        IndexOfUpdate(ps, i, p, tok);
      }
      IndexOfUpdate(ps, i, p, p.tokenId);
    case None =>
      forall tok | tok != p.tokenId
        ensures IndexOf(ps + [p], tok) == IndexOf(ps, tok)
      {
        IndexOfAppend(ps, p, tok);
      }
      IndexOfAppend(ps, p, p.tokenId);
  }

  lemma {:induction false} IndexOfUpdate(ps: seq<Position>, i: nat, p: Position, tok: string)
    requires i < |ps| && ps[i].tokenId == p.tokenId
    ensures IndexOf(ps[i := p], tok) == IndexOf(ps, tok)
  {
    if |ps| > 0 && i > 0 {
      assert ps[i := p][1..] == ps[1..][i - 1 := p];
      IndexOfUpdate(ps[1..], i - 1, p, tok);
    }
  }

  lemma {:induction false} IndexOfAppend(ps: seq<Position>, p: Position, tok: string)
    requires IndexOf(ps, p.tokenId).None?
    ensures tok != p.tokenId ==> IndexOf(ps + [p], tok) == IndexOf(ps, tok)
    ensures tok == p.tokenId ==> IndexOf(ps + [p], tok) == Some(|ps|)
  {
    if |ps| > 0 {
      assert (ps + [p])[1..] == ps[1..] + [p];
      IndexOfAppend(ps[1..], p, tok);
    }
  }

  /** Quantity of a token after a sequence of fills. */
  function ReplayFills(inv: Inventory, ts: seq<Trade>): Inventory
    decreases |ts|
  {
    if |ts| == 0 then inv else ReplayFills(UpdatePosition(inv, ts[0]), ts[1..])
  }

  /** Sum of the signed share changes of the fills in `token`. */
  function NetDelta(ts: seq<Trade>, token: string): int
  {
    if |ts| == 0 then 0
    else (if ts[0].tokenId == token then Delta(ts[0]) else 0) + NetDelta(ts[1..], token)
  }

  /** One fill moves only its own token's quantity, by its signed size. */
  lemma UpdateQuantity(inv: Inventory, t: Trade, token: string)
    ensures PositionOf(UpdatePosition(inv, t), token).quantity ==
      PositionOf(inv, token).quantity + (if t.tokenId == token then Delta(t) else 0)
  {
  }

  /** Position conservation: replaying fills moves each token's quantity by
      exactly the signed sum of that token's truncated fill sizes, and
      appends every fill to the history in order. */
  lemma {:induction false} ReplayConservesQuantity(inv: Inventory, ts: seq<Trade>, token: string)
    ensures PositionOf(ReplayFills(inv, ts), token).quantity == PositionOf(inv, token).quantity + NetDelta(ts, token)
    ensures ReplayFills(inv, ts).history == inv.history + ts
    decreases |ts|
  {
    if |ts| > 0 {
      ReplayConservesQuantity(UpdatePosition(inv, ts[0]), ts[1..], token);
      UpdateQuantity(inv, ts[0], token);
      assert inv.history + [ts[0]] + ts[1..] == inv.history + ts;
    }
  }

  // ---------------------------------------------------------------------
  // Exposure and PnL totals
  // ---------------------------------------------------------------------

  function LongExposure(ps: seq<Position>): real
  {
    if |ps| == 0 then 0.0
    else (if ps[0].quantity > 0 then ps[0].avgEntry * ps[0].quantity as real else 0.0) + LongExposure(ps[1..])
  }

  function ShortExposure(ps: seq<Position>): real
  {
    if |ps| == 0 then 0.0
    else (if ps[0].quantity < 0 then ps[0].avgEntry * (-ps[0].quantity) as real else 0.0) + ShortExposure(ps[1..])
  }

  function NetExposure(inv: Inventory): real
  {
    LongExposure(inv.positions) - ShortExposure(inv.positions)
  }

  function GrossExposure(inv: Inventory): real
  {
    LongExposure(inv.positions) + ShortExposure(inv.positions)
  }

  function TotalRealized(ps: seq<Position>): real
  {
    if |ps| == 0 then 0.0 else ps[0].realized + TotalRealized(ps[1..])
  }

  function TotalUnrealized(ps: seq<Position>): real
  {
    if |ps| == 0 then 0.0 else ps[0].unrealized + TotalUnrealized(ps[1..])
  }

  /** Signed notional `sum(avg * quantity)` over all positions. */
  function SignedNotional(ps: seq<Position>): real
  {
    if |ps| == 0 then 0.0 else ps[0].avgEntry * ps[0].quantity as real + SignedNotional(ps[1..])
  }

  predicate NonNegativeEntries(ps: seq<Position>)
  {
    forall i :: 0 <= i < |ps| ==> ps[i].avgEntry >= 0.0
  }

  /** Net exposure is the signed notional; with non-negative entry prices
      both exposure sums are non-negative, so `|net| <= gross`. */
  lemma {:induction false} ExposureFacts(ps: seq<Position>)
    ensures LongExposure(ps) - ShortExposure(ps) == SignedNotional(ps)
    ensures NonNegativeEntries(ps) ==> LongExposure(ps) >= 0.0 && ShortExposure(ps) >= 0.0
  {
    if |ps| > 0 {
      ExposureFacts(ps[1..]);
      var p := ps[0];
      if p.quantity < 0 {
        assert p.avgEntry * (-p.quantity) as real == -(p.avgEntry * p.quantity as real);
      }
      if NonNegativeEntries(ps) {
        assert NonNegativeEntries(ps[1..]) by {
          forall i | 0 <= i < |ps[1..]| ensures ps[1..][i].avgEntry >= 0.0 {
            assert ps[1..][i] == ps[i + 1];
          }
        }
        assert p.avgEntry >= 0.0;
        if p.quantity > 0 {
          assert p.avgEntry * p.quantity as real >= 0.0;
        }
        if p.quantity < 0 {
          assert p.avgEntry * (-p.quantity) as real >= 0.0;
        }
      }
    }
  }

  /** Marks every position whose token has a price in `prices`. */
  function UpdateAllUnrealized(ps: seq<Position>, prices: map<string, real>): (r: seq<Position>)
    ensures |r| == |ps|
    ensures forall i :: 0 <= i < |ps| ==>
      r[i] == (if ps[i].tokenId in prices then UpdateUnrealized(ps[i], prices[ps[i].tokenId]) else ps[i])
  {
    if |ps| == 0 then []
    else
      [if ps[0].tokenId in prices then UpdateUnrealized(ps[0], prices[ps[0].tokenId]) else ps[0]]
      + UpdateAllUnrealized(ps[1..], prices)
  }

  // ---------------------------------------------------------------------
  // The risk manager
  // ---------------------------------------------------------------------

  datatype RiskConfig = RiskConfig(maxPositionPerMarket: int, maxTotalExposure: real,
                                   maxInventoryImbalance: int, dailyLossLimit: real)

  /** The constructor defaults: 500 shares, 1000 USDC, 400, 100 USDC. */
  function DefaultRiskConfig(): RiskConfig
  {
    RiskConfig(500, 1000.0, 400, 100.0)
  }

  datatype RiskState = RiskState(halted: bool, haltReason: string, dailyPnl: real)

  datatype Verdict = Allowed | HaltedVerdict | PositionLimit | ExposureLimit | ImbalanceLimit

  /** `check_order_allowed`: the checks run in order (halt flag, position
      limit, total exposure, inventory imbalance) and the first failing one
      is reported. */
  function CheckOrderAllowed(cfg: RiskConfig, rs: RiskState, inv: Inventory, token: string,
                             side: Side, size: real, price: real): (v: Verdict)
    ensures v == Allowed <==>
      && !rs.halted
      && IAbs(PositionOf(inv, token).quantity + (if side == Buy then Trunc(size) else -Trunc(size))) <= cfg.maxPositionPerMarket
      && GrossExposure(inv) + price * size <= cfg.maxTotalExposure
      && Abs(NetExposure(inv) + (if side == Buy then price * size else -(price * size))) <= cfg.maxInventoryImbalance as real
    ensures rs.halted ==> v == HaltedVerdict
    ensures v == ExposureLimit ==> GrossExposure(inv) + price * size > cfg.maxTotalExposure
  {
    var q := PositionOf(inv, token).quantity;
    var newQty := if side == Buy then q + Trunc(size) else q - Trunc(size);
    var newNet := if side == Buy then NetExposure(inv) + price * size else NetExposure(inv) - price * size;
    if rs.halted then HaltedVerdict
    else if IAbs(newQty) > cfg.maxPositionPerMarket then PositionLimit
    else if GrossExposure(inv) + price * size > cfg.maxTotalExposure then ExposureLimit
    else if Abs(newNet) > cfg.maxInventoryImbalance as real then ImbalanceLimit
    else Allowed
  }

  function TotalPnl(inv: Inventory): real
  {
    TotalRealized(inv.positions) + TotalUnrealized(inv.positions)
  }

  /** `check_daily_loss`: on a new UTC day the daily PnL resets; the halt
      flag is raised when total PnL is below minus the loss limit and is
      never cleared here. */
  function CheckDailyLoss(cfg: RiskConfig, rs: RiskState, inv: Inventory, newDay: bool): (r: (RiskState, bool))
    ensures r.1 <==> TotalPnl(inv) < -cfg.dailyLossLimit
    ensures r.0.halted <==> rs.halted || r.1
    ensures !r.1 ==> r.0.haltReason == rs.haltReason
    ensures r.0.dailyPnl == (if newDay then 0.0 else rs.dailyPnl)
  {
    var rs1 := if newDay then rs.(dailyPnl := 0.0) else rs;
    if TotalPnl(inv) < -cfg.dailyLossLimit then (rs1.(halted := true, haltReason := "Daily loss limit hit"), true)
    else (rs1, false)
  }

  function HaltTrading(rs: RiskState, reason: string): (r: RiskState)
    ensures r.halted && r.haltReason == reason && r.dailyPnl == rs.dailyPnl
  {
    rs.(halted := true, haltReason := reason)
  }

  function ResumeTrading(rs: RiskState): (r: RiskState)
    ensures !r.halted && r.haltReason == "" && r.dailyPnl == rs.dailyPnl
  {
    rs.(halted := false, haltReason := "")
  }

  /** Successive daily-loss checks never lower the halt flag: once halted,
      only `ResumeTrading` resumes. */
  lemma {:induction false} HaltIsSticky(cfg: RiskConfig, rs: RiskState, invs: seq<Inventory>, days: seq<bool>)
    requires |days| == |invs|
    requires rs.halted
    ensures ChecksFrom(cfg, rs, invs, days).halted
    decreases |invs|
  {
    if |invs| > 0 {
      HaltIsSticky(cfg, CheckDailyLoss(cfg, rs, invs[0], days[0]).0, invs[1..], days[1..]);
    }
  }

  function ChecksFrom(cfg: RiskConfig, rs: RiskState, invs: seq<Inventory>, days: seq<bool>): RiskState
    requires |days| == |invs|
    decreases |invs|
  {
    if |invs| == 0 then rs else ChecksFrom(cfg, CheckDailyLoss(cfg, rs, invs[0], days[0]).0, invs[1..], days[1..])
  }

  /** The quote would grow a position already past half the imbalance
      limit: a buy above `+limit/2` or a sell below `-limit/2`. */
  predicate GrowsPastHalf(q: int, side: Side, limit: int)
  {
    (side == Buy && q as real > limit as real / 2.0) || (side == Sell && (q as real) < -(limit as real / 2.0))
  }

  /** `calculate_size_adjustment`: halves the size of a quote that would
      grow a position already past half the imbalance limit. The
      reduction `min(0.5, |q| / limit)` saturates at one half because the
      guard already puts `|q| / limit` above it. */
  function SizeAdjustment(cfg: RiskConfig, inv: Inventory, token: string, side: Side, base: real): (r: real)
    requires cfg.maxInventoryImbalance != 0
    ensures cfg.maxInventoryImbalance > 0 ==>
      r == (if GrowsPastHalf(PositionOf(inv, token).quantity, side, cfg.maxInventoryImbalance) then base / 2.0 else base)
  {
    var q := PositionOf(inv, token).quantity as real;
    var lim := cfg.maxInventoryImbalance as real;
    if side == Buy && q > lim / 2.0 then
      HalfSaturates(q, lim, base);
      base * (1.0 - MinR(0.5, q / lim))
    else if side == Sell && q < -(lim / 2.0) then
      HalfSaturates(Abs(q), lim, base);
      base * (1.0 - MinR(0.5, Abs(q) / lim))
    else base
  }

  lemma HalfSaturates(a: real, lim: real, base: real)
    ensures lim > 0.0 && a > lim / 2.0 ==> base * (1.0 - MinR(0.5, a / lim)) == base / 2.0
  {
    if lim > 0.0 && a > lim / 2.0 {
      assert a / lim * lim == a;
      assert a / lim > 0.5;
      assert MinR(0.5, a / lim) == 0.5;
    }
  }

  datatype RiskMetrics = RiskMetrics(totalExposure: real, maxPositionSize: int, currentMaxPosition: nat,
                                     dailyPnl: real, unrealized: real, realized: real,
                                     numPositions: nat, imbalance: real)

  /** Largest `|quantity|` over the positions, 0 when there are none. */
  function MaxAbsQty(ps: seq<Position>): (m: nat)
    ensures forall i :: 0 <= i < |ps| ==> IAbs(ps[i].quantity) <= m
    ensures |ps| > 0 ==> exists i :: 0 <= i < |ps| && IAbs(ps[i].quantity) == m
    ensures |ps| == 0 ==> m == 0
  {
    if |ps| == 0 then 0
    else
      var rest := MaxAbsQty(ps[1..]);
      assert forall i :: 1 <= i < |ps| ==> ps[i] == ps[1..][i - 1];
      if IAbs(ps[0].quantity) > rest then IAbs(ps[0].quantity) else rest
  }

  /** `get_all_positions`: the positions with a non-zero quantity. */
  function NonZero(ps: seq<Position>): (r: seq<Position>)
    ensures forall i :: 0 <= i < |r| ==> r[i].quantity != 0
    ensures forall p :: p in ps && p.quantity != 0 ==> p in r
    ensures forall p :: p in r ==> p in ps
  {
    if |ps| == 0 then []
    else if ps[0].quantity != 0 then [ps[0]] + NonZero(ps[1..])
    else NonZero(ps[1..])
  }

  /** `get_risk_metrics`. With non-negative entry prices the imbalance
      ratio lies in [-1, 1]. */
  function GetRiskMetrics(cfg: RiskConfig, rs: RiskState, inv: Inventory): (m: RiskMetrics)
    ensures m.totalExposure == GrossExposure(inv)
    ensures m.imbalance == (if GrossExposure(inv) > 0.0 then NetExposure(inv) / GrossExposure(inv) else 0.0)
    ensures m.numPositions == |NonZero(inv.positions)|
    ensures forall i :: 0 <= i < |inv.positions| ==> IAbs(inv.positions[i].quantity) <= m.currentMaxPosition
    ensures m.currentMaxPosition > 0 ==> exists i :: 0 <= i < |inv.positions| && IAbs(inv.positions[i].quantity) == m.currentMaxPosition
    ensures NonNegativeEntries(inv.positions) ==> -1.0 <= m.imbalance <= 1.0
  {
    var nz := NonZero(inv.positions);
    var gross := GrossExposure(inv);
    var net := NetExposure(inv);
    var imb := if gross > 0.0 then net / gross else 0.0;
    MaxCoversZeros(inv.positions);
    ExposureFacts(inv.positions);
    RatioBounded(net, gross);
    RiskMetrics(gross, cfg.maxPositionPerMarket, MaxAbsQty(nz), rs.dailyPnl,
                TotalUnrealized(inv.positions), TotalRealized(inv.positions), |nz|, imb)
  }

  lemma RatioBounded(net: real, gross: real)
    ensures gross > 0.0 && -gross <= net <= gross ==> -1.0 <= net / gross <= 1.0
  {
    if gross > 0.0 {
      assert net / gross * gross == net;
    }
  }

  /** Dropping zero positions does not change the largest `|quantity|`. */
  lemma MaxCoversZeros(ps: seq<Position>)
    ensures forall i :: 0 <= i < |ps| ==> IAbs(ps[i].quantity) <= MaxAbsQty(NonZero(ps))
    ensures MaxAbsQty(NonZero(ps)) > 0 ==> exists i :: 0 <= i < |ps| && IAbs(ps[i].quantity) == MaxAbsQty(NonZero(ps))
  {
    var nz := NonZero(ps);
    forall i | 0 <= i < |ps| ensures IAbs(ps[i].quantity) <= MaxAbsQty(nz) {
      if ps[i].quantity != 0 {
        assert ps[i] in nz;
        var k :| 0 <= k < |nz| && nz[k] == ps[i];
      }
    }
    if MaxAbsQty(nz) > 0 {
      var k :| 0 <= k < |nz| && IAbs(nz[k].quantity) == MaxAbsQty(nz);
      assert nz[k] in ps;
    }
  }

  // ---------------------------------------------------------------------
  // PnL tracker
  // ---------------------------------------------------------------------

  datatype PnlSnapshot = PnlSnapshot(time: real, realized: real, unrealized: real)
  datatype PnlTracker = PnlTracker(snapshots: seq<PnlSnapshot>, fills: seq<(real, Trade)>)
  datatype PnlStats = PnlStats(total: real, realized: real, unrealized: real, numFills: nat)

  const DaySeconds: real := 86400.0

  /** `record_fill`: appends the fill with its time. */
  function RecordFill(tr: PnlTracker, now: real, t: Trade): (r: PnlTracker)
    ensures r.fills == tr.fills + [(now, t)] && r.snapshots == tr.snapshots
  {
    tr.(fills := tr.fills + [(now, t)])
  }

  /** The list comprehension `[s for s in ss if s[0] > cutoff]`: the
      snapshots after the cutoff, in their original order. */
  function KeepAfter(ss: seq<PnlSnapshot>, cutoff: real): seq<PnlSnapshot>
  {
    if |ss| == 0 then []
    else (if ss[0].time > cutoff then [ss[0]] else []) + KeepAfter(ss[1..], cutoff)
  }

  /** The filter keeps exactly the snapshots newer than the cutoff, never
      more than it was given, and all of them exactly when every one is
      newer. */
  lemma {:induction false} KeepAfterMembers(ss: seq<PnlSnapshot>, cutoff: real)
    ensures forall s :: s in KeepAfter(ss, cutoff) <==> s in ss && s.time > cutoff
    ensures |KeepAfter(ss, cutoff)| <= |ss|
    ensures |KeepAfter(ss, cutoff)| == |ss| <==> forall i :: 0 <= i < |ss| ==> ss[i].time > cutoff
  {
    if |ss| > 0 {
      KeepAfterMembers(ss[1..], cutoff);
      assert forall s :: s in ss <==> s == ss[0] || s in ss[1..];
      assert (forall i :: 0 <= i < |ss| ==> ss[i].time > cutoff) <==>
             ss[0].time > cutoff && (forall i :: 0 <= i < |ss[1..]| ==> ss[1..][i].time > cutoff);
    }
  }

  /** Filtering distributes over concatenation, so the kept snapshots keep
      their relative order. */
  lemma {:induction false} KeepAfterAppend(a: seq<PnlSnapshot>, b: seq<PnlSnapshot>, cutoff: real)
    ensures KeepAfter(a + b, cutoff) == KeepAfter(a, cutoff) + KeepAfter(b, cutoff)
    decreases |a|
  {
    if |a| == 0 {
      assert a + b == b;
    } else {
      assert (a + b)[0] == a[0] && (a + b)[1..] == a[1..] + b;
      KeepAfterAppend(a[1..], b, cutoff);
    }
  }

  /** `record_snapshot`: appends, then keeps only the last 24 hours. The
      older snapshots are filtered in order and the new one, being younger
      than the cutoff, is kept as the latest. */
  function RecordSnapshot(tr: PnlTracker, now: real, realized: real, unrealized: real): (r: PnlTracker)
    ensures r.fills == tr.fills
    ensures forall s :: s in r.snapshots ==> s.time > now - DaySeconds
    ensures r.snapshots == KeepAfter(tr.snapshots, now - DaySeconds) + [PnlSnapshot(now, realized, unrealized)]
  {
    var snap := PnlSnapshot(now, realized, unrealized);
    KeepAfterAppend(tr.snapshots, [snap], now - DaySeconds);
    KeepAfterMembers(tr.snapshots + [snap], now - DaySeconds);
    assert [snap][1..] == [];
    tr.(snapshots := KeepAfter(tr.snapshots + [snap], now - DaySeconds))
  }

  /** `get_statistics`: zeros (and zero fills, even if fills were recorded)
      before the first snapshot; otherwise the latest snapshot's realized
      and unrealized PnL, their sum, and the number of fills. */
  function GetStatistics(tr: PnlTracker): (s: PnlStats)
    ensures |tr.snapshots| == 0 ==> s == PnlStats(0.0, 0.0, 0.0, 0)
    ensures |tr.snapshots| > 0 ==>
      s.numFills == |tr.fills| &&
      s.realized == tr.snapshots[|tr.snapshots| - 1].realized &&
      s.unrealized == tr.snapshots[|tr.snapshots| - 1].unrealized
    ensures s.total == s.realized + s.unrealized
  {
    if |tr.snapshots| == 0 then PnlStats(0.0, 0.0, 0.0, 0)
    else
      var last := tr.snapshots[|tr.snapshots| - 1];
      PnlStats(last.realized + last.unrealized, last.realized, last.unrealized, |tr.fills|)
  }

  /** Right after a snapshot, the statistics report exactly that snapshot
      and every fill recorded so far. */
  lemma StatisticsAfterSnapshot(tr: PnlTracker, now: real, realized: real, unrealized: real)
    ensures GetStatistics(RecordSnapshot(tr, now, realized, unrealized))
         == PnlStats(realized + unrealized, realized, unrealized, |tr.fills|)
  {
  }

  /** A fill recorded after the first snapshot is counted at once, and the
      reported PnL does not move until the next snapshot. */
  lemma StatisticsAfterFill(tr: PnlTracker, now: real, t: Trade)
    ensures |tr.snapshots| > 0 ==>
      GetStatistics(RecordFill(tr, now, t)) == GetStatistics(tr).(numFills := GetStatistics(tr).numFills + 1)
    ensures |tr.snapshots| == 0 ==> GetStatistics(RecordFill(tr, now, t)) == GetStatistics(tr)
  {
  }
}

=== FILE: server.dfy ===
/**
 Sequence helpers for Python list operations the dashboard server uses:
 `list.remove` (drops the first occurrence) and order-keeping filters.
 */
module Lists {
  /** Python's `s.remove(x)`: drops the first occurrence of `x`; the
      callers check `x in s` first. */
  function RemoveFirst<T(==)>(s: seq<T>, x: T): (r: seq<T>)
    requires x in s
    ensures |r| == |s| - 1
    ensures multiset(r) == multiset(s) - multiset{x}
  {
    assert s == [s[0]] + s[1..];
    if s[0] == x then s[1..] else [s[0]] + RemoveFirst(s[1..], x)
  }

  /** The elements of `s` outside `gone`, in order. */
  function Drop<T(==,!new)>(s: seq<T>, gone: set<T>): (r: seq<T>)
    ensures |r| <= |s|
  {
    if |s| == 0 then []
    else (if s[0] in gone then [] else [s[0]]) + Drop(s[1..], gone)
  }

  lemma {:induction false} DropMembers<T(!new)>(s: seq<T>, gone: set<T>)
    ensures forall x :: x in Drop(s, gone) <==> x in s && x !in gone
  {
    if |s| > 0 {
      DropMembers(s[1..], gone);
      assert forall x :: x in s <==> x == s[0] || x in s[1..];
    }
  }

  /** The elements of `s` inside `kept`, in order. */
  function Keep<T(==,!new)>(s: seq<T>, kept: set<T>): (r: seq<T>)
    ensures forall x :: x in r <==> x in s && x in kept
  {
    if |s| == 0 then []
    else (if s[0] in kept then [s[0]] else []) + Keep(s[1..], kept)
  }

  function Elems<T>(s: seq<T>): set<T>
  {
    set x | x in s
  }

  predicate Distinct<T(==)>(s: seq<T>)
  {
    forall i, j :: 0 <= i < j < |s| ==> s[i] != s[j]
  }

  lemma DistinctTail<T>(s: seq<T>)
    requires Distinct(s) && |s| > 0
    ensures Distinct(s[1..]) && s[0] !in s[1..]
  {
    forall k | 0 <= k < |s| - 1 ensures s[1..][k] != s[0] {
      assert s[1..][k] == s[k + 1];
    }
  }

  lemma DistinctCons<T>(x: T, s: seq<T>)
    requires x !in s && Distinct(s)
    ensures Distinct([x] + s)
  {
    var r := [x] + s;
    forall i, j | 0 <= i < j < |r| ensures r[i] != r[j] {
      assert r[j] == s[j - 1];
      if i > 0 {
        assert r[i] == s[i - 1];
      }
    }
  }

  lemma {:induction false} DropAppend<T(!new)>(a: seq<T>, b: seq<T>, gone: set<T>)
    ensures Drop(a + b, gone) == Drop(a, gone) + Drop(b, gone)
  {
    if |a| == 0 {
      assert a + b == b;
    } else {
      assert (a + b)[1..] == a[1..] + b;
      DropAppend(a[1..], b, gone);
    }
  }

  lemma {:induction false} SplitSums<T(!new)>(s: seq<T>, kept: set<T>)
    ensures multiset(Keep(s, kept)) + multiset(Drop(s, kept)) == multiset(s)
  {
    if |s| > 0 {
      SplitSums(s[1..], kept);
      assert s == [s[0]] + s[1..];
      assert multiset(s) == multiset{s[0]} + multiset(s[1..]);
      if s[0] in kept {
        assert Keep(s, kept) == [s[0]] + Keep(s[1..], kept);
        assert Drop(s, kept) == Drop(s[1..], kept);
      } else {
        assert Keep(s, kept) == Keep(s[1..], kept);
        assert Drop(s, kept) == [s[0]] + Drop(s[1..], kept);
      }
    }
  }

  /** Removing an element that is going anyway changes nothing that
      stays. */
  lemma {:induction false} RemoveGoneElement<T(!new)>(s: seq<T>, x: T, gone: set<T>)
    requires x in s && x in gone
    ensures Drop(RemoveFirst(s, x), gone) == Drop(s, gone)
  {
    if s[0] != x {
      RemoveGoneElement(s[1..], x, gone);
      var t := RemoveFirst(s[1..], x);
      assert ([s[0]] + t)[1..] == t;
    }
  }

  /** Nothing to drop: the sequence is kept as is. */
  lemma {:induction false} DropNothing<T(!new)>(s: seq<T>, gone: set<T>)
    requires forall x :: x in s ==> x !in gone
    ensures Drop(s, gone) == s
  {
    if |s| > 0 {
      DropNothing(s[1..], gone);
      assert s == [s[0]] + s[1..];
    }
  }

  lemma {:induction false} DropKeepsDistinct<T(!new)>(s: seq<T>, gone: set<T>)
    requires Distinct(s)
    ensures Distinct(Drop(s, gone))
  {
    if |s| > 0 {
      DistinctTail(s);
      DropKeepsDistinct(s[1..], gone);
      DropMembers(s[1..], gone);
      if s[0] !in gone {
        DistinctCons(s[0], Drop(s[1..], gone));
      }
    }
  }

  /** In a sequence without repeats, removing the first occurrence
      removes every occurrence. */
  lemma {:induction false} RemoveFirstDistinct<T(!new)>(s: seq<T>, x: T)
    requires Distinct(s) && x in s
    ensures RemoveFirst(s, x) == Drop(s, {x})
    ensures Distinct(RemoveFirst(s, x))
  {
    DistinctTail(s);
    if s[0] == x {
      DropNothing(s[1..], {x});
    } else {
      RemoveFirstDistinct(s[1..], x);
    }
    DropKeepsDistinct(s, {x});
  }

  /** Removing an element just appended, and found nowhere before it,
      restores the sequence. */
  lemma {:induction false} RemoveAppended<T>(s: seq<T>, x: T)
    requires x !in s
    ensures RemoveFirst(s + [x], x) == s
  {
    if |s| > 0 {
      assert (s + [x])[1..] == s[1..] + [x];
      RemoveAppended(s[1..], x);
      assert s == [s[0]] + s[1..];
    }
  }

  /** No value occurs more than twice. */
  ghost predicate AtMostTwice<T(!new)>(s: seq<T>)
  {
    forall x :: multiset(s)[x] <= 2
  }

  /** Dropping a set takes every copy of its members and leaves the counts
      of everything else alone. */
  lemma {:induction false} DropCount<T(!new)>(s: seq<T>, gone: set<T>, x: T)
    ensures multiset(Drop(s, gone))[x] == if x in gone then 0 else multiset(s)[x]
  {
    if |s| > 0 {
      DropCount(s[1..], gone, x);
      assert s == [s[0]] + s[1..];
    }
  }

  lemma DropKeepsAtMostTwice<T(!new)>(s: seq<T>, gone: set<T>)
    requires AtMostTwice(s)
    ensures AtMostTwice(Drop(s, gone))
  {
    forall x ensures multiset(Drop(s, gone))[x] <= 2 {
      DropCount(s, gone, x);
    }
  }

  /** Dropping a set that holds every element leaves nothing. */
  lemma {:induction false} DropEverything<T(!new)>(s: seq<T>, gone: set<T>)
    requires forall i :: 0 <= i < |s| ==> s[i] in gone
    ensures Drop(s, gone) == []
  {
    if |s| > 0 {
      DropEverything(s[1..], gone);
    }
  }

  /** Removing the only copy removes every copy. */
  lemma {:induction false} RemoveFirstSingle<T(!new)>(s: seq<T>, x: T)
    requires multiset(s)[x] == 1
    ensures RemoveFirst(s, x) == Drop(s, {x})
  {
    assert s == [s[0]] + s[1..];
    if s[0] == x {
      DropNothing(s[1..], {x});
    } else {
      RemoveFirstSingle(s[1..], x);
    }
  }

  /** With at most two copies, removing the first and then, if one is
      left, the next removes every copy. */
  lemma RemoveBothCopies<T(!new)>(s: seq<T>, x: T)
    requires x in s && multiset(s)[x] <= 2
    ensures var once := RemoveFirst(s, x);
            (if x in once then RemoveFirst(once, x) else once) == Drop(s, {x})
  {
    var once := RemoveFirst(s, x);
    assert multiset(once)[x] == multiset(s)[x] - 1;
    if x in once {
      assert multiset(once)[x] == 1;
      RemoveFirstSingle(once, x);
      RemoveGoneElement(s, x, {x});
    } else {
      RemoveFirstSingle(s, x);
    }
  }

  lemma {:induction false} DropTwice<T(!new)>(s: seq<T>, a: set<T>, b: set<T>)
    ensures Drop(Drop(s, a), b) == Drop(s, a + b)
  {
    if |s| > 0 {
      DropTwice(s[1..], a, b);
      DropAppend(if s[0] in a then [] else [s[0]], Drop(s[1..], a), b);
    }
  }
}

/**
 The control state behind the dashboard's HTTP and push endpoints
 (api/server.py): starting and stopping the bot, the configuration, the
 traded markets, the status snapshot, and the push-channel clients. The
 bot is the `Bot.BotState` record; the exchange client is reduced to
 whether one exists; a push-channel client is a number.
 */
module Server {
  import opened Common
  import opened Dicts
  import opened Lists
  import Orders
  import opened Bot

  datatype Value = Flag(b: bool) | Number(x: real) | Count(n: int)

  /** `targets` is the one list object that both the server and the bot
      hold: `start_bot` hands the same list to both. */
  datatype Control = Control(running: bool, bot: Option<BotState>, hasClient: bool,
                             targets: seq<string>, config: map<string, Value>, clients: seq<nat>)

  datatype Result<T> = Ok(value: T) | Err(reason: string)

  const ConfigKeys: set<string> := {"paper_trading", "use_websocket", "base_spread", "order_size",
                                    "max_position", "max_exposure", "refresh_interval"}

  /** The state at start-up; `paperTrading` comes from the environment. */
  function Initial(paperTrading: bool): (r: Control)
    ensures !r.running && r.bot.None? && !r.hasClient
    ensures r.targets == [] && r.clients == []
    ensures r.config.Keys == ConfigKeys
    ensures r.config["paper_trading"] == Flag(paperTrading)
  {
    Control(false, None, false, [],
            map["paper_trading" := Flag(paperTrading), "use_websocket" := Flag(true),
                "base_spread" := Number(0.02), "order_size" := Number(20.0),
                "max_position" := Count(500), "max_exposure" := Number(1000.0),
                "refresh_interval" := Number(5.0)],
            [])
  }

  /** `BotState.start_bot`: a second start is refused; otherwise the
      markets are recorded and a client and a running bot exist. */
  function StartBot(c: Control, tokens: seq<string>, bot: BotState): (r: Result<Control>)
    ensures r.Err? <==> c.running
    ensures r.Ok? ==> r.value.running && r.value.bot == Some(bot) && r.value.hasClient
    ensures r.Ok? ==> r.value.targets == tokens
    ensures r.Ok? ==> r.value.config == c.config && r.value.clients == c.clients
  {
    if c.running then Err("Bot is already running")
    else Ok(c.(running := true, bot := Some(bot), hasClient := true, targets := tokens))
  }

  /** The start endpoint also refuses an empty market list. */
  function StartEndpoint(c: Control, tokens: seq<string>, bot: BotState): (r: Result<Control>)
    ensures r.Ok? <==> !c.running && |tokens| > 0
    ensures r.Ok? ==> r.value.running && r.value.targets == tokens
  {
    if c.running then Err("Bot is already running")
    else if |tokens| == 0 then Err("No token IDs provided")
    else StartBot(c, tokens, bot)
  }

  /** `BotState.stop_bot`: nothing happens unless running; afterwards
      nothing runs and bot and client are gone. The market list stays. */
  function StopBot(c: Control): (r: Control)
    ensures !c.running ==> r == c
    ensures !r.running
    ensures c.running ==> r.bot.None? && !r.hasClient
    ensures r.targets == c.targets && r.config == c.config && r.clients == c.clients
  {
    if !c.running then c else c.(running := false, bot := None, hasClient := false)
  }

  /** The stop endpoint refuses when nothing runs. */
  function StopEndpoint(c: Control): (r: Result<Control>)
    ensures r.Err? <==> !c.running
    ensures r.Ok? ==> !r.value.running && r.value.bot.None?
  {
    if !c.running then Err("Bot is not running") else Ok(StopBot(c))
  }

  /** `_run_bot` returning (the bot ended or failed): only the running flag
      drops; bot and client remain. */
  function RunEnded(c: Control): (r: Control)
    ensures !r.running
    ensures r.bot == c.bot && r.hasClient == c.hasClient && r.targets == c.targets
  {
    c.(running := false)
  }

  /** Starting then stopping returns to a stopped server with the same
      configuration and clients; the market list of the last start stays. */
  lemma StartStopRoundTrip(c: Control, tokens: seq<string>, bot: BotState)
    requires !c.running
    ensures StartBot(c, tokens, bot).Ok?
    ensures var s := StopBot(StartBot(c, tokens, bot).value);
            && !s.running && s.bot.None? && !s.hasClient
            && s.config == c.config && s.clients == c.clients && s.targets == tokens
  {
  }

  lemma StopIdempotent(c: Control)
    ensures StopBot(StopBot(c)) == StopBot(c)
  {
  }

  /** After the bot's own run ends, the stop endpoint refuses, so the bot
      object stays reported (as stopped) until the next start replaces it. */
  lemma EndedRunKeepsBot(c: Control, tokens: seq<string>, bot: BotState)
    requires c.running && c.bot.Some?
    ensures StopEndpoint(RunEnded(c)).Err?
    ensures GetSnapshot(RunEnded(c)).status == "stopped"
    ensures |GetSnapshot(RunEnded(c)).keys| == |RunningKeys|
    ensures StartBot(RunEnded(c), tokens, bot).Ok?
  {
  }

  /** `_get_recent_trades`: the last `limit` fills, most recent first; none
      without a bot or a client. */
  function RecentTrades(c: Control, limit: int): (r: seq<(real, Trade)>)
    ensures (c.bot.None? || !c.hasClient) ==> r == []
    ensures c.bot.Some? && c.hasClient && limit > 0 ==>
              var f := c.bot.value.pnl.fills;
              && |r| == (if limit < |f| then limit else |f|)
              && forall i :: 0 <= i < |r| ==> r[i] == f[|f| - 1 - i]
  {
    if c.bot.None? || !c.hasClient then []
    else
      var f := c.bot.value.pnl.fills;
      var tail := PyTail(f, limit);
      assert limit > 0 ==> tail == f[|f| - |tail|..];
      Reverse(tail)
  }

  const StoppedKeys: seq<string> := ["status", "timestamp"]
  const RunningKeys: seq<string> := ["status", "timestamp", "paper_trading", "use_websocket",
                                     "target_markets", "positions", "orderbooks", "live_orders",
                                     "risk_metrics", "pnl_history", "fills_count", "recent_trades"]

  /** The keys of the pushed status object and the values the model tracks. */
  datatype Snapshot = Snapshot(keys: seq<string>, status: string, targets: seq<string>,
                               fillsCount: nat, recentTrades: seq<(real, Trade)>, halted: bool)

  /** `get_state_snapshot`. */
  function GetSnapshot(c: Control): (r: Snapshot)
    ensures |r.keys| > 0 && r.keys[0] == "status"
    ensures r.status == "running" || r.status == "stopped"
    ensures r.status == "running" <==> c.bot.Some? && c.running
    ensures c.bot.None? ==> r.keys == StoppedKeys
    ensures c.bot.Some? ==> r.keys == RunningKeys && r.targets == c.targets
    ensures c.bot.Some? ==> r.fillsCount == |c.bot.value.pnl.fills| && r.halted == c.bot.value.risk.halted
    ensures c.bot.Some? ==> r.recentTrades == RecentTrades(c, 50)
  {
    match c.bot
    case None => Snapshot(StoppedKeys, "stopped", [], 0, [], false)
    case Some(b) =>
      Snapshot(RunningKeys, if c.running then "running" else "stopped", c.targets,
               |b.pnl.fills|, RecentTrades(c, 50), b.risk.halted)
  }

  /** `update_config`: refused while running; otherwise every known key
      given a value takes it and nothing else changes. */
  function UpdateConfig(c: Control, upd: map<string, Option<Value>>): (r: Result<Control>)
    ensures r.Err? <==> c.running
    ensures r.Ok? ==> r.value.config.Keys == c.config.Keys
    ensures r.Ok? ==> forall k :: k in c.config && k in upd && upd[k].Some? ==> r.value.config[k] == upd[k].value
    ensures r.Ok? ==> forall k :: k in c.config && (k !in upd || upd[k].None?) ==> r.value.config[k] == c.config[k]
    ensures r.Ok? ==> r.value == c.(config := r.value.config)
  {
    if c.running then Err("Cannot update config while bot is running")
    else Ok(c.(config := map k | k in c.config :: if k in upd && upd[k].Some? then upd[k].value else c.config[k]))
  }

  /** Applying the same update twice is the same as once. */
  lemma UpdateConfigIdempotent(c: Control, upd: map<string, Option<Value>>)
    requires !c.running
    ensures UpdateConfig(UpdateConfig(c, upd).value, upd) == UpdateConfig(c, upd)
  {
    var once := UpdateConfig(c, upd).value;
    var twice := UpdateConfig(once, upd).value;
    assert twice.config == once.config;
  }

  /** The loop of `add_market`: each requested token not yet listed is
      appended and reported. When `shared` holds the bot's append lands on
      the same list a second time, as the code is written. */
  function AddTokens(targets: seq<string>, req: seq<string>, shared: bool): (r: (seq<string>, seq<string>))
    decreases |req|
  {
    if |req| == 0 then (targets, [])
    else if req[0] in targets then AddTokens(targets, req[1..], shared)
    else
      var grown := targets + [req[0]] + (if shared then [req[0]] else []);
      var rest := AddTokens(grown, req[1..], shared);
      (rest.0, [req[0]] + rest.1)
  }

  /** Appending once per new token: the list grows by exactly the reported
      tokens, which are the requested tokens not already listed. */
  lemma {:induction false} AddTokensAppends(targets: seq<string>, req: seq<string>)
    ensures var r := AddTokens(targets, req, false);
            && r.0 == targets + r.1
            && (forall x :: x in r.1 <==> x in req && x !in targets)
    decreases |req|
  {
    if |req| > 0 {
      var t := req[0];
      if t in targets {
        AddTokensAppends(targets, req[1..]);
      } else {
        var grown := targets + [t];
        assert targets + [t] + [] == grown;
        AddTokensAppends(grown, req[1..]);
        var rest := AddTokens(grown, req[1..], false);
        assert AddTokens(targets, req, false) == (rest.0, [t] + rest.1);
        assert grown + rest.1 == targets + ([t] + rest.1);
      }
    }
  }

  /** Each new token is reported once, in request order. */
  lemma {:induction false} AddTokensReportsOnce(targets: seq<string>, req: seq<string>)
    ensures var r := AddTokens(targets, req, false);
            Distinct(r.1) && Subsequence(r.1, req)
    decreases |req|
  {
    if |req| > 0 {
      var t := req[0];
      if t in targets {
        AddTokensReportsOnce(targets, req[1..]);
        SubsequenceSkip(AddTokens(targets, req, false).1, req);
      } else {
        var grown := targets + [t];
        assert targets + [t] + [] == grown;
        AddTokensReportsOnce(grown, req[1..]);
        AddTokensAppends(grown, req[1..]);
        var rest := AddTokens(grown, req[1..], false);
        assert AddTokens(targets, req, false) == (rest.0, [t] + rest.1);
        assert ([t] + rest.1)[1..] == rest.1;
        assert t in grown;
        DistinctCons(t, rest.1);
      }
    }
  }

  lemma SubsequenceSkip<T>(a: seq<T>, b: seq<T>)
    requires |b| > 0 && Subsequence(a, b[1..])
    ensures Subsequence(a, b)
  {
  }

  /** `add_market`, appending each new token once. */
  function AddMarket(c: Control, req: seq<string>): (r: Result<(Control, seq<string>)>)
    ensures r.Err? <==> !c.running || |req| == 0
    ensures r.Ok? ==> r.value.0.targets == c.targets + r.value.1
    ensures r.Ok? ==> forall x :: x in r.value.1 <==> x in req && x !in c.targets
    ensures r.Ok? ==> Distinct(r.value.1) && Subsequence(r.value.1, req)
    ensures r.Ok? ==> r.value.0 == c.(targets := r.value.0.targets)
  {
    if !c.running then Err("Bot is not running")
    else if |req| == 0 then Err("No token IDs provided")
    else
      AddTokensAppends(c.targets, req);
      AddTokensReportsOnce(c.targets, req);
      var (t, added) := AddTokens(c.targets, req, false);
      Ok((c.(targets := t), added))
  }

  /** A market list without repeats keeps none after adding. */
  lemma AddMarketKeepsDistinct(c: Control, req: seq<string>)
    requires Distinct(c.targets)
    ensures AddMarket(c, req).Ok? ==> Distinct(AddMarket(c, req).value.0.targets)
  {
    if AddMarket(c, req).Ok? {
      var r := AddMarket(c, req).value;
      var t := r.0.targets;
      forall i, j | 0 <= i < j < |t| ensures t[i] != t[j] {
        if j >= |c.targets| && i < |c.targets| {
          assert t[j] in r.1;
          assert t[i] in c.targets;
        }
      }
    }
  }

  /** `add_market` as written: with a bot and a client present the token
      is appended to the shared list a second time. */
  function AddMarketAsWritten(c: Control, req: seq<string>): (r: Result<(Control, seq<string>)>)
    ensures r.Err? <==> !c.running || |req| == 0
    ensures r.Ok? && !(c.bot.Some? && c.hasClient) ==> r == AddMarket(c, req)
  {
    if !c.running then Err("Bot is not running")
    else if |req| == 0 then Err("No token IDs provided")
    else
      var (t, added) := AddTokens(c.targets, req, c.bot.Some? && c.hasClient);
      Ok((c.(targets := t), added))
  }

  /** With the bot running, adding "b" to ["a"] lists "b" twice as
      written, once when corrected. */
  lemma AddMarketListsTwice(c: Control)
    requires c.running && c.bot.Some? && c.hasClient && c.targets == ["a"]
    ensures AddMarketAsWritten(c, ["b"]).value.0.targets == ["a", "b", "b"]
    ensures AddMarket(c, ["b"]).value.0.targets == ["a", "b"]
  {
    assert "b" !in ["a"];
    assert AddTokens(["a", "b", "b"], [], true).0 == ["a", "b", "b"];
    assert AddTokens(["a", "b"], [], false).0 == ["a", "b"];
  }

  /** Adding as written lists a new token twice but never a third time:
      a token already listed is skipped. */
  lemma {:induction false} AddTokensAtMostTwice(targets: seq<string>, req: seq<string>, shared: bool)
    requires AtMostTwice(targets)
    ensures AtMostTwice(AddTokens(targets, req, shared).0)
    decreases |req|
  {
    if |req| > 0 {
      var t := req[0];
      if t in targets {
        AddTokensAtMostTwice(targets, req[1..], shared);
      } else {
        var grown := targets + [t] + (if shared then [t] else []);
        assert multiset(grown) == multiset(targets) + (if shared then multiset{t, t} else multiset{t});
        AddTokensAtMostTwice(grown, req[1..], shared);
      }
    }
  }

  /** Either way, adding keeps the old list as a prefix and appends only
      requested tokens. */
  lemma {:induction false} AddTokensExtends(targets: seq<string>, req: seq<string>, shared: bool)
    ensures var r := AddTokens(targets, req, shared);
            |r.0| >= |targets| && r.0[..|targets|] == targets &&
            forall i :: |targets| <= i < |r.0| ==> r.0[i] in req
    decreases |req|
  {
    if |req| > 0 {
      var t := req[0];
      if t in targets {
        AddTokensExtends(targets, req[1..], shared);
      } else {
        var grown := targets + [t] + (if shared then [t] else []);
        AddTokensExtends(grown, req[1..], shared);
        var r := AddTokens(grown, req[1..], shared);
        assert r.0[..|targets|] == r.0[..|grown|][..|targets|];
        forall i | |targets| <= i < |r.0| ensures r.0[i] in req {
          if i < |grown| {
            assert r.0[i] == r.0[..|grown|][i] == t;
          } else {
            assert r.0[i] in req[1..];
          }
        }
      }
    }
  }

  /** `add_market` as written followed by `remove_market` of the same
      tokens: although the running bot's additions are listed twice, the
      removal takes every copy, so the list ends as the old list without
      the requested tokens. */
  lemma AddAsWrittenThenRemove(c: Control, req: seq<string>)
    requires c.running && |req| > 0 && c.bot.Some? && AtMostTwice(c.targets)
    ensures var added := AddMarketAsWritten(c, req).value.0;
            RemovesEveryCopy(added.targets, added.bot) &&
            RemoveMarket(added, req).value.0.targets == Drop(c.targets, Elems(req))
  {
    var shared := c.bot.Some? && c.hasClient;
    var t := AddTokens(c.targets, req, shared).0;
    var added := AddMarketAsWritten(c, req).value.0;
    assert added == c.(targets := t);
    AddTokensAtMostTwice(c.targets, req, shared);
    assert RemovesEveryCopy(t, added.bot);
    assert RemoveMarket(added, req).value.0.targets == Drop(t, Elems(req));
    AddTokensExtends(c.targets, req, shared);
    var suffix := t[|c.targets|..];
    assert t == c.targets + suffix;
    DropAppend(c.targets, suffix, Elems(req));
    DropEverything(suffix, Elems(req));
  }

  /** No token is ever listed three times: adding as written and removing
      with the bot present both keep every count at two or below. */
  lemma MarketEditsKeepAtMostTwice(c: Control, req: seq<string>)
    requires AtMostTwice(c.targets)
    ensures AddMarketAsWritten(c, req).Ok? ==> AtMostTwice(AddMarketAsWritten(c, req).value.0.targets)
    ensures RemoveMarket(c, req).Ok? && c.bot.Some? ==> AtMostTwice(RemoveMarket(c, req).value.0.targets)
  {
    AddTokensAtMostTwice(c.targets, req, c.bot.Some? && c.hasClient);
    DropKeepsAtMostTwice(c.targets, Elems(req));
  }

  /** What `remove_market` does to the bot for a removed token: cancel its
      orders and forget its book. */
  function Retire(b: BotState, t: string): (r: BotState)
    ensures t !in r.books
    ensures forall k :: k != t ==> (k in r.books <==> k in b.books)
    ensures t != "" ==> Get(r.manager.orders, t) == Some(Orders.NoOrders)
  {
    b.(manager := Orders.CancelAll(b.manager, Some(t)).0, books := b.books - {t})
  }

  /** One listed token leaves: the list loses it (twice over when the bot
      holds the same list, taking a second copy if there is one) and the
      bot retires it. */
  function RemoveStep(targets: seq<string>, bot: Option<BotState>, t: string): (r: (seq<string>, Option<BotState>))
    requires t in targets
    ensures r.1.Some? <==> bot.Some?
    ensures bot.Some? ==> r.1 == Some(Retire(bot.value, t))
    ensures Distinct(targets) ==> r.0 == Drop(targets, {t}) && Distinct(r.0)
    ensures RemovesEveryCopy(targets, bot) ==> r.0 == Drop(targets, {t}) && RemovesEveryCopy(r.0, r.1)
  {
    var once := RemoveFirst(targets, t);
    assert Distinct(targets) ==> once == Drop(targets, {t}) && Distinct(once) && t !in once by {
      if Distinct(targets) {
        RemoveFirstDistinct(targets, t);
        DropMembers(targets, {t});
      }
    }
    assert bot.Some? && AtMostTwice(targets) ==>
      (if t in once then RemoveFirst(once, t) else once) == Drop(targets, {t}) &&
      AtMostTwice(Drop(targets, {t})) by {
      if bot.Some? && AtMostTwice(targets) {
        RemoveBothCopies(targets, t);
        DropKeepsAtMostTwice(targets, {t});
      }
    }
    if bot.Some? then
      (if t in once then RemoveFirst(once, t) else once, Some(Retire(bot.value, t)))
    else (once, bot)
  }

  /** Lists on which one removal step takes every copy of its token: a
      list without repeats, or, with the bot holding the same list, one
      where no token is listed more than twice (what `add_market` as
      written leaves behind). */
  ghost predicate RemovesEveryCopy(targets: seq<string>, bot: Option<BotState>)
  {
    Distinct(targets) || (bot.Some? && AtMostTwice(targets))
  }

  /** The loop of `remove_market`: each requested token still listed is
      removed and reported. */
  function RemoveTokens(targets: seq<string>, bot: Option<BotState>, req: seq<string>):
    (r: (seq<string>, Option<BotState>, seq<string>))
    ensures r.1.Some? <==> bot.Some?
    decreases |req|
  {
    if |req| == 0 then (targets, bot, [])
    else if req[0] !in targets then RemoveTokens(targets, bot, req[1..])
    else
      var step := RemoveStep(targets, bot, req[0]);
      var rest := RemoveTokens(step.0, step.1, req[1..]);
      (rest.0, rest.1, [req[0]] + rest.2)
  }

  /** On a list without repeats, removal drops exactly the requested
      tokens and keeps the rest in order. */
  lemma {:induction false} RemoveTokensDrops(targets: seq<string>, bot: Option<BotState>, req: seq<string>)
    requires RemovesEveryCopy(targets, bot)
    ensures RemoveTokens(targets, bot, req).0 == Drop(targets, Elems(req))
    decreases |req|
  {
    if |req| == 0 {
      DropNothing(targets, Elems(req));
    } else {
      var t := req[0];
      assert Elems(req) == {t} + Elems(req[1..]);
      DropTwice(targets, {t}, Elems(req[1..]));
      if t !in targets {
        assert RemoveTokens(targets, bot, req) == RemoveTokens(targets, bot, req[1..]);
        RemoveTokensDrops(targets, bot, req[1..]);
        DropNothing(targets, {t});
      } else {
        var step := RemoveStep(targets, bot, t);
        assert RemoveTokens(targets, bot, req).0 == RemoveTokens(step.0, step.1, req[1..]).0;
        RemoveTokensDrops(step.0, step.1, req[1..]);
      }
    }
  }

  /** On a list without repeats, removal reports exactly the requested
      tokens that were listed. */
  lemma {:induction false} RemoveTokensReports(targets: seq<string>, bot: Option<BotState>, req: seq<string>)
    requires RemovesEveryCopy(targets, bot)
    ensures forall x :: x in RemoveTokens(targets, bot, req).2 <==> x in req && x in targets
    decreases |req|
  {
    if |req| > 0 {
      var t := req[0];
      assert forall x :: x in req <==> x == t || x in req[1..];
      if t !in targets {
        assert RemoveTokens(targets, bot, req) == RemoveTokens(targets, bot, req[1..]);
        RemoveTokensReports(targets, bot, req[1..]);
      } else {
        var step := RemoveStep(targets, bot, t);
        RemoveTokensReports(step.0, step.1, req[1..]);
        DropMembers(targets, {t});
        var rest := RemoveTokens(step.0, step.1, req[1..]);
        assert RemoveTokens(targets, bot, req).2 == [t] + rest.2;
      }
    }
  }

  /** Each removed token is reported once, in request order. */
  lemma {:induction false} RemoveTokensReportsOnce(targets: seq<string>, bot: Option<BotState>, req: seq<string>)
    requires RemovesEveryCopy(targets, bot)
    ensures Distinct(RemoveTokens(targets, bot, req).2)
    ensures Subsequence(RemoveTokens(targets, bot, req).2, req)
    decreases |req|
  {
    if |req| > 0 {
      var t := req[0];
      if t !in targets {
        assert RemoveTokens(targets, bot, req) == RemoveTokens(targets, bot, req[1..]);
        RemoveTokensReportsOnce(targets, bot, req[1..]);
        SubsequenceSkip(RemoveTokens(targets, bot, req).2, req);
      } else {
        var step := RemoveStep(targets, bot, t);
        RemoveTokensReportsOnce(step.0, step.1, req[1..]);
        RemoveTokensReports(step.0, step.1, req[1..]);
        var rest := RemoveTokens(step.0, step.1, req[1..]);
        assert RemoveTokens(targets, bot, req).2 == [t] + rest.2;
        assert ([t] + rest.2)[1..] == rest.2;
        DropMembers(targets, {t});
        assert t !in step.0;
        DistinctCons(t, rest.2);
      }
    }
  }

  /** The bot forgets the book of every removed token and keeps the
      others. */
  lemma {:induction false} RemoveTokensForgetsBooks(targets: seq<string>, b: BotState, req: seq<string>)
    ensures var r := RemoveTokens(targets, Some(b), req);
            forall k :: k in r.1.value.books <==> k in b.books && k !in r.2
    decreases |req|
  {
    if |req| > 0 {
      var t := req[0];
      if t !in targets {
        assert RemoveTokens(targets, Some(b), req) == RemoveTokens(targets, Some(b), req[1..]);
        RemoveTokensForgetsBooks(targets, b, req[1..]);
      } else {
        var step := RemoveStep(targets, Some(b), t);
        RemoveTokensForgetsBooks(step.0, step.1.value, req[1..]);
      }
    }
  }

  /** No orders are left on any of `ks` (an empty token id excepted). */
  ghost predicate Cleared(b: BotState, ks: seq<string>)
  {
    forall k :: k in ks && k != "" ==> Get(b.manager.orders, k) == Some(Orders.NoOrders)
  }

  /** No orders are left on a removed (non-empty) token. An empty token
      id is falsy, and cancelling with it cancels every market. */
  lemma {:induction false} RemoveTokensCancels(targets: seq<string>, b: BotState, req: seq<string>)
    ensures Cleared(RemoveTokens(targets, Some(b), req).1.value, RemoveTokens(targets, Some(b), req).2)
    decreases |req|
  {
    var r := RemoveTokens(targets, Some(b), req);
    if |req| > 0 {
      var t := req[0];
      if t !in targets {
        assert r == RemoveTokens(targets, Some(b), req[1..]);
        RemoveTokensCancels(targets, b, req[1..]);
      } else {
        var retired := Retire(b, t);
        var step := RemoveStep(targets, Some(b), t);
        assert step == (step.0, Some(retired));
        var rest := RemoveTokens(step.0, Some(retired), req[1..]);
        assert r == (rest.0, rest.1, [t] + rest.2);
        RemoveTokensCancels(step.0, retired, req[1..]);
        assert Cleared(rest.1.value, rest.2);
        if t != "" {
          StaysCleared(step.0, retired, req[1..], t);
        }
        assert Cleared(rest.1.value, [t] + rest.2);
      }
    }
  }

  /** A token whose orders were cleared stays cleared through later
      removals. */
  lemma {:induction false} StaysCleared(targets: seq<string>, b: BotState, req: seq<string>, t: string)
    requires Get(b.manager.orders, t) == Some(Orders.NoOrders)
    ensures Get(RemoveTokens(targets, Some(b), req).1.value.manager.orders, t) == Some(Orders.NoOrders)
    decreases |req|
  {
    if |req| > 0 {
      var u := req[0];
      if u !in targets {
        assert RemoveTokens(targets, Some(b), req) == RemoveTokens(targets, Some(b), req[1..]);
        StaysCleared(targets, b, req[1..], t);
      } else {
        var step := RemoveStep(targets, Some(b), u);
        assert Get(step.1.value.manager.orders, t) == Some(Orders.NoOrders);
        StaysCleared(step.0, step.1.value, req[1..], t);
      }
    }
  }

  /** `remove_market`. */
  function RemoveMarket(c: Control, req: seq<string>): (r: Result<(Control, seq<string>)>)
    ensures r.Err? <==> !c.running || |req| == 0
    ensures r.Ok? && RemovesEveryCopy(c.targets, c.bot) ==> r.value.0.targets == Drop(c.targets, Elems(req))
    ensures r.Ok? && RemovesEveryCopy(c.targets, c.bot) ==> forall x :: x in r.value.1 <==> x in req && x in c.targets
    ensures r.Ok? && RemovesEveryCopy(c.targets, c.bot) ==> Distinct(r.value.1) && Subsequence(r.value.1, req)
    ensures r.Ok? ==> r.value.0.bot.Some? == c.bot.Some?
    ensures r.Ok? ==> r.value.0 == c.(targets := r.value.0.targets, bot := r.value.0.bot)
  {
    if !c.running then Err("Bot is not running")
    else if |req| == 0 then Err("No token IDs provided")
    else
      var (t, bot, removed) := RemoveTokens(c.targets, c.bot, req);
      assert RemovesEveryCopy(c.targets, c.bot) ==>
        t == Drop(c.targets, Elems(req)) &&
        (forall x :: x in removed <==> x in req && x in c.targets) &&
        Distinct(removed) && Subsequence(removed, req) by {
        if RemovesEveryCopy(c.targets, c.bot) {
          RemoveTokensDrops(c.targets, c.bot, req);
          RemoveTokensReports(c.targets, c.bot, req);
          RemoveTokensReportsOnce(c.targets, c.bot, req);
        }
      }
      Ok((c.(targets := t, bot := bot), removed))
  }

  /** Removal keeps a list without repeats free of them. */
  lemma RemoveMarketKeepsDistinct(c: Control, req: seq<string>)
    requires Distinct(c.targets)
    ensures RemoveMarket(c, req).Ok? ==> Distinct(RemoveMarket(c, req).value.0.targets)
  {
    DropKeepsDistinct(c.targets, Elems(req));
  }

  /** Python's loop that removes each entry of `xs` in turn. */
  function RemoveEach<T(==)>(s: seq<T>, xs: seq<T>): (r: seq<T>)
    decreases |xs|
  {
    if |xs| == 0 then s
    else if xs[0] in s then RemoveEach(RemoveFirst(s, xs[0]), xs[1..])
    else RemoveEach(s, xs[1..])
  }

  lemma {:induction false} RemoveEachSpec<T(!new)>(s: seq<T>, xs: seq<T>, gone: set<T>)
    requires forall x :: x in xs ==> x in gone
    requires multiset(xs) <= multiset(s)
    ensures Drop(RemoveEach(s, xs), gone) == Drop(s, gone)
    ensures multiset(RemoveEach(s, xs)) == multiset(s) - multiset(xs)
    decreases |xs|
  {
    if |xs| > 0 {
      var x := xs[0];
      assert xs == [x] + xs[1..];
      assert multiset(xs) == multiset{x} + multiset(xs[1..]);
      assert x in multiset(s);
      RemoveGoneElement(s, x, gone);
      RemoveEachSpec(RemoveFirst(s, x), xs[1..], gone);
    }
  }

  /** Removing each collected failure, one `remove` at a time, leaves
      exactly the clients that were reached, in order; repeated entries
      included. */
  lemma RemoveFailedLeavesReached(clients: seq<nat>, unreachable: set<nat>)
    ensures RemoveEach(clients, Keep(clients, unreachable)) == Drop(clients, unreachable)
  {
    var failed := Keep(clients, unreachable);
    SplitSums(clients, unreachable);
    RemoveEachSpec(clients, failed, unreachable);
    var left := RemoveEach(clients, failed);
    assert multiset(left) == multiset(Drop(clients, unreachable));
    DropMembers(clients, unreachable);
    forall ws | ws in left ensures ws !in unreachable {
      assert ws in multiset(left);
      assert ws in multiset(Drop(clients, unreachable));
    }
    DropNothing(left, unreachable);
  }

  /** One push round of `_broadcast_loop`: the clients whose send failed
      are collected, then each is removed. */
  function Broadcast(clients: seq<nat>, unreachable: set<nat>): (r: seq<nat>)
    ensures r == Drop(clients, unreachable)
    ensures forall ws :: ws in r <==> ws in clients && ws !in unreachable
  {
    RemoveFailedLeavesReached(clients, unreachable);
    DropMembers(clients, unreachable);
    RemoveEach(clients, Keep(clients, unreachable))
  }

  /** A push-channel client connects: it joins the list. */
  function Connect(c: Control, ws: nat): (r: Control)
    ensures r.clients == c.clients + [ws]
    ensures r == c.(clients := r.clients)
  {
    c.(clients := c.clients + [ws])
  }

  /** A client leaves: its first entry is removed if still listed. */
  function Disconnect(c: Control, ws: nat): (r: Control)
    ensures ws in c.clients ==> multiset(r.clients) == multiset(c.clients) - multiset{ws}
    ensures ws !in c.clients ==> r == c
    ensures r == c.(clients := r.clients)
  {
    if ws in c.clients then c.(clients := RemoveFirst(c.clients, ws)) else c
  }

  /** A client that connects and leaves again leaves the list as it was,
      when it was not listed before. */
  lemma ConnectDisconnect(c: Control, ws: nat)
    requires ws !in c.clients
    ensures Disconnect(Connect(c, ws), ws) == c
  {
    RemoveAppended(c.clients, ws);
  }

  /** What a connected client sends, or a 30-second wait with nothing. */
  datatype Incoming = Text(data: string) | Silence

  /** A frame `websocket_endpoint` itself sends on its connection. The
      once-a-second snapshots of `_broadcast_loop` reach the same
      connection as well; they are modelled by `Broadcast`, not here. */
  datatype Frame = State(snapshot: Snapshot) | Pong | Keepalive

  /** The replies to incoming traffic: "ping" is answered by "pong", a
      silent wait by a keepalive frame, anything else by nothing. */
  function Replies(inbox: seq<Incoming>): (r: seq<Frame>)
    ensures forall i :: 0 <= i < |r| ==> r[i] == Pong || r[i] == Keepalive
    ensures |r| <= |inbox|
  {
    if |inbox| == 0 then []
    else
      (match inbox[0]
       case Silence => [Keepalive]
       case Text(d) => if d == "ping" then [Pong] else [])
      + Replies(inbox[1..])
  }

  function Pings(inbox: seq<Incoming>): nat
  {
    if |inbox| == 0 then 0 else (if inbox[0] == Text("ping") then 1 else 0) + Pings(inbox[1..])
  }

  function Silences(inbox: seq<Incoming>): nat
  {
    if |inbox| == 0 then 0 else (if inbox[0] == Silence then 1 else 0) + Silences(inbox[1..])
  }

  /** What `websocket_endpoint` itself sends while connected: the current
      snapshot first, then the replies. Broadcast snapshots are
      interleaved with these on the wire and are not part of this
      sequence. */
  function Session(c: Control, inbox: seq<Incoming>): (r: seq<Frame>)
    ensures |r| >= 1 && r[0] == State(GetSnapshot(c))
    ensures forall i :: 1 <= i < |r| ==> r[i] == Pong || r[i] == Keepalive
  {
    [State(GetSnapshot(c))] + Replies(inbox)
  }

  /** Every ping gets one pong and every silent wait one keepalive; the
      endpoint sends no other reply. */
  lemma {:induction false} RepliesCount(inbox: seq<Incoming>)
    ensures |Replies(inbox)| == Pings(inbox) + Silences(inbox)
  {
    if |inbox| > 0 {
      RepliesCount(inbox[1..]);
    }
  }
}
